=== FILE: README.md ===
# Polygon area effector — a Dafny model

This project models the core of a Unity 2D "polygon area effector". A
designer lays out a chain of quadrilateral boxes that share corner nodes. Each
box has a flow direction. Every physics tick, each rigid body inside some box
is pushed along that box's flow, and it is sent Enter, Stay and Exit messages
as it enters, stays in and leaves the chain.

The model covers three source files:

- `MathUtility.cs`, module `Geometry`:
  - the ray-casting point-in-polygon test;
  - midpoints;
  - the axis-aligned bounding box;
  - the shoelace area.
- `Box.cs`, module `Boxes`:
  - the default square, corner snapshots and cached bounding boxes;
  - the mid-edge and edge-length queries, and the aim direction;
  - translation;
  - node reconnection, and removing a box from the chain.
- `PolygonAreaEffector.cs`, module `AreaEffector`:
  - editing the chain: default box, adding a box, inversion;
  - the aggregate bounding box, centre and total area;
  - `Awake`;
  - `Process`, the per-tick enter/stay/exit state machine.

## Modelling choices

- Shared corners: a `BoxNode` is a mutable object that several boxes hold at
  once. The model uses an arena, `Arena = seq<Vec>`. A box stores four arena
  indices, so moving a node moves it in every box that shares it.
- References: a box's parent reference becomes an `Option<nat>` index into
  the chain. Box identity (`b != this`, `b.parent == this`) is index equality.
- Numbers: `float` is modelled by exact `real`.
  - `Mathf.RoundToInt` rounds to the nearest integer, ties to even.
  - The `(int)` cast truncates toward zero.
- Parameters for what cannot be computed here:
  - `Vector2.normalized` is the parameter `unit`.
  - `Vector2.Distance` is the parameter `distance` in `GetEdgeLength`.
  - In `RemoveBoxAndConnectToChild`, candidates are ordered by squared
    distance. Square root is monotone, so this is the same order, ties
    included.
  - `Time.deltaTime` and `Time.fixedDeltaTime` are parameters of a tick.
- Exceptions: two calls that throw in the source return `None` in the model.
  - `First()` on an empty list.
  - Dereferencing the null parent of a root box.
  Other throwing cases are excluded by a precondition instead. Most of them
  amount to "bake first", and "## Left out" lists each member that has one.
- Bodies and messages: a tick returns the message it would send (`Event`) and
  the updated time-inside dictionary. It does not send the message.

## Model

| member | source | states |
|---|---|---|
| Geometry.IsPointInPolygon | Runtime/Scripts/MathUtility.cs:11-20 | the test accepts exactly when an odd number of edges toggle the flag; an empty vertex list is never entered |
| Geometry.ScanParity | Runtime/Scripts/MathUtility.cs:14-18 | the loop's flag is the starting flag flipped once per crossing edge |
| Geometry.NoStraddleIsOutside | Runtime/Scripts/MathUtility.cs:15-17 | with every vertex on one side of the horizontal line through p, p is outside |
| Geometry.CrossingPointBounded | Runtime/Scripts/MathUtility.cs:16 | the intersection of a straddling edge with the ray's line is no further right than the edge's rightmost end |
| Geometry.RightOfAllIsOutside | Runtime/Scripts/MathUtility.cs:11-20 | a point at or right of every vertex is outside |
| Geometry.LoopStraddlesEven | Runtime/Scripts/MathUtility.cs:14 | round the closed loop of edges the number of side changes is even |
| Geometry.LeftOfAllIsOutside | Runtime/Scripts/MathUtility.cs:11-20 | a point strictly left of every vertex is outside, since every straddling edge then toggles |
| Geometry.InsideIsWithinHalfOpenBounds | Runtime/Scripts/MathUtility.cs:11-20 | an accepted point lies in the vertices' bounding box with the minimum sides included and the maximum sides excluded |
| Geometry.UnitSquareContainment | Runtime/Scripts/MathUtility.cs:11-20 | the centre of the unit square is inside; a point right of it is outside |
| Geometry.MiddlePoint | Runtime/Scripts/MathUtility.cs:21-23 | the result is equidistant, as a vector, from both ends |
| Geometry.MiddlePointExample | Runtime/Scripts/MathUtility.cs:21-23 | the midpoint of (0,0) and (2,4) is (1,2) |
| Geometry.MiddlePointSymmetric | Runtime/Scripts/MathUtility.cs:21-23 | the midpoint does not depend on the order of its arguments |
| Geometry.MiddlePointOfItself | Runtime/Scripts/MathUtility.cs:21-23 | the midpoint of a point with itself is that point |
| Geometry.MaxOf | Runtime/Scripts/MathUtility.cs:28 | the maximum bounds every element and is one of them |
| Geometry.MinOf | Runtime/Scripts/MathUtility.cs:27 | the minimum bounds every element and is one of them |
| Geometry.BoundingBox | Runtime/Scripts/MathUtility.cs:25-47 | the [max, min] pair contains every point and each of its four sides is reached by a point |
| Geometry.ClosedLoopSum | Runtime/Scripts/MathUtility.cs:50-53 | summing over the list with its first vertex appended is the sum over the closed vertex loop |
| Geometry.PolygonArea | Runtime/Scripts/MathUtility.cs:49-54 | the area is half the absolute loop sum, is never negative, and the input is extended by its first vertex |
| Geometry.PolygonAreaTranslationInvariant | Runtime/Scripts/MathUtility.cs:49-54 | moving every vertex by the same vector leaves the area unchanged |
| Geometry.UnitSquareArea | Runtime/Scripts/MathUtility.cs:49-54 | the unit square has area 1 |
| Geometry.RectangleArea | Runtime/Scripts/MathUtility.cs:49-54 | a 2 by 3 rectangle has area 6 |
| Geometry.RoundToInt | Runtime/Scripts/PolygonAreaEffector.cs:108-109 | the result is within one half of the input, and a tie goes to the even integer |
| Geometry.RoundToIntOfInteger | Runtime/Scripts/PolygonAreaEffector.cs:108-109 | rounding an integral value gives it back |
| Geometry.Truncate | Runtime/Scripts/Box.cs:187 | the cast truncates toward zero: the result is within one of the input, on the zero side |
| Geometry.TruncateNonZero | Runtime/Scripts/Box.cs:186-188 | the cast is non-zero exactly when the value is at least one away from zero |
| Geometry.BoundaryIsRejected | Runtime/Scripts/Box.cs:166-168 | the exclusive bounding-box test rejects every point on a side of the box |
| Geometry.StrictlyInsideGrows | Runtime/Scripts/PolygonAreaEffector.cs:203-205 | a point strictly inside a box is strictly inside any box that encloses it |
| Boxes.Blank | Runtime/Scripts/Box.cs:10-24 | a new box has no parent, no snapshot and no cached bounding box, its direction, connection direction and cached centre are zero, and the polygon test accepts no point for it |
| Boxes.Default | Runtime/Scripts/Box.cs:25-35 | four new nodes, top-left, top-right, bottom-right, bottom-left, form a square of side s whose origin is the given centre; the other fields are those of a new box |
| Boxes.DefaultArea | Runtime/Scripts/Box.cs:25-35 | the default square of side s has area s*s |
| Boxes.Points | Runtime/Scripts/Box.cs:182-184 | the four live corner positions in slot order |
| Boxes.Origin | Runtime/Scripts/Box.cs:170-176 | the midpoint of the two diagonal midpoints is the average of the four corners |
| Boxes.UpdatePointsIfNeeded | Runtime/Scripts/Box.cs:47-50 | the snapshot is taken only when it is empty; a non-empty snapshot is kept |
| Boxes.BakeBox | Runtime/Scripts/Box.cs:52-55 | the snapshot holds the live corners, the centre is the live origin, and the cached box encloses the snapshot with every side reached; nothing else changes |
| Boxes.BakedBounds | Runtime/Scripts/Box.cs:57-72 | the getter's left-to-right scan computes the same pair as MathUtility.BoundingBox |
| Boxes.ScanBoundsSpec | Runtime/Scripts/Box.cs:64-69 | the running extremes bound every later point and each is its start value or reached by a later point |
| Boxes.TightBoundsUnique | Runtime/Scripts/Box.cs:57-72 | two enclosing boxes that both have every side reached by a point are equal |
| Boxes.BakeIdempotent | Runtime/Scripts/Box.cs:52-55 | baking twice with no node moved in between is baking once |
| Boxes.InsidePolygon | Runtime/Scripts/Box.cs:162-164 | a point can only be inside a box with a non-empty snapshot |
| Boxes.PolygonHitWithinBakedBounds | Runtime/Scripts/Box.cs:162-168 | when the cached box is the snapshot's bounding box, as BakeBox leaves it, a point the polygon test accepts lies in the cached box: closed at the minimum sides, open at the maximum sides |
| Boxes.InsideBB | Runtime/Scripts/Box.cs:166-168 | true exactly when the point is strictly between the cached box's sides on both axes; a point on any side is rejected, and an accepted point is within the box |
| Boxes.IsDirectionVertical | Runtime/Scripts/Box.cs:186-188 | vertical exactly when the y component is at least one away from zero |
| Boxes.SelectedEdge | Runtime/Scripts/Box.cs:74-95 | the four-way match names a side of the quad; for sign 1 or -1 it matches exactly when the direction is one of the four cardinals |
| Boxes.SelectedEdgeFlip | Runtime/Scripts/Box.cs:74-84 | negating both the direction and the sign selects the same edge |
| Boxes.CardinalEdgesOpposite | Runtime/Scripts/Box.cs:74-84 | for a cardinal direction both signs select a side of the quad; the two sides are disjoint and together cover all four corners |
| Boxes.GetMidEdgePoint | Runtime/Scripts/Box.cs:74-84 | the zero vector when no case of the four-way match applies |
| Boxes.MidEdgePointFlip | Runtime/Scripts/Box.cs:74-84 | inverting a box's direction swaps its entry and exit mid-edge points |
| Boxes.GetEdgeLength | Runtime/Scripts/Box.cs:85-96 | 0 when no case applies, otherwise the distance between the selected edge's two snapshot corners |
| Boxes.EdgeLengthAndMidpointAgree | Runtime/Scripts/Box.cs:74-96 | the length and the midpoint queries measure the same edge; the midpoint is halfway between its ends |
| Boxes.EdgeLengthFlip | Runtime/Scripts/Box.cs:85-96 | the length under direction d and sign s equals the length under -d and -s |
| Boxes.ExitOfSelected | Runtime/Scripts/Box.cs:74-84 | for each cardinal direction, sign -1 selects the edge the flow leaves by |
| Boxes.EntryOfSelected | Runtime/Scripts/Box.cs:74-84 | for each cardinal direction, sign +1 selects the edge the flow enters by |
| Boxes.AimEdge | Runtime/Scripts/Box.cs:100-111 | the aim edge is a side of the quad; for a cardinal direction it is the exit edge the box is left by, and for the zero direction (neither component reaching 1 in magnitude) it is edge 1-2 |
| Boxes.RelativeTarget | Runtime/Scripts/Box.cs:99-112 | the aim midpoint is halfway between the target and the cached centre, so the target is the centre reflected through that midpoint |
| Boxes.AimEdgeOfCardinal | Runtime/Scripts/Box.cs:100-111 | the edge aimed through for each cardinal direction |
| Boxes.AimsThroughExitEdge | Runtime/Scripts/Box.cs:97-115 | for a cardinal direction the aim goes through the exit mid-edge point GetMidEdgePoint(-1) |
| Boxes.RelativeDirection | Runtime/Scripts/Box.cs:97-115 | fills a missing snapshot, then aims from `from` towards the reflected target |
| Boxes.MoveNodesSpec | Runtime/Scripts/Box.cs:40-43 | each node moves by the offset once for every slot holding it |
| Boxes.TranslatePoints | Runtime/Scripts/Box.cs:37-45 | every arena node moves by (c - cached centre) times the number of the box's slots holding it, and c becomes the cached centre |
| Boxes.TranslateRigid | Runtime/Scripts/Box.cs:37-45 | with four distinct corners, every corner and the origin move by the same offset; other nodes, corner-to-corner vectors and the area are kept |
| Boxes.AliasToAllSpec | Runtime/Scripts/Box.cs:120-123 | positions are kept; a changed slot holds a node of the other box; a slot with a coincident node takes one |
| Boxes.ReconnectNodes | Runtime/Scripts/Box.cs:117-124 | only the box's own slots change, and no corner moves; a slot whose position another box has takes a node of another box, and any other slot keeps its node |
| Boxes.GetChildBox | Runtime/Scripts/Box.cs:125-130 | the first box in list order whose parent is this box, or none exactly when no box has it as parent |
| Boxes.SharedNodes | Runtime/Scripts/Box.cs:137-140 | holds exactly the nodes of the other box that sit at one of this box's corners |
| Boxes.GetChildSharedNodes | Runtime/Scripts/Box.cs:134-142 | holds exactly the first child's nodes that sit at one of this box's corners |
| Boxes.Nearest | Runtime/Scripts/Box.cs:153 | picks a candidate at minimum distance, and the first such in list order |
| Boxes.RelinkSlot | Runtime/Scripts/Box.cs:151-156 | a slot not in the shared list is untouched; a slot holding the current shared node, with no later shared node among the candidates, takes the first candidate at minimum distance, and exactly that one leaves the pool; with no candidate left it fails |
| Boxes.RelinkSlotDisjoint | Runtime/Scripts/Box.cs:151-156 | when no candidate is a shared node, a slot holding a shared node anywhere in the list takes the first nearest candidate and removes it from the pool |
| Boxes.RelinkSlots | Runtime/Scripts/Box.cs:150-158 | only shared slots change; each new node comes from the candidates, and none is used twice |
| Boxes.RelinkSlotsFails | Runtime/Scripts/Box.cs:150-158 | when no candidate is a shared node, the loop fails exactly when more slots hold shared nodes than there are candidates |
| Boxes.RelinkSlotsConsumes | Runtime/Scripts/Box.cs:150-158 | when no candidate is a shared node, the new slot values and the unused candidates together are exactly the candidate list |
| Boxes.RelinkSlotsNearest | Runtime/Scripts/Box.cs:150-158 | when no candidate is a shared node, each slot holding a shared node takes a candidate not taken by an earlier slot, and no such candidate is nearer to the node it replaces; other slots keep their node |
| Boxes.NearestReplaces | Runtime/Scripts/Box.cs:150-158 | after nearest-first relinking with no candidate among the shared nodes, every slot that held a shared node holds a candidate instead |
| Boxes.ConnectParent | Runtime/Scripts/Box.cs:147-159 | the relinking and re-parenting for a known parent and child: only the parent's slots and the child's parent link change, changed slots take candidates, none twice; with no candidate among the shared nodes it fails exactly when candidates run out, and otherwise relinks nearest-first and replaces every shared slot |
| Boxes.Reparent | Runtime/Scripts/Box.cs:159 | the parent takes the new slots and the child is re-parented; every other box is unchanged |
| Boxes.ReparentWellFormed | Runtime/Scripts/Box.cs:144-160 | re-parenting keeps the chain well formed |
| Boxes.RemoveBoxAndConnectToChild | Runtime/Scripts/Box.cs:144-160 | a no-op without a child and an error for a root with a child. Otherwise: only the parent's shared slots may change, each changed one to a node the removed box shares with its child, no such node used twice; the child is re-parented; other boxes are unchanged; the chain stays well formed. When no such node is one of the parent-shared nodes: it fails exactly when the parent has more shared slots than there are candidates, and otherwise every shared slot of the parent is replaced, nearest-first, by a node not yet taken |
| Boxes.StraightRemoval | Runtime/Scripts/Box.cs:144-160 | in three squares in a row, box 0 on nodes [0,1,2,3], box 1 on [1,4,5,2] and box 2 on [4,6,7,5], the nodes box 1 shares with box 2 ([4,5]) are not among those box 0 shares with box 1 ([1,2]); removing box 1 succeeds, box 0's shared slots take 4 and 5 nearest-first so that it spans [0,4,5,3], box 2 becomes box 0's child, and box 1 is left as it was |
| AreaEffector.GenerateDefaultBox | Runtime/Scripts/PolygonAreaEffector.cs:102-105 | one well-formed, parentless square of side 2 centred on the position, otherwise blank (no snapshot, no cached bounds, cached centre and direction zero), with the configuration kept |
| AreaEffector.DestroyArea | Runtime/Scripts/PolygonAreaEffector.cs:144-146 | the chain is reset to one box centred on the position, with total area 4 |
| AreaEffector.RoundDirection | Runtime/Scripts/PolygonAreaEffector.cs:108-109 | each component moves by at most one half, to an integer |
| AreaEffector.RoundDirectionIdempotent | Runtime/Scripts/PolygonAreaEffector.cs:108-109 | rounding twice is rounding once |
| AreaEffector.RoundNoisyRight | Runtime/Scripts/PolygonAreaEffector.cs:108-109 | a slightly noisy rightward direction (0.9, 0.1) rounds to the cardinal Right |
| AreaEffector.AddBoxRoundsDirection | Runtime/Scripts/PolygonAreaEffector.cs:107-109 | passing an already rounded direction gives the same result |
| AreaEffector.NewSlots | Runtime/Scripts/PolygonAreaEffector.cs:115-138 | the new box's entry edge holds the father's exit-edge nodes and its exit edge holds the two fresh nodes |
| AreaEffector.NewSlotsLayout | Runtime/Scripts/PolygonAreaEffector.cs:115-138 | for each direction the fresh nodes fill two slots, the other two hold father nodes, and each fresh node sits on a side edge with its anchor |
| AreaEffector.NewSlotsJoin | Runtime/Scripts/PolygonAreaEffector.cs:115-138 | the new box's entry edge is made of the father's exit-edge nodes |
| AreaEffector.AddBox | Runtime/Scripts/PolygonAreaEffector.cs:107-142 | the chain grows by one box and the arena by two nodes, moving no existing node. The father only takes the direction, its opposite as connection direction and possibly a snapshot. The new box takes the direction, the father as parent and the layout of its case |
| AreaEffector.Attach | Runtime/Scripts/PolygonAreaEffector.cs:115-141 | the father is replaced by the aimed box, the new box is appended with the direction, the father as parent and the layout of its case, and each fresh node is its anchor moved by twice the aim vector; nothing else changes |
| AreaEffector.AddBoxPlacesFreshNodes | Runtime/Scripts/PolygonAreaEffector.cs:114-138 | each fresh node is its anchor moved by twice the father's aim vector |
| AreaEffector.AddBoxJoinsExitToEntry | Runtime/Scripts/PolygonAreaEffector.cs:107-142 | father and new box face the same cardinal and are joined along one edge made of the same nodes: the father's exit edge and the new box's entry edge |
| AreaEffector.AddBoxAddsArea | Runtime/Scripts/PolygonAreaEffector.cs:178-188 | adding a box increases the total area by exactly the new box's area |
| AreaEffector.InvertBox | Runtime/Scripts/PolygonAreaEffector.cs:152-154 | only that box's direction is negated |
| AreaEffector.InvertBoxTwice | Runtime/Scripts/PolygonAreaEffector.cs:152-154 | inverting one box twice restores the chain |
| AreaEffector.InvertDirection | Runtime/Scripts/PolygonAreaEffector.cs:148-151 | every box's direction is negated and nothing else changes |
| AreaEffector.InvertDirectionTwice | Runtime/Scripts/PolygonAreaEffector.cs:148-151 | inverting the chain twice restores it |
| AreaEffector.InvertBoxUndoesInvert | Runtime/Scripts/PolygonAreaEffector.cs:148-154 | inverting one box of an inverted chain restores that box |
| AreaEffector.InvertSwapsMidEdges | Runtime/Scripts/PolygonAreaEffector.cs:148-151 | after inversion each box's entry mid-edge point is its old exit point and the other way round |
| AreaEffector.ChainBoundingBox | Runtime/Scripts/PolygonAreaEffector.cs:40-50 | the aggregate box encloses both cached corners of every box |
| AreaEffector.ChainBoundingBoxAttained | Runtime/Scripts/PolygonAreaEffector.cs:40-50 | each side of the aggregate is a side of some box's cached box |
| AreaEffector.CornerOwner | Runtime/Scripts/PolygonAreaEffector.cs:44-46 | every point gathered by the getter is a cached corner of some box |
| AreaEffector.Center | Runtime/Scripts/PolygonAreaEffector.cs:51-56 | the centre is the midpoint of the aggregate box and lies in it |
| AreaEffector.InsideBB | Runtime/Scripts/PolygonAreaEffector.cs:57-59 | the test against the aggregate box is strict on both axes: true exactly when the point is strictly between its sides, and false for a point on any side; BBVisible at lines 57-59 and InsideBB at lines 203-205 are the same test |
| AreaEffector.TotalArea | Runtime/Scripts/PolygonAreaEffector.cs:178-188 | the sum of the boxes' areas, never negative |
| AreaEffector.TotalAreaSingle | Runtime/Scripts/PolygonAreaEffector.cs:183-188 | the total of a one-box chain is that box's area |
| AreaEffector.TotalAreaSameCorners | Runtime/Scripts/PolygonAreaEffector.cs:183-188 | chains whose boxes have the same corner nodes have the same total |
| AreaEffector.AreaOfGrownChain | Runtime/Scripts/PolygonAreaEffector.cs:183-188 | a chain grown by one box in an extended arena gains exactly that box's area |
| AreaEffector.BakeAll | Runtime/Scripts/PolygonAreaEffector.cs:25 | every box is baked against the arena, in list order |
| AreaEffector.BakeAllReady | Runtime/Scripts/PolygonAreaEffector.cs:25 | after baking, the chain is well formed and every box is bounded, has a four-corner snapshot and is baked |
| AreaEffector.Awake | Runtime/Scripts/PolygonAreaEffector.cs:24-33 | every box is baked against the arena, in order, and an aggregate box is cached; nothing else changes |
| AreaEffector.AwakeReady | Runtime/Scripts/PolygonAreaEffector.cs:24-33 | after Awake the cached box is the aggregate of the boxes' freshly cached boxes, which is everything Process relies on |
| AreaEffector.Matches | Runtime/Scripts/PolygonAreaEffector.cs:72 | a matched point is accepted by the polygon test and strictly inside the box's cached bounds |
| AreaEffector.MatchesOnBakedBox | Runtime/Scripts/PolygonAreaEffector.cs:72 | on a baked box, a point matches exactly when the polygon test accepts it and it is off the two minimum sides: the bounds test removes nothing else |
| AreaEffector.FirstMatch | Runtime/Scripts/PolygonAreaEffector.cs:71-90 | the first box in list order that passes both the cheap test and the polygon test, or none exactly when no box does |
| AreaEffector.ProcessedForce | Runtime/Scripts/PolygonAreaEffector.cs:74-82 | the aim scaled by fixedDeltaTime times (force*10 + time*3*incrementer*10), with the masked component zeroed |
| AreaEffector.Tick | Runtime/Scripts/PolygonAreaEffector.cs:61-98 | the intended tick, with both bounding-box guards (the skip at lines 61-63 and the same strict test at line 70) left out: Enter, Stay, Exit or nothing, each exactly in its own case of match and tracked time. Time grows while inside and is reset outside; other bodies' entries are kept; the force is the matching box's aim |
| AreaEffector.TickAsWritten | Runtime/Scripts/PolygonAreaEffector.cs:61-98 | a body outside whatever aggregate box is cached is skipped and its entry kept; inside it, the line-70 guard passes too and the tick is as above |
| AreaEffector.MatchIsInsideAggregate | Runtime/Scripts/PolygonAreaEffector.cs:61-63 | a body that some box holds always passes the pre-filter |
| AreaEffector.TickAsWrittenDiffers | Runtime/Scripts/PolygonAreaEffector.cs:61-63 | the two ticks agree inside the aggregate box; outside it, only the intended tick sends Exit and resets the time |
| AreaEffector.EnterStayExit | Runtime/Scripts/PolygonAreaEffector.cs:83-97 | a body's lifecycle over five ticks: Enter with time 0, Stay with dt, Stay with 2dt, Exit with the time reset, then nothing |
| AreaEffector.DefaultFieldShape | Runtime/Scripts/PolygonAreaEffector.cs:24-33 | after Awake the default square has the cached box from (1,1) to (-1,-1), and the aggregate is that box |
| AreaEffector.BakedSquareAim | Runtime/Scripts/Box.cs:97-112 | a baked zero-direction box with the default square's corners is centred on the origin, aims through edge 1-2, and its aim target is the centre reflected through (1,0), the midpoint of that edge |
| AreaEffector.DefaultFieldAim | Runtime/Scripts/Box.cs:106-112 | after Awake the default square keeps the zero direction, is centred on the origin and aims through edge 1-2 at the origin reflected through (1,0) |
| AreaEffector.DefaultFieldMatches | Runtime/Scripts/PolygonAreaEffector.cs:62-72 | in the default field the origin is held by the box; (5,0) is outside the aggregate box and held by none |
| AreaEffector.ReentryAsWritten | Runtime/Scripts/PolygonAreaEffector.cs:61-63 | as written, a body that leaves the aggregate box and comes back is greeted with Stay and a stale time |
| AreaEffector.ReentryCorrected | Runtime/Scripts/PolygonAreaEffector.cs:91-97 | the intended tick reports Enter, Exit, then Enter with time 0 |
| AreaEffector.StaleTimeAsWritten | Runtime/Scripts/PolygonAreaEffector.cs:61-63 | the concrete counterexample on the default field, both as written and as intended |
| AreaEffector.Process | Runtime/Scripts/PolygonAreaEffector.cs:60-100 | one event per body; every processed body gets a dictionary entry, and the entries of bodies not in the round are kept unchanged |
| AreaEffector.ProcessTimes | Runtime/Scripts/PolygonAreaEffector.cs:60-100 | with distinct ids, each body ends the round with the time a tick of that body alone would leave it |
| AreaEffector.TickDependsOnOwnEntry | Runtime/Scripts/PolygonAreaEffector.cs:64-97 | a body's event, and the time it is left with, depend on the dictionary only through its own entry |
| AreaEffector.ProcessIndependent | Runtime/Scripts/PolygonAreaEffector.cs:60-100 | with distinct ids, each body's event is what a tick of that body alone would give |

## Left out

- Body discovery is left out: `FindBodiesWithLayer`, the layer mask and the `bakeBodies` cache. Bodies are an input list of ids and positions.
- Message sending is left out: `SendMessage` (the returned event is its model) and `AddForce`.
- Physics, gizmos, serialisation and the editor scripts are not part of this model.
- `Awake` adds an `Info` entry of 0 for every discovered body. Bodies are not modelled, and `Tracked` reads a missing entry as 0 anyway.
- `Touching`, `GetTimeInside` and both `IsEmpty` properties are one-line lookups over state the model already exposes.
- `LinearLength`: sums `Vector2.Distance` values, and square roots are not modelled.
- Floating point: `real` is exact, so float rounding error and NaN are not modelled.
- `Vector2 ==` is approximate in Unity (squared distance below 1e-10). The model compares exactly.
- `new Box()` creates four null node slots. In the model a box always holds four arena indices, and the default box and `AddBox` fill them all.
- `new Box()` also leaves `nodePoints` null, so `UpdatePointsIfNeeded` on a box that was never baked throws in the source (`nodePoints.Length` on null). `Boxes.Blank` gives an empty snapshot instead, and the model's `UpdatePointsIfNeeded` then takes the snapshot.
- `Geometry.MaxOf`, `Geometry.MinOf` and `Geometry.BoundingBox`: require a non-empty list. On an empty list LINQ `Max`/`Min` throw in the source.
- `Geometry.PolygonArea`: requires a non-empty list. On an empty list the source throws at `points[0]`.
- `Boxes.GetMidEdgePoint` and `Boxes.GetEdgeLength`: require a four-corner snapshot when a case matches. With a shorter snapshot the source throws on the index.
- `Boxes.RemoveBoxAndConnectToChild`: when `First()` throws part-way, the source has already relinked the earlier parent slots, and the editor then skips `boxes.Remove`. The model returns `None` and drops that partial change.
- `Boxes.RemoveBoxAndConnectToChild`: nearest-first relinking and the replacement of every shared slot are stated only when no candidate is itself one of the parent-shared nodes. That holds when the parent-shared and child-shared nodes are different nodes. In a chain built by `AddBox` this is so along a straight run, where the removed box keeps its parent's direction. `Boxes.StraightRemoval` proves it for three boxes in a row. At a turn it can fail: from box 0 on nodes [0,1,2,3], `AddBox` to the right gives box 1 on [1,4,5,2], and `AddBox` upward from box 1 gives box 2 on [7,6,4,1]. Node 1 is then shared both ways, and removing box 1 leaves box 0 on [0,1,4,3]. In such a case a replaced slot may be replaced again later in the inner loop, and the contract then only says that changed slots take candidates, none twice.
- `Boxes.RelinkSlotsNearest`: states nearest-first with respect to the multiset of unused candidates. The tie-break, the first candidate in list order, is stated one slot at a time by `Boxes.RelinkSlot` and `Boxes.Nearest`.
- `Boxes.RelativeDirection`: `Vector2.normalized` is the parameter `unit`, so nothing is claimed about the length of the result.
- `Boxes.GetEdgeLength`: `Vector2.Distance` is the parameter `distance`; its square-root arithmetic is not modelled.
- `Boxes.Nearest`: compares squared distances. This picks the same candidate, because square root is monotone.
- `AreaEffector.AddBox`: requires the rounded direction to be a cardinal. For any other direction the source leaves the new box's slots null and later code throws; that path is not modelled.
- `Boxes.GetChildSharedNodes`: requires the first child to exist. The source dereferences it unchecked, and its one caller only calls it when a child exists.
- `AreaEffector.Awake`: requires a non-empty chain. On an empty list the source's `BoundingBox` throws (`Min` of an empty sequence).
- `Boxes.InsideBB`: requires a cached bounding box. On a box that was never baked, `boundingBox` is null and the source throws at Box.cs:167.
- `AreaEffector.Matches`: requires the box's cached bounding box, for the same reason: it calls `Boxes.InsideBB` first.
- `AreaEffector.InsideBB`: requires a cached aggregate bounding box. Before `Awake` has run the field is null, and both `BBVisible` (PolygonAreaEffector.cs:58) and `InsideBB` (PolygonAreaEffector.cs:204) throw.
- `AreaEffector.ChainBoundingBox`: requires every box to have a cached bounding box. The getter indexes each box's `boundingBox` (PolygonAreaEffector.cs:46) and throws on an unbaked one. It also requires a non-empty chain, since `Min`/`Max` of an empty list throw.
- `AreaEffector.Center`: the same requirements as `AreaEffector.ChainBoundingBox`, which it calls.
- `Boxes.RelativeDirection`: requires the snapshot to be empty or to hold four points. An empty one is filled first; a snapshot of 1 to 3 points throws on the index at Box.cs:102-110, and the model does not take that path.
- `AreaEffector.AddBox`: requires the father's snapshot to be empty or to hold four points, for the same reason: it aims the father with `RelativeDirection`.
- `AreaEffector.Tick`: requires a processable effector, meaning a well-formed chain where every box has a cached bounding box and a four-point snapshot. After `Awake` this always holds. Without it the per-box tests throw as above.
- `AreaEffector.TickAsWritten`: requires the same as `AreaEffector.Tick`, plus a cached aggregate bounding box, as `AreaEffector.InsideBB` does.
- `AreaEffector.Process`: requires the same as `AreaEffector.Tick`.
- `AreaEffector.Process`: uses the corrected tick (see Findings); `AreaEffector.TickAsWritten` is the code as written.
- `Boxes.InsidePolygon`: its own contract only says that an accepted point needs a snapshot. What it accepts is stated by `Geometry.IsPointInPolygon` and `Boxes.PolygonHitWithinBakedBounds`.

## Findings

| source | as written | input that shows it | evidently intended | confidence | as-written member | corrected member |
|---|---|---|---|---|---|---|
| Runtime/Scripts/PolygonAreaEffector.cs:61-70 | A body outside the aggregate bounding box is skipped at lines 61-63. The same strict test guards lines 71-97 again at line 70, so the Exit branch of lines 93-97 never runs for it. It gets no Exit message and its time inside is never reset. | Default field (one square of side 2 at the origin). A body at (0,0), then at (5,0), then at (0,0) again: it gets Enter, nothing, then Stay with a stale time. | Leaving every box sends Exit and resets the time, so returning sends Enter again. Neither guard may keep a body that has time tracked from the Exit branch: the skip at line 62 and the test at line 70 must both let it through. | not executed | AreaEffector.TickAsWritten (AreaEffector.StaleTimeAsWritten, AreaEffector.ReentryAsWritten) | AreaEffector.Tick (AreaEffector.ReentryCorrected, AreaEffector.EnterStayExit) |

=== FILE: box.dfy ===
/** One quadrilateral cell of the chain (Box.cs). Corner nodes live in an arena
    shared by the whole chain: a box holds four arena indices, so two boxes
    "share the same node" exactly when they hold the same index, and moving
    that node moves the corner of both. */
module Boxes {
  import opened Wrappers
  import opened Geometry

  /** The node arena: node n is currently at arena[n]. */
  type Arena = seq<Vec>

  /** A box: its four corner nodes (in winding order 0..3), its flow direction,
      the side it was attached by, the index of its parent box in the chain,
      and the snapshot taken by the last bake. */
  datatype Box = Box(
    nodes: seq<nat>,
    direction: Vec,
    connectionDirection: Vec,
    parent: Option<nat>,
    nodePoints: seq<Vec>,
    boundingBox: Option<Bounds>,
    center: Vec)

  /** Four corners, each a node of the arena. */
  predicate WellFormed(arena: Arena, b: Box) {
    |b.nodes| == 4 && forall i :: 0 <= i < 4 ==> b.nodes[i] < |arena|
  }

  /** Every box well formed. */
  predicate AllWellFormed(arena: Arena, boxes: seq<Box>) {
    forall j :: 0 <= j < |boxes| ==> WellFormed(arena, boxes[j])
  }

  /** Every box well formed and every parent link pointing into the chain. */
  predicate ChainWellFormed(arena: Arena, boxes: seq<Box>) {
    forall j :: 0 <= j < |boxes| ==>
      WellFormed(arena, boxes[j]) && (boxes[j].parent.Some? ==> boxes[j].parent.value < |boxes|)
  }

  /** The snapshot can be indexed at 0..3 once it is non-empty. */
  predicate SnapshotIndexable(b: Box) {
    |b.nodePoints| == 0 || |b.nodePoints| >= 4
  }

  /** The live corner positions (the `points` property). */
  function Points(arena: Arena, b: Box): (ps: seq<Vec>)
    requires WellFormed(arena, b)
    ensures |ps| == 4 && forall i :: 0 <= i < 4 ==> ps[i] == arena[b.nodes[i]]
  {
    [arena[b.nodes[0]], arena[b.nodes[1]], arena[b.nodes[2]], arena[b.nodes[3]]]
  }

  /** The `origin` property: midpoint of the two diagonal midpoints, which is
      the average of the four live corners. */
  function Origin(arena: Arena, b: Box): (o: Vec)
    requires WellFormed(arena, b)
    ensures var ps := Points(arena, b);
      o == Vec((ps[0].x + ps[1].x + ps[2].x + ps[3].x) / 4.0, (ps[0].y + ps[1].y + ps[2].y + ps[3].y) / 4.0)
  {
    var ps := Points(arena, b);
    MiddlePoint(MiddlePoint(ps[0], ps[2]), MiddlePoint(ps[1], ps[3]))
  }

  /** The field values of `new Box()` around the given corner slots: no
      parent, no snapshot and no cached bounding box yet, so the box holds no
      point until it is baked. */
  function Blank(nodes: seq<nat>): (r: Box)
    ensures r.nodes == nodes && r.parent.None? && r.boundingBox.None?
    ensures r.nodePoints == [] && r.direction == Zero && r.connectionDirection == Zero && r.center == Zero
    ensures forall p :: !InsidePolygon(r, p)
  {
    Box(nodes, Zero, Zero, None, [], None, Zero)
  }

  /** A box together with the arena that holds its nodes. */
  datatype Placed = Placed(arena: Arena, box: Box)

  /** Box.Default: a square of side s centred on o, corners top-left, top-right,
      bottom-right, bottom-left, each a new node appended to the arena. */
  function Default(arena: Arena, o: Vec, s: real): (r: Placed)
    ensures |r.arena| == |arena| + 4 && r.arena[..|arena|] == arena
    ensures WellFormed(r.arena, r.box)
    ensures forall i :: 0 <= i < 4 ==> r.box.nodes[i] == |arena| + i
    ensures Points(r.arena, r.box)
         == [Vec(o.x - s / 2.0, o.y + s / 2.0), Vec(o.x + s / 2.0, o.y + s / 2.0),
             Vec(o.x + s / 2.0, o.y - s / 2.0), Vec(o.x - s / 2.0, o.y - s / 2.0)]
    ensures Origin(r.arena, r.box) == o
    ensures r.box == Blank(r.box.nodes)
  {
    var n := |arena|;
    var corners := SquareCorners(o, s);
    var r := Placed(arena + corners, Blank([n, n + 1, n + 2, n + 3]));
    assert forall i :: 0 <= i < 4 ==> r.arena[n + i] == corners[i];
    SquareCentre(o, s);
    r
  }

  /** The corners Box.Default places around o: top-left, top-right,
      bottom-right, bottom-left. */
  function SquareCorners(o: Vec, s: real): (cs: seq<Vec>)
    ensures |cs| == 4
  {
    [o.Plus(Vec(-s / 2.0, s / 2.0)), o.Plus(Vec(s / 2.0, s / 2.0)),
     o.Plus(Vec(s / 2.0, -s / 2.0)), o.Plus(Vec(-s / 2.0, -s / 2.0))]
  }

  /** The corners of the square average to its centre. */
  lemma SquareCentre(o: Vec, s: real)
    ensures var cs := SquareCorners(o, s);
      Vec((cs[0].x + cs[1].x + cs[2].x + cs[3].x) / 4.0, (cs[0].y + cs[1].y + cs[2].y + cs[3].y) / 4.0) == o
  {
  }

  /** The default square of side s has area s*s. */
  lemma DefaultArea(arena: Arena, o: Vec, s: real)
    ensures PolygonArea(Points(Default(arena, o, s).arena, Default(arena, o, s).box)).area == s * s
  {
    var r := Default(arena, o, s);
    var ps := Points(r.arena, r.box);
    QuadLoopSum(ps);
    assert ps[3].x == ps[0].x && ps[1].x == ps[2].x;
    assert EdgeTerm(ps[0], ps[1]) == s * (2.0 * o.y + s);
    assert EdgeTerm(ps[1], ps[2]) == 0.0;
    assert EdgeTerm(ps[2], ps[3]) == -s * (2.0 * o.y - s);
    assert EdgeTerm(ps[3], ps[0]) == 0.0;
    assert LoopSum(ps, 0) == 2.0 * s * s;
  }

  // ---------------------------------------------------------------------------
  // Baking
  // ---------------------------------------------------------------------------

  /** The loop of the BoundingBox getter from index i on, with the running extremes. */
  function ScanBounds(np: seq<Vec>, i: nat, maxX: real, minX: real, maxY: real, minY: real): Bounds
    requires 1 <= i <= |np|
    decreases |np| - i
  {
    if i == |np| then Bounds(Vec(maxX, maxY), Vec(minX, minY))
    else ScanBounds(np, i + 1, Max(np[i].x, maxX), Min(np[i].x, minX), Max(np[i].y, maxY), Min(np[i].y, minY))
  }

  /** The running extremes end up bounding the rest of the snapshot, and each
      is either its start value or reached by a later point. */
  lemma {:induction false} ScanBoundsSpec(np: seq<Vec>, i: nat, maxX: real, minX: real, maxY: real, minY: real)
    requires 1 <= i <= |np|
    ensures var r := ScanBounds(np, i, maxX, minX, maxY, minY);
      && maxX <= r.hi.x && r.lo.x <= minX && maxY <= r.hi.y && r.lo.y <= minY
      && (forall k :: i <= k < |np| ==> Within(r, np[k]))
      && (r.hi.x == maxX || exists k :: i <= k < |np| && np[k].x == r.hi.x)
      && (r.lo.x == minX || exists k :: i <= k < |np| && np[k].x == r.lo.x)
      && (r.hi.y == maxY || exists k :: i <= k < |np| && np[k].y == r.hi.y)
      && (r.lo.y == minY || exists k :: i <= k < |np| && np[k].y == r.lo.y)
    decreases |np| - i
  {
    if i < |np| {
      ScanBoundsSpec(np, i + 1, Max(np[i].x, maxX), Min(np[i].x, minX), Max(np[i].y, maxY), Min(np[i].y, minY));
    }
  }

  /** Two bounds that both contain every point and have every side reached by a point are equal. */
  lemma TightBoundsUnique(ps: seq<Vec>, a: Bounds, b: Bounds)
    requires forall k :: 0 <= k < |ps| ==> Within(a, ps[k]) && Within(b, ps[k])
    requires exists k :: 0 <= k < |ps| && ps[k].x == a.hi.x
    requires exists k :: 0 <= k < |ps| && ps[k].y == a.hi.y
    requires exists k :: 0 <= k < |ps| && ps[k].x == a.lo.x
    requires exists k :: 0 <= k < |ps| && ps[k].y == a.lo.y
    requires exists k :: 0 <= k < |ps| && ps[k].x == b.hi.x
    requires exists k :: 0 <= k < |ps| && ps[k].y == b.hi.y
    requires exists k :: 0 <= k < |ps| && ps[k].x == b.lo.x
    requires exists k :: 0 <= k < |ps| && ps[k].y == b.lo.y
    ensures a == b
  {
  }

  /** The BoundingBox getter of a box: a left-to-right scan of the snapshot. It
      computes the same [max, min] pair as MathUtility.BoundingBox. */
  function BakedBounds(np: seq<Vec>): (r: Bounds)
    requires |np| > 0
    ensures r == BoundingBox(np)
  {
    var r := ScanBounds(np, 1, np[0].x, np[0].x, np[0].y, np[0].y);
    ScanBoundsSpec(np, 1, np[0].x, np[0].x, np[0].y, np[0].y);
    TightBoundsUnique(np, r, BoundingBox(np));
    r
  }

  /** BakeBox: snapshot the live corners, recompute the bounding box from the
      snapshot, and (inside the getter) set the centre to the live origin. */
  function BakeBox(arena: Arena, b: Box): (r: Box)
    requires WellFormed(arena, b)
    ensures r == b.(nodePoints := r.nodePoints, boundingBox := r.boundingBox, center := r.center)
    ensures r.nodePoints == Points(arena, b)
    ensures r.center == Origin(arena, b)
    ensures r.boundingBox.Some?
    ensures forall i :: 0 <= i < 4 ==> Within(r.boundingBox.value, r.nodePoints[i])
    ensures exists i :: 0 <= i < 4 && r.nodePoints[i].x == r.boundingBox.value.hi.x
    ensures exists i :: 0 <= i < 4 && r.nodePoints[i].y == r.boundingBox.value.hi.y
    ensures exists i :: 0 <= i < 4 && r.nodePoints[i].x == r.boundingBox.value.lo.x
    ensures exists i :: 0 <= i < 4 && r.nodePoints[i].y == r.boundingBox.value.lo.y
  {
    var pts := Points(arena, b);
    b.(nodePoints := pts, boundingBox := Some(BakedBounds(pts)), center := Origin(arena, b))
  }

  /** Baking twice with no node moved in between changes nothing more. */
  lemma BakeIdempotent(arena: Arena, b: Box)
    requires WellFormed(arena, b)
    ensures BakeBox(arena, BakeBox(arena, b)) == BakeBox(arena, b)
  {
  }

  /** The box has been baked and no node has moved since. */
  predicate BakedAgainst(arena: Arena, b: Box)
    requires WellFormed(arena, b)
  {
    b == BakeBox(arena, b)
  }

  /** UpdatePointsIfNeeded: take the snapshot only when there is none yet. */
  function UpdatePointsIfNeeded(arena: Arena, b: Box): (r: Box)
    requires WellFormed(arena, b)
    ensures |b.nodePoints| == 0 ==> r == b.(nodePoints := Points(arena, b))
    ensures |b.nodePoints| != 0 ==> r == b
  {
    if |b.nodePoints| == 0 then b.(nodePoints := Points(arena, b)) else b
  }

  // ---------------------------------------------------------------------------
  // Queries
  // ---------------------------------------------------------------------------

  /** InsidePolygon: ray-casting against the snapshot, in corner order. */
  function InsidePolygon(b: Box, p: Vec): (r: bool)
    ensures r ==> |b.nodePoints| > 0
  {
    IsPointInPolygon(p, b.nodePoints)
  }

  /** InsideBB: the exclusive test against the cached bounding box. */
  function InsideBB(b: Box, p: Vec): (r: bool)
    requires b.boundingBox.Some?
    ensures var bb := b.boundingBox.value;
      r <==> bb.lo.x < p.x < bb.hi.x && bb.lo.y < p.y < bb.hi.y
    ensures r ==> Within(b.boundingBox.value, p)
    ensures var bb := b.boundingBox.value;
      p.x == bb.lo.x || p.x == bb.hi.x || p.y == bb.lo.y || p.y == bb.hi.y ==> !r
  {
    StrictlyInside(b.boundingBox.value, p)
  }

  /** For a box whose cached bounding box is that of its snapshot (as BakeBox
      leaves it), a point the polygon test accepts is within the cached box, closed on the minimum sides and open on the maximum
      sides; InsideBB additionally rejects the minimum sides. */
  lemma PolygonHitWithinBakedBounds(b: Box, p: Vec)
    requires InsidePolygon(b, p)
    requires b.boundingBox == Some(BoundingBox(b.nodePoints))
    ensures var bb := b.boundingBox.value;
      bb.lo.x <= p.x < bb.hi.x && bb.lo.y <= p.y < bb.hi.y
  {
    InsideIsWithinHalfOpenBounds(p, b.nodePoints);
  }

  /** IsDirectionVertical: the truncated y component is non-zero. */
  function IsDirectionVertical(b: Box): (r: bool)
    ensures r <==> (b.direction.y >= 1.0 || b.direction.y <= -1.0)
  {
    TruncateNonZero(b.direction.y);
    Truncate(b.direction.y) != 0
  }

  /** Two corner slots of a box, naming one of its edges. */
  datatype Edge = Edge(a: nat, b: nat)

  /** The four-way match shared by GetMidEdgePoint and GetEdgeLength: which
      edge belongs to direction*sign, if any. */
  function SelectedEdge(direction: Vec, sign: int): (r: Option<Edge>)
    ensures r.Some? ==> IsSide(r.value)
    ensures sign == 1 || sign == -1 ==> (r.Some? <==> IsCardinal(direction))
  {
    var s := sign as real;
    // Vector2.left * sign, Vector2.right * sign, Vector2.down * sign, Vector2.up * sign
    if direction == Vec(-s, 0.0) then Some(Edge(1, 2))
    else if direction == Vec(s, 0.0) then Some(Edge(0, 3))
    else if direction == Vec(0.0, -s) then Some(Edge(0, 1))
    else if direction == Vec(0.0, s) then Some(Edge(2, 3))
    else None
  }

  /** Negating both the direction and the sign selects the same edge. */
  lemma SelectedEdgeFlip(d: Vec, sign: int)
    ensures SelectedEdge(d.Negated(), -sign) == SelectedEdge(d, sign)
  {
    assert (-sign) as real == -(sign as real);
  }

  predicate IsCardinal(d: Vec) {
    d == Left || d == Right || d == Up || d == Down
  }

  /** The slots of an edge, as a set. */
  function EdgeSlots(e: Edge): set<nat> { {e.a, e.b} }

  /** Two slots that are neighbours round the quad. */
  predicate IsSide(e: Edge) {
    e.a < 4 && e.b < 4 && (e.b == (e.a + 1) % 4 || e.a == (e.b + 1) % 4)
  }

  /** For a cardinal direction both signs select an edge; the two are opposite
      sides of the quad, so they cover its four corners between them. */
  lemma CardinalEdgesOpposite(d: Vec)
    requires IsCardinal(d)
    ensures SelectedEdge(d, 1).Some? && SelectedEdge(d, -1).Some?
    ensures IsSide(SelectedEdge(d, 1).value) && IsSide(SelectedEdge(d, -1).value)
    ensures EdgeSlots(SelectedEdge(d, 1).value) !! EdgeSlots(SelectedEdge(d, -1).value)
    ensures EdgeSlots(SelectedEdge(d, 1).value) + EdgeSlots(SelectedEdge(d, -1).value) == {0, 1, 2, 3}
  {
    ExitOfSelected(d);
    EntryOfSelected(d);
  }

  /** GetMidEdgePoint: the midpoint of the snapshot edge matching
      direction*sign, or the zero vector when no case matches. */
  function GetMidEdgePoint(b: Box, sign: int): (m: Vec)
    requires SelectedEdge(b.direction, sign).Some? ==> |b.nodePoints| >= 4
    ensures SelectedEdge(b.direction, sign).None? ==> m == Zero
  {
    match SelectedEdge(b.direction, sign)
    case None => Zero
    case Some(e) => MiddlePoint(b.nodePoints[e.a], b.nodePoints[e.b])
  }

  /** The entry point under direction d is the exit point under -d: inverting a
      box swaps its two mid-edge points. */
  lemma MidEdgePointFlip(b: Box, sign: int)
    requires |b.nodePoints| >= 4
    ensures GetMidEdgePoint(b.(direction := b.direction.Negated()), -sign) == GetMidEdgePoint(b, sign)
  {
    SelectedEdgeFlip(b.direction, sign);
  }

  /** GetEdgeLength: the same four-way match as GetMidEdgePoint, 0 when
      nothing matches. `distance` stands for Vector2.Distance. */
  function GetEdgeLength(b: Box, sign: int, distance: (Vec, Vec) -> real): (r: real)
    requires SelectedEdge(b.direction, sign).Some? ==> |b.nodePoints| >= 4
    ensures SelectedEdge(b.direction, sign).None? ==> r == 0.0
    ensures SelectedEdge(b.direction, sign).Some? ==>
      var e := SelectedEdge(b.direction, sign).value;
      r == distance(b.nodePoints[e.a], b.nodePoints[e.b])
  {
    match SelectedEdge(b.direction, sign)
    case None => 0.0
    case Some(e) => distance(b.nodePoints[e.a], b.nodePoints[e.b])
  }

  /** GetEdgeLength and GetMidEdgePoint measure the same edge: the length is
      the distance between the edge's endpoints, and the midpoint is equidistant
      from both under any distance that only depends on the difference. */
  lemma EdgeLengthAndMidpointAgree(b: Box, sign: int, distance: (Vec, Vec) -> real)
    requires SelectedEdge(b.direction, sign).Some? && |b.nodePoints| >= 4
    ensures var e := SelectedEdge(b.direction, sign).value;
      var m := GetMidEdgePoint(b, sign);
      && GetEdgeLength(b, sign, distance) == distance(b.nodePoints[e.a], b.nodePoints[e.b])
      && m.Minus(b.nodePoints[e.a]) == b.nodePoints[e.b].Minus(m)
  {
  }

  /** Like the midpoint, the length under direction d and sign s is the length
      under -d and -s. */
  lemma EdgeLengthFlip(b: Box, sign: int, distance: (Vec, Vec) -> real)
    requires |b.nodePoints| >= 4
    ensures GetEdgeLength(b.(direction := b.direction.Negated()), -sign, distance) == GetEdgeLength(b, sign, distance)
  {
    SelectedEdgeFlip(b.direction, sign);
  }

  /** The edge RelativeDirection aims through: a vertical direction uses 0-1
      when y > 0 and 3-2 otherwise; any other uses 0-3 when x < 0 and 1-2
      otherwise (so the zero direction uses 1-2). */
  function AimEdge(b: Box): (r: Edge)
    ensures IsSide(r)
    ensures b.direction == Zero ==> r == Edge(1, 2)
    ensures IsCardinal(b.direction) ==> EdgeSlots(r) == EdgeSlots(ExitOf(b.direction))
  {
    if IsDirectionVertical(b) then
      (if b.direction.y > 0.0 then Edge(0, 1) else Edge(3, 2))
    else
      (if b.direction.x < 0.0 then Edge(0, 3) else Edge(1, 2))
  }

  /** The point RelativeDirection aims at before normalising: the cached centre
      reflected through the midpoint m of the aim edge, i.e. 2m - center. */
  function RelativeTarget(b: Box): (t: Vec)
    requires |b.nodePoints| >= 4
    ensures var e := AimEdge(b);
      MiddlePoint(t, b.center) == MiddlePoint(b.nodePoints[e.a], b.nodePoints[e.b])
  {
    var e := AimEdge(b);
    var to := MiddlePoint(b.nodePoints[e.a], b.nodePoints[e.b]);
    to.Minus(b.center.Minus(to))
  }

  /** The edge a box facing cardinal d is left by: sign -1 of SelectedEdge. */
  function ExitOf(d: Vec): Edge {
    if d == Left then Edge(0, 3) else if d == Right then Edge(1, 2)
    else if d == Up then Edge(0, 1) else Edge(2, 3)
  }

  /** The edge a box facing cardinal d is entered by: sign +1 of SelectedEdge. */
  function EntryOf(d: Vec): Edge {
    if d == Left then Edge(1, 2) else if d == Right then Edge(0, 3)
    else if d == Down then Edge(0, 1) else Edge(2, 3)
  }

  /** The aim edge of each cardinal direction. */
  lemma AimEdgeOfCardinal(b: Box)
    requires IsCardinal(b.direction)
    ensures AimEdge(b) ==
      if b.direction == Left then Edge(0, 3) else if b.direction == Right then Edge(1, 2)
      else if b.direction == Up then Edge(0, 1) else Edge(3, 2)
  {
  }

  /** For a cardinal direction, SelectedEdge with sign -1 is ExitOf. */
  lemma ExitOfSelected(d: Vec)
    requires IsCardinal(d)
    ensures SelectedEdge(d, -1) == Some(ExitOf(d))
  {
  }

  /** For a cardinal direction, SelectedEdge with sign +1 is EntryOf. */
  lemma EntryOfSelected(d: Vec)
    requires IsCardinal(d)
    ensures SelectedEdge(d, 1) == Some(EntryOf(d))
  {
  }

  /** For a cardinal direction, RelativeDirection aims through the exit edge:
      the midpoint it reflects through is GetMidEdgePoint(-1). */
  lemma AimsThroughExitEdge(b: Box)
    requires IsCardinal(b.direction) && |b.nodePoints| >= 4
    ensures var e := AimEdge(b);
      MiddlePoint(b.nodePoints[e.a], b.nodePoints[e.b]) == GetMidEdgePoint(b, -1)
  {
    AimEdgeOfCardinal(b);
    if b.direction == Down {
      MiddlePointSymmetric(b.nodePoints[3], b.nodePoints[2]);
    }
  }

  /** The pair RelativeDirection returns here: the box (whose snapshot it may
      fill) and the direction vector. */
  datatype Aimed = Aimed(box: Box, dir: Vec)

  /** RelativeDirection(from): fill a missing snapshot, then normalise the
      vector from `from` to the reflected target; `unit` stands for
      Vector2.normalized. */
  function RelativeDirection(arena: Arena, b: Box, from: Vec, unit: Vec -> Vec): (r: Aimed)
    requires WellFormed(arena, b) && SnapshotIndexable(b)
    ensures r.box == UpdatePointsIfNeeded(arena, b)
    ensures |r.box.nodePoints| >= 4
    ensures r.dir == unit(RelativeTarget(r.box).Minus(from))
  {
    var b' := UpdatePointsIfNeeded(arena, b);
    Aimed(b', unit(RelativeTarget(b').Minus(from)))
  }

  // ---------------------------------------------------------------------------
  // Translation
  // ---------------------------------------------------------------------------

  /** The loop of TranslatePoints from slot i on. */
  function MoveNodes(arena: Arena, nodes: seq<nat>, i: nat, center: Vec, diff: Vec): (r: Arena)
    requires i <= |nodes|
    requires forall k :: 0 <= k < |nodes| ==> nodes[k] < |arena|
    ensures |r| == |arena|
    decreases |nodes| - i
  {
    if i == |nodes| then arena
    else
      var n := nodes[i];
      var diff2Center := arena[n].Minus(center);
      MoveNodes(arena[n := center.Plus(diff2Center).Plus(diff)], nodes, i + 1, center, diff)
  }

  lemma SlotCount(nodes: seq<nat>, i: nat, n: nat)
    requires i < |nodes|
    ensures multiset(nodes[i..])[n] == multiset(nodes[i + 1..])[n] + (if nodes[i] == n then 1 else 0)
  {
    assert nodes[i..] == [nodes[i]] + nodes[i + 1..];
  }

  lemma PlusTimesStep(p: Vec, d: Vec, c: nat)
    ensures p.Plus(d).Plus(d.Times(c as real)) == p.Plus(d.Times((c + 1) as real))
  {
  }

  /** Every node moves by diff once per slot of nodes[i..] that holds it. */
  lemma {:induction false} MoveNodesSpec(arena: Arena, nodes: seq<nat>, i: nat, center: Vec, diff: Vec)
    requires i <= |nodes|
    requires forall k :: 0 <= k < |nodes| ==> nodes[k] < |arena|
    ensures forall n :: 0 <= n < |arena| ==>
      MoveNodes(arena, nodes, i, center, diff)[n] == arena[n].Plus(diff.Times(multiset(nodes[i..])[n] as real))
    decreases |nodes| - i
  {
    if i < |nodes| {
      var m := nodes[i];
      var a' := arena[m := center.Plus(arena[m].Minus(center)).Plus(diff)];
      assert MoveNodes(arena, nodes, i, center, diff) == MoveNodes(a', nodes, i + 1, center, diff);
      MoveNodesSpec(a', nodes, i + 1, center, diff);
      forall n | 0 <= n < |arena|
        ensures MoveNodes(arena, nodes, i, center, diff)[n] == arena[n].Plus(diff.Times(multiset(nodes[i..])[n] as real))
      {
        SlotCount(nodes, i, n);
        if n == m {
          PlusTimesStep(arena[n], diff, multiset(nodes[i + 1..])[n]);
        }
      }
    }
  }

  datatype Moved = Moved(arena: Arena, box: Box)

  /** TranslatePoints(c): move the box by c - center (the cached centre, not the
      live origin) and cache c as the new centre. A node held by several slots
      moves once per slot. */
  function TranslatePoints(arena: Arena, b: Box, c: Vec): (r: Moved)
    requires WellFormed(arena, b)
    ensures |r.arena| == |arena|
    ensures forall n :: 0 <= n < |arena| ==>
      r.arena[n] == arena[n].Plus(c.Minus(b.center).Times(multiset(b.nodes)[n] as real))
    ensures r.box == b.(center := c)
  {
    var diff := c.Minus(b.center);
    MoveNodesSpec(arena, b.nodes, 0, b.center, diff);
    assert b.nodes[0..] == b.nodes;
    Moved(MoveNodes(arena, b.nodes, 0, b.center, diff), b.(center := c))
  }

  predicate DistinctCorners(b: Box) {
    |b.nodes| == 4 && forall i, j :: 0 <= i < j < 4 ==> b.nodes[i] != b.nodes[j]
  }

  lemma DistinctCornerCount(b: Box, i: nat)
    requires DistinctCorners(b) && i < 4
    ensures multiset(b.nodes)[b.nodes[i]] == 1
  {
    var ns := b.nodes;
    assert ns == [ns[0], ns[1], ns[2], ns[3]];
  }

  lemma NotCornerCount(b: Box, n: nat)
    requires |b.nodes| == 4 && forall i :: 0 <= i < 4 ==> b.nodes[i] != n
    ensures multiset(b.nodes)[n] == 0
  {
    assert n !in b.nodes;
  }

  /** With four distinct corner nodes, translating moves every corner by the same
      delta (so every corner-to-corner vector is kept), moves the origin by that
      delta, leaves all other nodes in place and keeps the area. */
  lemma TranslateRigid(arena: Arena, b: Box, c: Vec)
    requires WellFormed(arena, b) && DistinctCorners(b)
    ensures var r := TranslatePoints(arena, b, c); var diff := c.Minus(b.center);
      && WellFormed(r.arena, r.box)
      && (forall i :: 0 <= i < 4 ==> Points(r.arena, r.box)[i] == Points(arena, b)[i].Plus(diff))
      && (forall i, j :: 0 <= i < 4 && 0 <= j < 4 ==>
            Points(r.arena, r.box)[i].Minus(Points(r.arena, r.box)[j]) == Points(arena, b)[i].Minus(Points(arena, b)[j]))
      && (forall n :: 0 <= n < |arena| && n !in b.nodes ==> r.arena[n] == arena[n])
      && Origin(r.arena, r.box) == Origin(arena, b).Plus(diff)
      && PolygonArea(Points(r.arena, r.box)).area == PolygonArea(Points(arena, b)).area
  {
    var r := TranslatePoints(arena, b, c);
    var diff := c.Minus(b.center);
    TranslateCorners(arena, b, c);
    var ps, qs := Points(arena, b), Points(r.arena, r.box);
    forall i, j | 0 <= i < 4 && 0 <= j < 4
      ensures qs[i].Minus(qs[j]) == ps[i].Minus(ps[j])
    {
      ShiftedDifference(ps[i], ps[j], diff);
    }
    OriginMoves(arena, b, r.arena, r.box, diff);
    assert qs == Translated(ps, diff);
    PolygonAreaTranslationInvariant(ps, diff);
  }

  /** Moving every corner by the same delta moves the origin by it. */
  lemma OriginMoves(arena: Arena, b: Box, arena': Arena, b': Box, d: Vec)
    requires WellFormed(arena, b) && WellFormed(arena', b')
    requires forall i :: 0 <= i < 4 ==> Points(arena', b')[i] == Points(arena, b)[i].Plus(d)
    ensures Origin(arena', b') == Origin(arena, b).Plus(d)
  {
    var ps, qs := Points(arena, b), Points(arena', b');
    assert qs[0] == ps[0].Plus(d) && qs[1] == ps[1].Plus(d) && qs[2] == ps[2].Plus(d) && qs[3] == ps[3].Plus(d);
  }

  /** Translating moves each of four distinct corners by the delta and leaves
      every other node in place. */
  lemma TranslateCorners(arena: Arena, b: Box, c: Vec)
    requires WellFormed(arena, b) && DistinctCorners(b)
    ensures var r := TranslatePoints(arena, b, c); var diff := c.Minus(b.center);
      && WellFormed(r.arena, r.box)
      && (forall i :: 0 <= i < 4 ==> Points(r.arena, r.box)[i] == Points(arena, b)[i].Plus(diff))
      && (forall n :: 0 <= n < |arena| && n !in b.nodes ==> r.arena[n] == arena[n])
  {
    var r := TranslatePoints(arena, b, c);
    var diff := c.Minus(b.center);
    forall i | 0 <= i < 4
      ensures Points(r.arena, r.box)[i] == Points(arena, b)[i].Plus(diff)
    {
      DistinctCornerCount(b, i);
    }
    forall n | 0 <= n < |arena| && n !in b.nodes
      ensures r.arena[n] == arena[n]
    {
      NotCornerCount(b, n);
    }
  }

  /** Moving two points by the same delta keeps the vector between them. */
  lemma ShiftedDifference(p: Vec, q: Vec, d: Vec)
    ensures p.Plus(d).Minus(q.Plus(d)) == p.Minus(q)
  {
  }

  // ---------------------------------------------------------------------------
  // Reconnecting shared nodes
  // ---------------------------------------------------------------------------

  predicate InArena(arena: Arena, ns: seq<nat>) {
    forall k :: 0 <= k < |ns| ==> ns[k] < |arena|
  }

  /** The innermost loop of ReconnectNodes for one foreign node n: every slot at
      n's position takes n. */
  function AliasTo(arena: Arena, slots: seq<nat>, n: nat): (r: seq<nat>)
    requires InArena(arena, slots) && n < |arena|
    ensures |r| == |slots| && InArena(arena, r)
    ensures forall i :: 0 <= i < |slots| ==> r[i] == (if arena[n] == arena[slots[i]] then n else slots[i])
  {
    seq(|slots|, i requires 0 <= i < |slots| => if arena[n] == arena[slots[i]] then n else slots[i])
  }

  /** The loop over one foreign box's nodes ns[j..]. */
  function AliasToAll(arena: Arena, slots: seq<nat>, ns: seq<nat>, j: nat): (r: seq<nat>)
    requires InArena(arena, slots) && InArena(arena, ns) && j <= |ns|
    ensures |r| == |slots| && InArena(arena, r)
    decreases |ns| - j
  {
    if j == |ns| then slots else AliasToAll(arena, AliasTo(arena, slots, ns[j]), ns, j + 1)
  }

  /** Positions are kept; a changed slot holds one of ns[j..]; and a slot whose
      position some node of ns[j..] has ends up holding one of them. */
  lemma {:induction false} AliasToAllSpec(arena: Arena, slots: seq<nat>, ns: seq<nat>, j: nat)
    requires InArena(arena, slots) && InArena(arena, ns) && j <= |ns|
    ensures var r := AliasToAll(arena, slots, ns, j);
      forall i :: 0 <= i < |slots| ==>
        && arena[r[i]] == arena[slots[i]]
        && (r[i] == slots[i] || r[i] in ns[j..])
        && ((exists t :: j <= t < |ns| && arena[ns[t]] == arena[slots[i]]) ==> r[i] in ns[j..])
    decreases |ns| - j
  {
    if j < |ns| {
      var s' := AliasTo(arena, slots, ns[j]);
      AliasToAllSpec(arena, s', ns, j + 1);
      var r := AliasToAll(arena, slots, ns, j);
      assert r == AliasToAll(arena, s', ns, j + 1);
      forall i | 0 <= i < |slots|
        ensures && arena[r[i]] == arena[slots[i]]
                && (r[i] == slots[i] || r[i] in ns[j..])
                && ((exists t :: j <= t < |ns| && arena[ns[t]] == arena[slots[i]]) ==> r[i] in ns[j..])
      {
        assert ns[j..] == [ns[j]] + ns[j + 1..];
        if exists t :: j <= t < |ns| && arena[ns[t]] == arena[slots[i]] {
          var t :| j <= t < |ns| && arena[ns[t]] == arena[slots[i]];
          if t > j {
            assert arena[ns[t]] == arena[s'[i]];
          }
        }
      }
    }
  }

  /** n is a node of some box of boxes[m..] other than box k. */
  predicate ForeignFrom(boxes: seq<Box>, k: nat, m: nat, n: nat) {
    exists j :: m <= j < |boxes| && j != k && n in boxes[j].nodes
  }

  /** Some box of boxes[m..] other than box k has a node at position q. */
  predicate CoincidentFrom(arena: Arena, boxes: seq<Box>, k: nat, m: nat, q: Vec)
    requires ChainWellFormed(arena, boxes)
  {
    exists j, s :: m <= j < |boxes| && j != k && 0 <= s < 4 && arena[boxes[j].nodes[s]] == q
  }

  /** The loop of ReconnectNodes over the boxes from index m on. */
  function ReconnectFrom(arena: Arena, boxes: seq<Box>, k: nat, m: nat, slots: seq<nat>): (r: seq<nat>)
    requires ChainWellFormed(arena, boxes) && InArena(arena, slots) && m <= |boxes|
    ensures |r| == |slots| && InArena(arena, r)
    decreases |boxes| - m
  {
    if m == |boxes| then slots
    else if m == k then ReconnectFrom(arena, boxes, k, m + 1, slots)
    else ReconnectFrom(arena, boxes, k, m + 1, AliasToAll(arena, slots, boxes[m].nodes, 0))
  }

  lemma {:induction false} ReconnectFromSpec(arena: Arena, boxes: seq<Box>, k: nat, m: nat, slots: seq<nat>)
    requires ChainWellFormed(arena, boxes) && InArena(arena, slots) && m <= |boxes|
    ensures var r := ReconnectFrom(arena, boxes, k, m, slots);
      forall i :: 0 <= i < |slots| ==>
        && arena[r[i]] == arena[slots[i]]
        && (r[i] == slots[i] || ForeignFrom(boxes, k, m, r[i]))
        && (CoincidentFrom(arena, boxes, k, m, arena[slots[i]]) ==> ForeignFrom(boxes, k, m, r[i]))
    decreases |boxes| - m
  {
    if m < |boxes| {
      var r := ReconnectFrom(arena, boxes, k, m, slots);
      if m == k {
        ReconnectFromSpec(arena, boxes, k, m + 1, slots);
        forall i | 0 <= i < |slots|
          ensures CoincidentFrom(arena, boxes, k, m, arena[slots[i]]) ==> ForeignFrom(boxes, k, m, r[i])
        {
          if CoincidentFrom(arena, boxes, k, m, arena[slots[i]]) {
            var j, s :| m <= j < |boxes| && j != k && 0 <= s < 4 && arena[boxes[j].nodes[s]] == arena[slots[i]];
            assert CoincidentFrom(arena, boxes, k, m + 1, arena[slots[i]]);
          }
        }
      } else {
        var ns := boxes[m].nodes;
        var s' := AliasToAll(arena, slots, ns, 0);
        AliasToAllSpec(arena, slots, ns, 0);
        ReconnectFromSpec(arena, boxes, k, m + 1, s');
        assert ns[0..] == ns;
        forall i | 0 <= i < |slots|
          ensures && arena[r[i]] == arena[slots[i]]
                  && (r[i] == slots[i] || ForeignFrom(boxes, k, m, r[i]))
                  && (CoincidentFrom(arena, boxes, k, m, arena[slots[i]]) ==> ForeignFrom(boxes, k, m, r[i]))
        {
          if r[i] != slots[i] {
            if r[i] == s'[i] {
              assert r[i] in boxes[m].nodes;
            } else {
              assert ForeignFrom(boxes, k, m + 1, r[i]);
            }
          }
          if CoincidentFrom(arena, boxes, k, m, arena[slots[i]]) {
            var j, s :| m <= j < |boxes| && j != k && 0 <= s < 4 && arena[boxes[j].nodes[s]] == arena[slots[i]];
            if j == m {
              assert s'[i] in ns;
              if r[i] == s'[i] {
                assert r[i] in boxes[m].nodes;
              }
            } else {
              assert CoincidentFrom(arena, boxes, k, m + 1, arena[s'[i]]);
            }
          }
        }
      }
    }
  }

  /** ReconnectNodes: only box k's slots change, each only to a node of another
      box at the same position, so no corner of any box moves; a slot with a
      coincident node in another box does take such a node, and a slot with
      none keeps its node. */
  function ReconnectNodes(arena: Arena, boxes: seq<Box>, k: nat): (r: Box)
    requires ChainWellFormed(arena, boxes) && k < |boxes|
    ensures r == boxes[k].(nodes := r.nodes)
    ensures WellFormed(arena, r)
    ensures forall i :: 0 <= i < 4 ==> arena[r.nodes[i]] == arena[boxes[k].nodes[i]]
    ensures forall i :: 0 <= i < 4 ==> r.nodes[i] == boxes[k].nodes[i] || ForeignFrom(boxes, k, 0, r.nodes[i])
    ensures forall i :: 0 <= i < 4 ==>
      CoincidentFrom(arena, boxes, k, 0, arena[boxes[k].nodes[i]]) ==> ForeignFrom(boxes, k, 0, r.nodes[i])
    ensures forall i :: 0 <= i < 4 ==>
      !CoincidentFrom(arena, boxes, k, 0, arena[boxes[k].nodes[i]]) ==> r.nodes[i] == boxes[k].nodes[i]
  {
    var slots := boxes[k].nodes;
    ReconnectFromSpec(arena, boxes, k, 0, slots);
    var r := ReconnectFrom(arena, boxes, k, 0, slots);
    assert forall i :: 0 <= i < 4 && r[i] != slots[i] ==> CoincidentFrom(arena, boxes, k, 0, arena[slots[i]]) by {
      forall i | 0 <= i < 4 && r[i] != slots[i]
        ensures CoincidentFrom(arena, boxes, k, 0, arena[slots[i]])
      {
        var j :| 0 <= j < |boxes| && j != k && r[i] in boxes[j].nodes;
        var s :| 0 <= s < 4 && boxes[j].nodes[s] == r[i];
        assert arena[boxes[j].nodes[s]] == arena[slots[i]];
      }
    }
    boxes[k].(nodes := r)
  }

  // ---------------------------------------------------------------------------
  // Children and removal
  // ---------------------------------------------------------------------------

  function FirstChildFrom(boxes: seq<Box>, k: nat, m: nat): (r: Option<nat>)
    requires m <= |boxes|
    ensures r.Some? ==> m <= r.value < |boxes| && boxes[r.value].parent == Some(k)
                        && forall j :: m <= j < r.value ==> boxes[j].parent != Some(k)
    ensures r.None? ==> forall j :: m <= j < |boxes| ==> boxes[j].parent != Some(k)
    decreases |boxes| - m
  {
    if m == |boxes| then None
    else if boxes[m].parent == Some(k) then Some(m)
    else FirstChildFrom(boxes, k, m + 1)
  }

  /** GetChildBox: the first box, in list order, whose parent is box k. */
  function GetChildBox(boxes: seq<Box>, k: nat): (r: Option<nat>)
    ensures r.Some? ==> r.value < |boxes| && boxes[r.value].parent == Some(k)
                        && forall j :: 0 <= j < r.value ==> boxes[j].parent != Some(k)
    ensures r.None? ==> forall j :: 0 <= j < |boxes| ==> boxes[j].parent != Some(k)
  {
    FirstChildFrom(boxes, k, 0)
  }

  /** One copy of n for every slot of `mine` at n's position. */
  function CopiesAt(arena: Arena, n: nat, mine: seq<nat>): (r: seq<nat>)
    requires n < |arena| && InArena(arena, mine)
    ensures forall k :: 0 <= k < |r| ==> r[k] == n
    ensures forall x :: x in r <==> x == n && exists y :: y in mine && arena[y] == arena[n]
  {
    if |mine| == 0 then []
    else (if arena[n] == arena[mine[0]] then [n] else []) + CopiesAt(arena, n, mine[1..])
  }

  /** The nested loops of GetChildSharedNodes: each node of `theirs`, once per slot
      of `mine` at the same position. */
  function SharedNodes(arena: Arena, theirs: seq<nat>, mine: seq<nat>): (r: seq<nat>)
    requires InArena(arena, theirs) && InArena(arena, mine)
    ensures InArena(arena, r)
    ensures forall x :: x in r <==> x in theirs && exists y :: y in mine && arena[y] == arena[x]
  {
    if |theirs| == 0 then []
    else CopiesAt(arena, theirs[0], mine) + SharedNodes(arena, theirs[1..], mine)
  }

  /** GetChildSharedNodes: the nodes of box k's first child that sit at one of
      box k's corners. The source dereferences the child, so one must exist. */
  function GetChildSharedNodes(arena: Arena, boxes: seq<Box>, k: nat): (r: seq<nat>)
    requires ChainWellFormed(arena, boxes) && k < |boxes| && GetChildBox(boxes, k).Some?
    ensures InArena(arena, r)
    ensures var c := boxes[GetChildBox(boxes, k).value];
      forall x :: x in r <==> x in c.nodes && exists y :: y in boxes[k].nodes && arena[y] == arena[x]
  {
    SharedNodes(arena, boxes[GetChildBox(boxes, k).value].nodes, boxes[k].nodes)
  }

  /** The square of Vector2.Distance; sqrt is monotone, so ordering candidates
      by it is ordering them by distance, ties included. */
  function SquaredDistance(a: Vec, b: Vec): real {
    (a.x - b.x) * (a.x - b.x) + (a.y - b.y) * (a.y - b.y)
  }

  /** The index, in the candidate list, that OrderBy(distance).First() picks:
      the first among those nearest to q. Distances are compared squared,
      which orders them the same way. */
  function Nearest(arena: Arena, pool: seq<nat>, q: Vec): (c: nat)
    requires |pool| > 0 && InArena(arena, pool)
    ensures c < |pool|
    ensures forall j {:trigger SquaredDistance(arena[pool[j]], q)} :: 0 <= j < |pool| ==>
      SquaredDistance(arena[pool[c]], q) <= SquaredDistance(arena[pool[j]], q)
    ensures forall j {:trigger SquaredDistance(arena[pool[j]], q)} :: 0 <= j < c ==>
      SquaredDistance(arena[pool[j]], q) > SquaredDistance(arena[pool[c]], q)
  {
    if |pool| == 1 then 0
    else
      var c' := Nearest(arena, pool[1..], q) + 1;
      assert forall j :: 1 <= j < |pool| ==> pool[j] == pool[1..][j - 1];
      if SquaredDistance(arena[pool[0]], q) <= SquaredDistance(arena[pool[c']], q) then 0 else c'
  }

  lemma RemoveAtMultiset(pool: seq<nat>, c: nat)
    requires c < |pool|
    ensures multiset(pool[..c] + pool[c + 1..]) + multiset{pool[c]} == multiset(pool)
  {
    assert pool == pool[..c] + [pool[c]] + pool[c + 1..];
  }

  /** No node of `shared` is a candidate. */
  predicate Disjoint(shared: seq<nat>, pool: seq<nat>) {
    forall t :: 0 <= t < |shared| ==> shared[t] !in pool
  }

  /** The state of one parent slot after the inner loop. */
  datatype Relinked = Relinked(slot: nat, pool: seq<nat>, replaced: bool)

  /** The inner loop over the parent-shared list for one parent slot holding v:
      whenever the slot holds shared[j], it takes the nearest remaining
      candidate, which leaves the pool. None when the pool is empty at that
      point (First() on an empty sequence). */
  function RelinkSlot(arena: Arena, v: nat, shared: seq<nat>, j: nat, pool: seq<nat>): (r: Option<Relinked>)
    requires v < |arena| && InArena(arena, pool) && j <= |shared|
    ensures r.Some? ==> r.value.slot < |arena| && InArena(arena, r.value.pool)
    ensures r.Some? && !r.value.replaced ==> r.value.slot == v && r.value.pool == pool
    ensures r.Some? && r.value.replaced ==>
      r.value.slot in pool && multiset(r.value.pool) + multiset{r.value.slot} <= multiset(pool)
    ensures v !in shared[j..] ==> r == Some(Relinked(v, pool, false))
    // A slot holding a shared node is replaced by the first nearest candidate,
    // which leaves the pool; with no candidate left, First() throws.
    ensures v in shared[j..] && |pool| == 0 ==> r.None?
    ensures j < |shared| && v == shared[j] && |pool| > 0 && (forall t :: j < t < |shared| ==> shared[t] !in pool) ==>
      var c := Nearest(arena, pool, arena[v]);
      r == Some(Relinked(pool[c], pool[..c] + pool[c + 1..], true))
    decreases |shared| - j
  {
    if j == |shared| then Some(Relinked(v, pool, false))
    else if v == shared[j] then
      if |pool| == 0 then None
      else
        var c := Nearest(arena, pool, arena[v]);
        var w := pool[c];
        var rest := pool[..c] + pool[c + 1..];
        RemoveAtMultiset(pool, c);
        assert (forall t :: j < t < |shared| ==> shared[t] !in pool) ==> (forall t :: j + 1 <= t < |shared| ==> shared[t] != w);
        match RelinkSlot(arena, w, shared, j + 1, rest)
        case None => None
        case Some(s) =>
          ReplacedFrom(pool, c, s);
          Some(s.(replaced := true))
    else
      var r := RelinkSlot(arena, v, shared, j + 1, pool);
      SkippedFrom(v, shared, j, pool, r);
      r
  }

  /** A slot that does not hold shared[j] is, for the rest of the inner loop,
      as it was from j + 1 on. */
  lemma SkippedFrom(v: nat, shared: seq<nat>, j: nat, pool: seq<nat>, r: Option<Relinked>)
    requires j < |shared| && v != shared[j]
    requires v !in shared[j + 1..] ==> r == Some(Relinked(v, pool, false))
    requires v in shared[j + 1..] && |pool| == 0 ==> r.None?
    ensures v !in shared[j..] ==> r == Some(Relinked(v, pool, false))
    ensures v in shared[j..] && |pool| == 0 ==> r.None?
  {
    assert shared[j..] == [shared[j]] + shared[j + 1..];
  }

  /** A slot that took pool[c] and went on with the rest of the pool ends up
      with a candidate of the whole pool, which leaves it. */
  lemma ReplacedFrom(pool: seq<nat>, c: nat, s: Relinked)
    requires c < |pool|
    requires !s.replaced ==> s.slot == pool[c] && s.pool == pool[..c] + pool[c + 1..]
    requires s.replaced ==>
      s.slot in pool[..c] + pool[c + 1..] && multiset(s.pool) + multiset{s.slot} <= multiset(pool[..c] + pool[c + 1..])
    ensures s.slot in pool && multiset(s.pool) + multiset{s.slot} <= multiset(pool)
  {
    var rest := pool[..c] + pool[c + 1..];
    RemoveAtMultiset(pool, c);
    assert s.slot in multiset(rest) + multiset{pool[c]};
  }

  /** The values the new slots hold where they differ from the old ones. */
  function Changed(before: seq<nat>, after: seq<nat>): seq<nat>
    requires |before| == |after|
  {
    if |before| == 0 then []
    else (if before[0] != after[0] then [after[0]] else []) + Changed(before[1..], after[1..])
  }

  datatype RelinkedAll = RelinkedAll(slots: seq<nat>, pool: seq<nat>)

  /** What the outer loop promises about slots[..] against the pool it started with. */
  predicate RelinkedFrom(arena: Arena, slots: seq<nat>, shared: seq<nat>, pool: seq<nat>, r: RelinkedAll) {
    && |r.slots| == |slots| && InArena(arena, r.slots) && InArena(arena, r.pool)
    && (forall i :: 0 <= i < |slots| && slots[i] !in shared ==> r.slots[i] == slots[i])
    && (forall i :: 0 <= i < |slots| ==> r.slots[i] == slots[i] || r.slots[i] in pool)
    && multiset(Changed(slots, r.slots)) + multiset(r.pool) <= multiset(pool)
  }

  /** One step of the outer loop: the first slot's result prepended to the rest's. */
  lemma RelinkedCons(arena: Arena, slots: seq<nat>, shared: seq<nat>, pool: seq<nat>, h: Relinked, t: RelinkedAll)
    requires |slots| > 0 && InArena(arena, slots) && InArena(arena, pool)
    requires h.slot < |arena| && InArena(arena, h.pool)
    requires !h.replaced ==> h.slot == slots[0] && h.pool == pool
    requires h.replaced ==> h.slot in pool && multiset(h.pool) + multiset{h.slot} <= multiset(pool)
    requires slots[0] !in shared ==> h == Relinked(slots[0], pool, false)
    requires RelinkedFrom(arena, slots[1..], shared, h.pool, t)
    ensures RelinkedFrom(arena, slots, shared, pool, RelinkedAll([h.slot] + t.slots, t.pool))
  {
    var r := RelinkedAll([h.slot] + t.slots, t.pool);
    assert Changed(slots, r.slots)
        == (if slots[0] != h.slot then [h.slot] else []) + Changed(slots[1..], t.slots);
    assert forall i :: 1 <= i < |slots| ==> slots[i] == slots[1..][i - 1] && r.slots[i] == t.slots[i - 1];
    if h.replaced {
      assert multiset(h.pool) <= multiset(pool);
      assert forall x :: x in h.pool ==> x in pool by {
        forall x | x in h.pool ensures x in pool {
          assert multiset(h.pool)[x] > 0;
        }
      }
    }
  }

  /** The outer loop over the parent's slots. */
  function RelinkSlots(arena: Arena, slots: seq<nat>, shared: seq<nat>, pool: seq<nat>): (r: Option<RelinkedAll>)
    requires InArena(arena, slots) && InArena(arena, pool)
    ensures r.Some? ==> RelinkedFrom(arena, slots, shared, pool, r.value)
    decreases |slots|
  {
    if |slots| == 0 then Some(RelinkedAll([], pool))
    else
      match RelinkSlot(arena, slots[0], shared, 0, pool)
      case None => None
      case Some(h) =>
        match RelinkSlots(arena, slots[1..], shared, h.pool)
        case None => None
        case Some(t) =>
          RelinkedCons(arena, slots, shared, pool, h, t);
          Some(RelinkedAll([h.slot] + t.slots, t.pool))
  }

  /** When no candidate is itself a shared node, a slot holding a shared node is
      replaced once, by the first nearest candidate, which leaves the pool. */
  lemma {:induction false} RelinkSlotDisjoint(arena: Arena, v: nat, shared: seq<nat>, j: nat, pool: seq<nat>)
    requires v < |arena| && InArena(arena, pool) && j <= |shared|
    requires v in shared[j..] && |pool| > 0 && Disjoint(shared, pool)
    ensures var c := Nearest(arena, pool, arena[v]);
      RelinkSlot(arena, v, shared, j, pool) == Some(Relinked(pool[c], pool[..c] + pool[c + 1..], true))
    decreases |shared| - j
  {
    if v != shared[j] {
      assert v in shared[j + 1..] by {
        var t :| j <= t < |shared| && shared[t] == v;
        assert shared[j + 1..][t - j - 1] == v;
      }
      RelinkSlotDisjoint(arena, v, shared, j + 1, pool);
    }
  }

  /** The number of slots that hold a shared node. */
  function SharedCount(slots: seq<nat>, shared: seq<nat>): nat {
    if |slots| == 0 then 0
    else (if slots[0] in shared then 1 else 0) + SharedCount(slots[1..], shared)
  }

  /** The candidates still unused when slot i's turn comes: the pool less the
      nodes the earlier slots took. */
  function Remaining(pool: seq<nat>, slots: seq<nat>, after: seq<nat>, i: nat): multiset<nat>
    requires i <= |slots| == |after|
  {
    multiset(pool) - multiset(Changed(slots[..i], after[..i]))
  }

  /** Slot i's turn of nearest-first relinking: a slot that holds a shared node
      ends up with a candidate still unused at its turn, and no unused
      candidate is nearer to the node it replaced; any other slot is kept. */
  predicate NearestTurn(arena: Arena, slots: seq<nat>, shared: seq<nat>, pool: seq<nat>, after: seq<nat>, i: nat)
    requires InArena(arena, slots) && InArena(arena, pool) && InArena(arena, after) && |after| == |slots|
    requires i < |slots|
  {
    if slots[i] in shared then
      && after[i] in Remaining(pool, slots, after, i)
      && forall x :: x in pool && x in Remaining(pool, slots, after, i) ==>
           SquaredDistance(arena[after[i]], arena[slots[i]]) <= SquaredDistance(arena[x], arena[slots[i]])
    else after[i] == slots[i]
  }

  /** Nearest-first relinking of every slot. */
  predicate NearestAtTurn(arena: Arena, slots: seq<nat>, shared: seq<nat>, pool: seq<nat>, after: seq<nat>)
    requires InArena(arena, slots) && InArena(arena, pool) && InArena(arena, after) && |after| == |slots|
  {
    forall i :: 0 <= i < |slots| ==> NearestTurn(arena, slots, shared, pool, after, i)
  }

  /** Removing the first slot from a prefix: the changed values of slots[..i]
      are those of the first slot followed by those of the rest. */
  lemma ChangedPrefix(slots: seq<nat>, after: seq<nat>, i: nat)
    requires 0 < i <= |slots| == |after|
    ensures Changed(slots[..i], after[..i])
         == (if slots[0] != after[0] then [after[0]] else []) + Changed(slots[1..][..i - 1], after[1..][..i - 1])
  {
    assert slots[..i][1..] == slots[1..][..i - 1];
    assert after[..i][1..] == after[1..][..i - 1];
  }

  lemma InRemovedAt(pool: seq<nat>, c: nat, x: nat)
    requires c < |pool| && x in pool[..c] + pool[c + 1..]
    ensures x in pool
  {
    RemoveAtMultiset(pool, c);
    assert x in multiset(pool[..c] + pool[c + 1..]);
  }

  /** One turn of the outer loop when no candidate is a shared node: the first
      slot either keeps its node or takes the first nearest candidate. */
  lemma RelinkHead(arena: Arena, slots: seq<nat>, shared: seq<nat>, pool: seq<nat>) returns (h: Relinked)
    requires |slots| > 0 && InArena(arena, slots) && InArena(arena, pool) && Disjoint(shared, pool)
    requires slots[0] in shared ==> |pool| > 0
    ensures RelinkSlot(arena, slots[0], shared, 0, pool) == Some(h)
    ensures InArena(arena, h.pool) && Disjoint(shared, h.pool) && h.slot < |arena|
    ensures slots[0] !in shared ==> h == Relinked(slots[0], pool, false)
    ensures slots[0] in shared ==>
      && h.slot in pool && h.slot !in shared && h.slot != slots[0]
      && multiset(h.pool) + multiset{h.slot} == multiset(pool)
      && forall x :: x in pool ==> SquaredDistance(arena[h.slot], arena[slots[0]]) <= SquaredDistance(arena[x], arena[slots[0]])
  {
    var v := slots[0];
    if v in shared {
      var c := Nearest(arena, pool, arena[v]);
      assert shared[0..] == shared;
      RelinkSlotDisjoint(arena, v, shared, 0, pool);
      h := Relinked(pool[c], pool[..c] + pool[c + 1..], true);
      RemoveAtMultiset(pool, c);
      forall x | x in h.pool ensures x in pool && x !in shared {
        InRemovedAt(pool, c, x);
      }
      forall x | x in pool
        ensures SquaredDistance(arena[h.slot], arena[v]) <= SquaredDistance(arena[x], arena[v])
      {
        var k :| 0 <= k < |pool| && pool[k] == x;
      }
    } else {
      h := Relinked(v, pool, false);
    }
  }

  /** When no candidate is itself a shared node (the parent's nodes at its
      child's corners and the child's nodes at its own child's corners are
      different nodes, as along a straight run of boxes but not always at a
      turn), the outer loop fails exactly when the slots holding shared nodes
      outnumber the candidates. */
  lemma {:induction false} RelinkSlotsFails(arena: Arena, slots: seq<nat>, shared: seq<nat>, pool: seq<nat>)
    requires InArena(arena, slots) && InArena(arena, pool) && Disjoint(shared, pool)
    ensures RelinkSlots(arena, slots, shared, pool).Some? <==> SharedCount(slots, shared) <= |pool|
    decreases |slots|
  {
    if |slots| == 0 {
    } else if slots[0] in shared && |pool| == 0 {
      var t :| 0 <= t < |shared| && shared[t] == slots[0];
    } else {
      var h := RelinkHead(arena, slots, shared, pool);
      RelinkSlotsFails(arena, slots[1..], shared, h.pool);
      if slots[0] in shared {
        assert |multiset(h.pool)| + 1 == |multiset(pool)|;
      }
    }
  }

  /** Under the same condition every candidate taken is used up once: the
      changed slots and the unused candidates together make up the pool. */
  lemma {:induction false} RelinkSlotsConsumes(arena: Arena, slots: seq<nat>, shared: seq<nat>, pool: seq<nat>)
    requires InArena(arena, slots) && InArena(arena, pool) && Disjoint(shared, pool)
    requires RelinkSlots(arena, slots, shared, pool).Some?
    ensures var r := RelinkSlots(arena, slots, shared, pool).value;
      multiset(Changed(slots, r.slots)) + multiset(r.pool) == multiset(pool)
    decreases |slots|
  {
    if |slots| > 0 {
      assert slots[0] in shared ==> |pool| > 0;
      var h := RelinkHeadPool(arena, slots, shared, pool);
      RelinkSlotsConsumes(arena, slots[1..], shared, h.pool);
      var t := RelinkSlots(arena, slots[1..], shared, h.pool).value;
      ConsumedCons(slots, pool, h, t);
    }
  }

  /** RelinkHead without the distances: what the first slot's turn does to the pool. */
  lemma RelinkHeadPool(arena: Arena, slots: seq<nat>, shared: seq<nat>, pool: seq<nat>) returns (h: Relinked)
    requires |slots| > 0 && InArena(arena, slots) && InArena(arena, pool) && Disjoint(shared, pool)
    requires slots[0] in shared ==> |pool| > 0
    ensures RelinkSlot(arena, slots[0], shared, 0, pool) == Some(h)
    ensures InArena(arena, h.pool) && Disjoint(shared, h.pool) && h.slot < |arena|
    ensures slots[0] !in shared ==> h.slot == slots[0] && h.pool == pool
    ensures slots[0] in shared ==> h.slot != slots[0] && multiset(h.pool) + multiset{h.slot} == multiset(pool)
  {
    h := RelinkHead(arena, slots, shared, pool);
  }

  /** One turn of the outer loop keeps the changed slots and the unused
      candidates a split of the pool. */
  lemma ConsumedCons(slots: seq<nat>, pool: seq<nat>, h: Relinked, t: RelinkedAll)
    requires |slots| > 0 && |t.slots| == |slots| - 1
    requires h.slot == slots[0] ==> h.pool == pool
    requires h.slot != slots[0] ==> multiset(h.pool) + multiset{h.slot} == multiset(pool)
    requires multiset(Changed(slots[1..], t.slots)) + multiset(t.pool) == multiset(h.pool)
    ensures multiset(Changed(slots, [h.slot] + t.slots)) + multiset(t.pool) == multiset(pool)
  {
    var after := [h.slot] + t.slots;
    assert after[1..] == t.slots;
    assert Changed(slots, after) == (if slots[0] != h.slot then [h.slot] else []) + Changed(slots[1..], t.slots);
  }

  /** The first slot's turn is against the whole pool. */
  lemma NearestTurnHead(arena: Arena, slots: seq<nat>, shared: seq<nat>, pool: seq<nat>, h: Relinked, rest: seq<nat>)
    requires |slots| > 0 && InArena(arena, slots) && InArena(arena, pool)
    requires h.slot < |arena| && InArena(arena, rest) && |rest| == |slots| - 1
    requires slots[0] !in shared ==> h.slot == slots[0]
    requires slots[0] in shared ==>
      && h.slot in pool
      && forall x :: x in pool ==> SquaredDistance(arena[h.slot], arena[slots[0]]) <= SquaredDistance(arena[x], arena[slots[0]])
    ensures NearestTurn(arena, slots, shared, pool, [h.slot] + rest, 0)
  {
    var after := [h.slot] + rest;
    assert slots[..0] == [] && after[..0] == [];
    assert Remaining(pool, slots, after, 0) == multiset(pool);
  }

  /** A later slot's turn is its turn in the rest of the loop, against the
      candidates the first slot left. */
  lemma NearestTurnTail(arena: Arena, slots: seq<nat>, shared: seq<nat>, pool: seq<nat>, h: Relinked, rest: seq<nat>, i: nat)
    requires 0 < i < |slots| && InArena(arena, slots) && InArena(arena, pool)
    requires h.slot < |arena| && InArena(arena, h.pool) && InArena(arena, rest) && |rest| == |slots| - 1
    requires slots[0] !in shared ==> h == Relinked(slots[0], pool, false)
    requires slots[0] in shared ==> h.slot != slots[0] && multiset(h.pool) + multiset{h.slot} == multiset(pool)
    requires NearestTurn(arena, slots[1..], shared, h.pool, rest, i - 1)
    ensures NearestTurn(arena, slots, shared, pool, [h.slot] + rest, i)
  {
    var after := [h.slot] + rest;
    assert after[1..] == rest;
    assert slots[1..][i - 1] == slots[i] && rest[i - 1] == after[i];
    RemainingTail(slots, shared, pool, h, rest, i);
  }

  /** The candidates unused at a later slot's turn are those unused at its
      turn in the rest of the loop, all of them left by the first slot. */
  lemma RemainingTail(slots: seq<nat>, shared: seq<nat>, pool: seq<nat>, h: Relinked, rest: seq<nat>, i: nat)
    requires 0 < i < |slots| && |rest| == |slots| - 1
    requires slots[0] !in shared ==> h == Relinked(slots[0], pool, false)
    requires slots[0] in shared ==> h.slot != slots[0] && multiset(h.pool) + multiset{h.slot} == multiset(pool)
    ensures Remaining(pool, slots, [h.slot] + rest, i) == Remaining(h.pool, slots[1..], rest, i - 1)
    ensures forall x :: x in Remaining(pool, slots, [h.slot] + rest, i) ==> x in h.pool
  {
    var after := [h.slot] + rest;
    assert after[1..] == rest;
    ChangedPrefix(slots, after, i);
    var m := multiset(Changed(slots[1..][..i - 1], rest[..i - 1]));
    assert Remaining(h.pool, slots[1..], rest, i - 1) == multiset(h.pool) - m;
    if slots[0] in shared {
      assert multiset(Changed(slots[..i], after[..i])) == multiset{h.slot} + m;
      assert Remaining(pool, slots, after, i) == (multiset(h.pool) + multiset{h.slot}) - (multiset{h.slot} + m);
    }
    forall x | x in Remaining(pool, slots, after, i) ensures x in h.pool {
      assert x in multiset(h.pool);
    }
  }

  /** The step of NearestAtTurn: the first slot's turn, then the rest's turns
      against the candidates the first slot left. */
  lemma NearestAtTurnCons(arena: Arena, slots: seq<nat>, shared: seq<nat>, pool: seq<nat>, h: Relinked, rest: seq<nat>)
    requires |slots| > 0 && InArena(arena, slots) && InArena(arena, pool)
    requires h.slot < |arena| && InArena(arena, h.pool) && InArena(arena, rest) && |rest| == |slots| - 1
    requires slots[0] !in shared ==> h == Relinked(slots[0], pool, false)
    requires slots[0] in shared ==>
      && h.slot in pool && h.slot != slots[0]
      && multiset(h.pool) + multiset{h.slot} == multiset(pool)
      && forall x :: x in pool ==> SquaredDistance(arena[h.slot], arena[slots[0]]) <= SquaredDistance(arena[x], arena[slots[0]])
    requires NearestAtTurn(arena, slots[1..], shared, h.pool, rest)
    ensures NearestAtTurn(arena, slots, shared, pool, [h.slot] + rest)
  {
    forall i | 0 <= i < |slots| ensures NearestTurn(arena, slots, shared, pool, [h.slot] + rest, i) {
      if i == 0 {
        NearestTurnHead(arena, slots, shared, pool, h, rest);
      } else {
        NearestTurnTail(arena, slots, shared, pool, h, rest, i);
      }
    }
  }

  /** Under the same condition the outer loop relinks nearest-first: each
      slot holding a shared node takes the nearest candidate not yet taken by
      an earlier slot, and every other slot keeps its node. */
  lemma {:induction false} RelinkSlotsNearest(arena: Arena, slots: seq<nat>, shared: seq<nat>, pool: seq<nat>)
    requires InArena(arena, slots) && InArena(arena, pool) && Disjoint(shared, pool)
    requires RelinkSlots(arena, slots, shared, pool).Some?
    ensures NearestAtTurn(arena, slots, shared, pool, RelinkSlots(arena, slots, shared, pool).value.slots)
    decreases |slots|
  {
    if |slots| > 0 {
      assert slots[0] in shared ==> |pool| > 0;
      var h := RelinkHead(arena, slots, shared, pool);
      RelinkSlotsNearest(arena, slots[1..], shared, h.pool);
      var t := RelinkSlots(arena, slots[1..], shared, h.pool).value;
      NearestAtTurnCons(arena, slots, shared, pool, h, t.slots);
    }
  }

  /** The last statement of RemoveBoxAndConnectToChild, together with the new
      parent slots: box p takes the new slots, and box c is re-parented to p. */
  function Reparent(boxes: seq<Box>, p: nat, c: nat, slots: seq<nat>): (r: seq<Box>)
    requires p < |boxes| && c < |boxes|
    ensures |r| == |boxes|
    ensures forall m :: 0 <= m < |boxes| && m != p && m != c ==> r[m] == boxes[m]
    ensures r[p].nodes == slots
    ensures r[c].parent == Some(p)
    ensures r[p] == boxes[p].(nodes := slots, parent := r[p].parent)
    ensures p != c ==> r[p].parent == boxes[p].parent
    ensures r[c] == boxes[c].(nodes := r[c].nodes, parent := Some(p))
    ensures p != c ==> r[c].nodes == boxes[c].nodes
  {
    var boxes1 := boxes[p := boxes[p].(nodes := slots)];
    boxes1[c := boxes1[c].(parent := Some(p))]
  }

  lemma ReparentWellFormed(arena: Arena, boxes: seq<Box>, p: nat, c: nat, slots: seq<nat>)
    requires ChainWellFormed(arena, boxes) && p < |boxes| && c < |boxes|
    requires |slots| == 4 && InArena(arena, slots)
    ensures ChainWellFormed(arena, Reparent(boxes, p, c, slots))
  {
    var r := Reparent(boxes, p, c, slots);
    forall j | 0 <= j < |r|
      ensures WellFormed(arena, r[j]) && (r[j].parent.Some? ==> r[j].parent.value < |r|)
    {
      if j != p && j != c {
        assert r[j] == boxes[j];
      }
    }
  }

  /** Under nearest-first relinking with no candidate among the shared nodes,
      every slot that held a shared node now holds a candidate instead. */
  lemma NearestReplaces(arena: Arena, slots: seq<nat>, shared: seq<nat>, pool: seq<nat>, after: seq<nat>)
    requires InArena(arena, slots) && InArena(arena, pool) && InArena(arena, after) && |after| == |slots|
    requires Disjoint(shared, pool) && NearestAtTurn(arena, slots, shared, pool, after)
    ensures forall i :: 0 <= i < |slots| && slots[i] in shared ==> after[i] in pool && after[i] != slots[i]
  {
    forall i | 0 <= i < |slots| && slots[i] in shared ensures after[i] in pool && after[i] != slots[i] {
      assert NearestTurn(arena, slots, shared, pool, after, i);
      assert after[i] in multiset(pool);
    }
  }

  /** What relinking parent p onto candidates and re-parenting child c
      leaves: only p's slots and c's parent link change, p's slots that hold
      no parent-shared node are kept, and the changed slots take candidates,
      none twice. */
  predicate Reconnected(arena: Arena, boxes: seq<Box>, p: nat, c: nat,
                        parentShared: seq<nat>, childShared: seq<nat>, r: seq<Box>)
    requires ChainWellFormed(arena, boxes) && ChainWellFormed(arena, r)
    requires |r| == |boxes| && p < |boxes| && c < |boxes|
  {
    var before, after := boxes[p].nodes, r[p].nodes;
    && (forall m :: 0 <= m < |boxes| && m != p && m != c ==> r[m] == boxes[m])
    && r[c].parent == Some(p)
    && r[p] == boxes[p].(nodes := after, parent := r[p].parent)
    && (p != c ==> r[p].parent == boxes[p].parent)
    && r[c] == boxes[c].(nodes := r[c].nodes, parent := Some(p))
    && (p != c ==> r[c].nodes == boxes[c].nodes)
    && (forall i :: 0 <= i < 4 && before[i] !in parentShared ==> after[i] == before[i])
    && (forall i :: 0 <= i < 4 ==> after[i] == before[i] || after[i] in childShared)
    && multiset(Changed(before, after)) <= multiset(childShared)
  }

  /** When no candidate is one of the parent-shared nodes, relinking fails
      exactly when the candidates run out, and otherwise every parent slot
      holding a parent-shared node takes the nearest candidate still unused. */
  predicate NearestRelinked(arena: Arena, boxes: seq<Box>, p: nat,
                            parentShared: seq<nat>, childShared: seq<nat>, r: Option<seq<Box>>)
    requires ChainWellFormed(arena, boxes) && p < |boxes| && InArena(arena, childShared)
    requires r.Some? ==> |r.value| == |boxes| && ChainWellFormed(arena, r.value)
  {
    Disjoint(parentShared, childShared) ==>
      && (r.Some? <==> SharedCount(boxes[p].nodes, parentShared) <= |childShared|)
      && (r.Some? ==> NearestAtTurn(arena, boxes[p].nodes, parentShared, childShared, r.value[p].nodes))
      && (r.Some? ==> forall i :: 0 <= i < 4 && boxes[p].nodes[i] in parentShared ==>
                        r.value[p].nodes[i] != boxes[p].nodes[i] && r.value[p].nodes[i] in childShared)
  }

  /** The relinking and re-parenting of RemoveBoxAndConnectToChild, once the
      parent p, the child c and both shared lists are known. */
  function ConnectParent(arena: Arena, boxes: seq<Box>, p: nat, c: nat,
                         parentShared: seq<nat>, childShared: seq<nat>): (r: Option<seq<Box>>)
    requires ChainWellFormed(arena, boxes) && p < |boxes| && c < |boxes|
    requires InArena(arena, childShared)
    ensures r.Some? ==> |r.value| == |boxes| && ChainWellFormed(arena, r.value)
    ensures r.Some? ==> Reconnected(arena, boxes, p, c, parentShared, childShared, r.value)
    ensures NearestRelinked(arena, boxes, p, parentShared, childShared, r)
  {
    assert InArena(arena, boxes[p].nodes);
    match RelinkSlots(arena, boxes[p].nodes, parentShared, childShared)
    case None =>
      if Disjoint(parentShared, childShared) then
        RelinkSlotsFails(arena, boxes[p].nodes, parentShared, childShared);
        None
      else None
    case Some(rl) =>
      ReparentWellFormed(arena, boxes, p, c, rl.slots);
      var r := Reparent(boxes, p, c, rl.slots);
      if Disjoint(parentShared, childShared) then
        RelinkSlotsFails(arena, boxes[p].nodes, parentShared, childShared);
        RelinkSlotsNearest(arena, boxes[p].nodes, parentShared, childShared);
        NearestReplaces(arena, boxes[p].nodes, parentShared, childShared, rl.slots);
        Some(r)
      else Some(r)
  }

  /** RemoveBoxAndConnectToChild for box k. With no child it is a no-op.
      Otherwise each slot of k's parent p that holds a node p shares with its
      first child is given the nearest still unused node that k shares with its
      own first child c, and c's parent becomes p. None when the candidates run
      out (the source's First() throws), and None too for a root box with a
      child (the source dereferences its null `parent`). Parent links are not
      changed by the relinking, so the child found at the end is c again. */
  function RemoveBoxAndConnectToChild(arena: Arena, boxes: seq<Box>, k: nat): (r: Option<seq<Box>>)
    requires ChainWellFormed(arena, boxes) && k < |boxes|
    ensures GetChildBox(boxes, k).None? ==> r == Some(boxes)
    ensures GetChildBox(boxes, k).Some? && boxes[k].parent.None? ==> r.None?
    ensures GetChildBox(boxes, k).Some? && boxes[k].parent.Some? ==>
      var p, c := boxes[k].parent.value, GetChildBox(boxes, k).value;
      GetChildBox(boxes, p).Some? &&
      r == ConnectParent(arena, boxes, p, c, GetChildSharedNodes(arena, boxes, p), GetChildSharedNodes(arena, boxes, k))
    ensures r.Some? ==> |r.value| == |boxes| && ChainWellFormed(arena, r.value)
    ensures r.Some? && GetChildBox(boxes, k).Some? ==>
      var p, c := boxes[k].parent.value, GetChildBox(boxes, k).value;
      GetChildBox(boxes, p).Some? &&
      Reconnected(arena, boxes, p, c, GetChildSharedNodes(arena, boxes, p), GetChildSharedNodes(arena, boxes, k), r.value)
    // With no candidate among the parent-shared nodes, the removal fails
    // exactly when the candidates run out, and otherwise relinks nearest first.
    ensures GetChildBox(boxes, k).Some? && boxes[k].parent.Some? ==>
      var p := boxes[k].parent.value;
      GetChildBox(boxes, p).Some? &&
      NearestRelinked(arena, boxes, p, GetChildSharedNodes(arena, boxes, p), GetChildSharedNodes(arena, boxes, k), r)
  {
    match GetChildBox(boxes, k)
    case None => Some(boxes)
    case Some(c) =>
      if boxes[k].parent.None? then None
      else
      var p := boxes[k].parent.value;
      assert GetChildBox(boxes, p).Some?;
      ConnectParent(arena, boxes, p, c, GetChildSharedNodes(arena, boxes, p), GetChildSharedNodes(arena, boxes, k))
  }

  // ---------------------------------------------------------------------------
  // A straight removal
  // ---------------------------------------------------------------------------

  /** Three side-2 squares in a row to the right: box 0 on nodes 0-3 at the
      origin, box 1 on [1,4,5,2] and box 2 on [4,6,7,5], each the parent of
      the next. */
  function RowArena(): Arena {
    [Vec(-1.0, 1.0), Vec(1.0, 1.0), Vec(1.0, -1.0), Vec(-1.0, -1.0),
     Vec(3.0, 1.0), Vec(3.0, -1.0), Vec(5.0, 1.0), Vec(5.0, -1.0)]
  }

  /** The boxes of the row, each a new box on its corners. */
  function RowChain(): seq<Box> {
    [Blank([0, 1, 2, 3]), Blank([1, 4, 5, 2]).(parent := Some(0)), Blank([4, 6, 7, 5]).(parent := Some(1))]
  }

  /** Eight nodes, no two at the same position. */
  predicate EightApart(arena: Arena) {
    |arena| == 8 && forall i, j :: 0 <= i < j < 8 ==> arena[i] != arena[j]
  }

  /** The row's positions: eight apart, and node 4 at (3,1) is nearer than
      node 5 at (3,-1) to node 1 at (1,1). */
  lemma RowLayout()
    ensures EightApart(RowArena())
    ensures SquaredDistance(RowArena()[4], RowArena()[1]) < SquaredDistance(RowArena()[5], RowArena()[1])
  {
    var a := RowArena();
    assert a[4] == Vec(3.0, 1.0) && a[5] == Vec(3.0, -1.0) && a[1] == Vec(1.0, 1.0);
    assert SquaredDistance(a[4], a[1]) == 4.0;
    assert SquaredDistance(a[5], a[1]) == 8.0;
  }

  /** Removing the middle box of the row: no node box 1 shares with box 2 is
      one that box 0 shares with box 1, so box 0's nodes 1 and 2 are relinked
      to the nearest of box 2's nodes 4 and 5 in turn; box 0 now spans
      [0,4,5,3], and box 2's parent becomes box 0. */
  lemma StraightRemoval()
    ensures ChainWellFormed(RowArena(), RowChain())
    ensures var boxes := RowChain();
      RemoveBoxAndConnectToChild(RowArena(), boxes, 1)
        == Some([boxes[0].(nodes := [0, 4, 5, 3]), boxes[1], boxes[2].(parent := Some(0))])
    ensures Disjoint(GetChildSharedNodes(RowArena(), RowChain(), 0), GetChildSharedNodes(RowArena(), RowChain(), 1))
  {
    RowLayout();
    RowDisjoint(RowArena());
    RowRemoval(RowArena());
  }

  /** With the nodes apart, the candidates [4, 5] and box 0's shared nodes
      [1, 2] are different nodes. */
  lemma RowDisjoint(arena: Arena)
    requires EightApart(arena)
    ensures ChainWellFormed(arena, RowChain())
    ensures Disjoint(GetChildSharedNodes(arena, RowChain(), 0), GetChildSharedNodes(arena, RowChain(), 1))
  {
    RowSharedNodes(arena);
    RowListsDisjoint();
  }

  /** The two shared lists of the row have no node in common. */
  lemma RowListsDisjoint()
    ensures Disjoint([1, 2], [4, 5])
  {
    var shared: seq<nat> := [1, 2];
    assert shared[0] == 1 && shared[1] == 2;
  }

  /** The same removal for any placement of the eight nodes in which they are
      apart and node 4 is nearer than node 5 to node 1. */
  lemma RowRemoval(arena: Arena)
    requires EightApart(arena)
    requires SquaredDistance(arena[4], arena[1]) < SquaredDistance(arena[5], arena[1])
    ensures ChainWellFormed(arena, RowChain())
    ensures var boxes := RowChain();
      RemoveBoxAndConnectToChild(arena, boxes, 1)
        == Some([boxes[0].(nodes := [0, 4, 5, 3]), boxes[1], boxes[2].(parent := Some(0))])
  {
    var boxes := RowChain();
    RowSharedNodes(arena);
    assert boxes[1].parent == Some(0);
    RowConnect(arena);
  }

  /** The relinking step of the removal, from ConnectParent's contract: the
      shared lists [1, 2] and [4, 5] are disjoint and two candidates cover the
      two shared slots, so it succeeds nearest first. */
  lemma RowConnect(arena: Arena)
    requires EightApart(arena)
    requires SquaredDistance(arena[4], arena[1]) < SquaredDistance(arena[5], arena[1])
    ensures ChainWellFormed(arena, RowChain())
    ensures var boxes := RowChain();
      ConnectParent(arena, boxes, 0, 2, [1, 2], [4, 5])
        == Some([boxes[0].(nodes := [0, 4, 5, 3]), boxes[1], boxes[2].(parent := Some(0))])
  {
    var boxes := RowChain();
    RowChildren(arena);
    var r := ConnectParent(arena, boxes, 0, 2, [1, 2], [4, 5]);
    RowConnectSome(arena);
    var after := r.value[0].nodes;
    assert NearestTurn(arena, [0, 1, 2, 3], [1, 2], [4, 5], after, 1);
    assert NearestTurn(arena, [0, 1, 2, 3], [1, 2], [4, 5], after, 2);
    RowSlotOne(arena, after);
    RowSlotTwo(arena, after);
    RowReparented(r.value, after);
  }

  /** The removal succeeds: box 0 holds two shared nodes and there are two
      candidates; its slots follow the nearest-first rule. */
  lemma RowConnectSome(arena: Arena)
    requires |arena| == 8
    ensures ChainWellFormed(arena, RowChain())
    ensures var r := ConnectParent(arena, RowChain(), 0, 2, [1, 2], [4, 5]);
      && r.Some? && |r.value| == 3 && |r.value[0].nodes| == 4 && InArena(arena, r.value[0].nodes)
      && r.value[1] == RowChain()[1]
      && r.value[2] == RowChain()[2].(parent := Some(0))
      && r.value[0] == RowChain()[0].(nodes := r.value[0].nodes)
      && NearestAtTurn(arena, [0, 1, 2, 3], [1, 2], [4, 5], r.value[0].nodes)
      && r.value[0].nodes[0] == 0 && r.value[0].nodes[3] == 3
  {
    var boxes := RowChain();
    RowChildren(arena);
    assert boxes[0].nodes == [0, 1, 2, 3];
    var shared: seq<nat> := [1, 2];
    assert Disjoint(shared, [4, 5]);
    assert SharedCount([0, 1, 2, 3], shared) == 2;
    var r := ConnectParent(arena, boxes, 0, 2, shared, [4, 5]);
    assert r.value[0].nodes[0] == 0 by { assert boxes[0].nodes[0] !in shared; }
    assert r.value[0].nodes[3] == 3 by { assert boxes[0].nodes[3] !in shared; }
    assert WellFormed(arena, r.value[0]);
  }

  /** Of the row's slots, slot 1 takes node 4, which is nearer than node 5. */
  lemma RowSlotOne(arena: Arena, after: seq<nat>)
    requires |arena| == 8 && |after| == 4 && InArena(arena, after)
    requires SquaredDistance(arena[4], arena[1]) < SquaredDistance(arena[5], arena[1])
    requires NearestTurn(arena, [0, 1, 2, 3], [1, 2], [4, 5], after, 1)
    requires after[0] == 0
    ensures after[1] == 4
  {
    RemainingAt1(after);
    assert 4 in [4, 5];
  }

  /** Slot 2 then takes node 5, the only candidate left. */
  lemma RowSlotTwo(arena: Arena, after: seq<nat>)
    requires |arena| == 8 && |after| == 4 && InArena(arena, after)
    requires NearestTurn(arena, [0, 1, 2, 3], [1, 2], [4, 5], after, 2)
    requires after[0] == 0 && after[1] == 4
    ensures after[2] == 5
  {
    RemainingAt2(after);
  }

  /** Both candidates are unused at slot 1's turn, slot 0 being unchanged. */
  lemma RemainingAt1(after: seq<nat>)
    requires |after| == 4 && after[0] == 0
    ensures Remaining([4, 5], [0, 1, 2, 3], after, 1) == multiset{4, 5}
  {
    var slots: seq<nat> := [0, 1, 2, 3];
    assert slots[..1] == [0] && after[..1] == [0];
    assert Changed([0], [0]) == [];
  }

  /** Only node 5 is unused at slot 2's turn, slot 1 having taken node 4. */
  lemma RemainingAt2(after: seq<nat>)
    requires |after| == 4 && after[0] == 0 && after[1] == 4
    ensures Remaining([4, 5], [0, 1, 2, 3], after, 2) == multiset{5}
  {
    var slots: seq<nat> := [0, 1, 2, 3];
    assert slots[..2] == [0, 1] && after[..2] == [0, 4];
    var b: seq<nat> := [0, 1];
    var c: seq<nat> := [0, 4];
    assert b[1..] == [1] && c[1..] == [4];
    assert Changed([1], [4]) == [4];
    assert Changed(b, c) == [4];
  }

  /** The three boxes after the removal, once box 0's slots are known. */
  lemma RowReparented(r: seq<Box>, after: seq<nat>)
    requires |r| == 3 && |after| == 4
    requires r[1] == RowChain()[1] && r[2] == RowChain()[2].(parent := Some(0))
    requires r[0] == RowChain()[0].(nodes := after)
    requires after[0] == 0 && after[1] == 4 && after[2] == 5 && after[3] == 3
    ensures r == [RowChain()[0].(nodes := [0, 4, 5, 3]), RowChain()[1], RowChain()[2].(parent := Some(0))]
  {
    assert after == [0, 4, 5, 3];
  }

  /** In the row, box 0 shares nodes 1 and 2 with its child, and box 1 shares
      nodes 4 and 5 with its own child. */
  lemma RowSharedNodes(arena: Arena)
    requires EightApart(arena)
    ensures ChainWellFormed(arena, RowChain())
    ensures GetChildBox(RowChain(), 0) == Some(1) && GetChildBox(RowChain(), 1) == Some(2)
    ensures GetChildSharedNodes(arena, RowChain(), 0) == [1, 2]
    ensures GetChildSharedNodes(arena, RowChain(), 1) == [4, 5]
  {
    var boxes := RowChain();
    RowChildren(arena);
    assert boxes[0].nodes == [0, 1, 2, 3] && boxes[1].nodes == [1, 4, 5, 2] && boxes[2].nodes == [4, 6, 7, 5];
    SharedNodesApart(arena, [1, 4, 5, 2], [0, 1, 2, 3]);
    SharedNodesApart(arena, [4, 6, 7, 5], [1, 4, 5, 2]);
    RowSharedIds();
  }

  /** The row is well formed, and each box's first child is the next box. */
  lemma RowChildren(arena: Arena)
    requires |arena| == 8
    ensures ChainWellFormed(arena, RowChain())
    ensures GetChildBox(RowChain(), 0) == Some(1) && GetChildBox(RowChain(), 1) == Some(2)
  {
    var boxes := RowChain();
    assert ChainWellFormed(arena, boxes) by {
      forall j | 0 <= j < 3 ensures WellFormed(arena, boxes[j]) {}
    }
    assert boxes[1].parent == Some(0) && boxes[2].parent == Some(1);
  }

  /** The nodes of `theirs` that are also nodes of `mine`, once per slot of
      `mine` holding them: SharedNodes when no two nodes share a position. */
  function SharedIds(theirs: seq<nat>, mine: seq<nat>): seq<nat> {
    if |theirs| == 0 then [] else Occurrences(theirs[0], mine) + SharedIds(theirs[1..], mine)
  }

  /** n once per slot of `mine` holding it. */
  function Occurrences(n: nat, mine: seq<nat>): seq<nat> {
    if |mine| == 0 then [] else Hit(n, mine[0]) + Occurrences(n, mine[1..])
  }

  /** n once if the slot holds it. */
  function Hit(n: nat, m: nat): seq<nat> {
    if m == n then [n] else []
  }

  /** With the nodes apart, a node is at a slot's position exactly when the
      slot holds it. */
  lemma {:induction false} CopiesAtApart(arena: Arena, n: nat, mine: seq<nat>)
    requires EightApart(arena) && n < 8 && InArena(arena, mine)
    ensures CopiesAt(arena, n, mine) == Occurrences(n, mine)
    decreases |mine|
  {
    if |mine| > 0 {
      CopiesAtApart(arena, n, mine[1..]);
      assert arena[n] == arena[mine[0]] <==> mine[0] == n by {
        if mine[0] != n {
          if mine[0] < n { assert arena[mine[0]] != arena[n]; } else { assert arena[n] != arena[mine[0]]; }
        }
      }
    }
  }

  /** With the nodes apart, sharing by position is sharing by node. */
  lemma {:induction false} SharedNodesApart(arena: Arena, theirs: seq<nat>, mine: seq<nat>)
    requires EightApart(arena) && InArena(arena, theirs) && InArena(arena, mine)
    ensures SharedNodes(arena, theirs, mine) == SharedIds(theirs, mine)
    decreases |theirs|
  {
    if |theirs| > 0 {
      CopiesAtApart(arena, theirs[0], mine);
      SharedNodesApart(arena, theirs[1..], mine);
    }
  }

  /** The shared lists of the row, by node. */
  lemma RowSharedIds()
    ensures SharedIds([1, 4, 5, 2], [0, 1, 2, 3]) == [1, 2]
    ensures SharedIds([4, 6, 7, 5], [1, 4, 5, 2]) == [4, 5]
  {
    RowParentIds();
    RowChildIds();
  }

  /** Box 0 has nodes 1 and 2 in common with its child. */
  lemma RowParentIds()
    ensures SharedIds([1, 4, 5, 2], [0, 1, 2, 3]) == [1, 2]
  {
    var mine: seq<nat> := [0, 1, 2, 3];
    SharedIdsFour(1, 4, 5, 2, mine);
    OccurrencesFour(1, 0, 1, 2, 3);
    OccurrencesFour(4, 0, 1, 2, 3);
    OccurrencesFour(5, 0, 1, 2, 3);
    OccurrencesFour(2, 0, 1, 2, 3);
  }

  /** Box 1 has nodes 4 and 5 in common with its child. */
  lemma RowChildIds()
    ensures SharedIds([4, 6, 7, 5], [1, 4, 5, 2]) == [4, 5]
  {
    var mine: seq<nat> := [1, 4, 5, 2];
    SharedIdsFour(4, 6, 7, 5, mine);
    OccurrencesFour(4, 1, 4, 5, 2);
    OccurrencesFour(6, 1, 4, 5, 2);
    OccurrencesFour(7, 1, 4, 5, 2);
    OccurrencesFour(5, 1, 4, 5, 2);
  }

  /** SharedIds of a four-node list, one node at a time. */
  lemma SharedIdsFour(a: nat, b: nat, c: nat, d: nat, mine: seq<nat>)
    ensures SharedIds([a, b, c, d], mine)
      == Occurrences(a, mine) + (Occurrences(b, mine) + (Occurrences(c, mine) + Occurrences(d, mine)))
  {
    var s: seq<nat> := [a, b, c, d];
    assert s[1..] == [b, c, d];
    var s1: seq<nat> := [b, c, d];
    assert s1[1..] == [c, d];
    var s2: seq<nat> := [c, d];
    assert s2[1..] == [d];
    var s3: seq<nat> := [d];
    assert s3[1..] == [];
    assert SharedIds(s, mine) == Occurrences(a, mine) + SharedIds(s1, mine);
    assert SharedIds(s1, mine) == Occurrences(b, mine) + SharedIds(s2, mine);
    assert SharedIds(s2, mine) == Occurrences(c, mine) + SharedIds(s3, mine);
    assert SharedIds(s3, mine) == Occurrences(d, mine) + [];
    assert Occurrences(d, mine) + [] == Occurrences(d, mine);
  }

  /** Occurrences in a four-slot list, one slot at a time. */
  lemma OccurrencesFour(n: nat, a: nat, b: nat, c: nat, d: nat)
    ensures Occurrences(n, [a, b, c, d]) == Hit(n, a) + (Hit(n, b) + (Hit(n, c) + Hit(n, d)))
  {
    var s: seq<nat> := [a, b, c, d];
    assert s[1..] == [b, c, d];
    var s1: seq<nat> := [b, c, d];
    assert s1[1..] == [c, d];
    var s2: seq<nat> := [c, d];
    assert s2[1..] == [d];
    var s3: seq<nat> := [d];
    assert s3[1..] == [];
    assert Occurrences(n, s) == Hit(n, a) + Occurrences(n, s1);
    assert Occurrences(n, s1) == Hit(n, b) + Occurrences(n, s2);
    assert Occurrences(n, s2) == Hit(n, c) + Occurrences(n, s3);
    assert Occurrences(n, s3) == Hit(n, d) + [];
    assert Hit(n, d) + [] == Hit(n, d);
  }
}

=== FILE: effector.dfy ===
/** The chain container and the per-body force evaluator
    (PolygonAreaEffector.cs): chain editing, aggregate queries, and one tick of
    the enter/stay/exit state machine for one body. */
module AreaEffector {
  import opened Wrappers
  import opened Geometry
  import opened Boxes

  /** Which force components survive the mask. */
  datatype ForceType = XY | Y | X

  /** The component's state: the node arena, the chain of boxes in list order,
      the aggregate bounding box cached by Awake, and the configuration. */
  datatype Effector = Effector(
    arena: Arena,
    boxes: seq<Box>,
    boundingBox: Option<Bounds>,
    force: real,
    forceOverTimeIncrementer: real,
    forceType: ForceType)

  predicate Valid(e: Effector) {
    ChainWellFormed(e.arena, e.boxes)
  }

  // ---------------------------------------------------------------------------
  // Chain editing
  // ---------------------------------------------------------------------------

  /** GenerateDefaultBox: a fresh list holding one default square of side 2 at
      the component's position. The nodes of the old boxes are no longer
      referenced, so the model starts a fresh arena. */
  function GenerateDefaultBox(e: Effector, position: Vec): (r: Effector)
    ensures Valid(r) && |r.boxes| == 1
    ensures Origin(r.arena, r.boxes[0]) == position
    ensures Points(r.arena, r.boxes[0])
         == [Vec(position.x - 1.0, position.y + 1.0), Vec(position.x + 1.0, position.y + 1.0),
             Vec(position.x + 1.0, position.y - 1.0), Vec(position.x - 1.0, position.y - 1.0)]
    ensures r.boxes[0].parent.None? && r.boxes[0].direction == Zero
    ensures r.boxes[0] == Blank(r.boxes[0].nodes)
    ensures r.boxes[0].nodePoints == [] && r.boxes[0].boundingBox.None? && r.boxes[0].center == Zero
    ensures r == e.(arena := r.arena, boxes := r.boxes)
  {
    var d := Default([], position, 2.0);
    e.(arena := d.arena, boxes := [d.box])
  }

  /** DestroyArea: resets the chain to the default box. */
  function DestroyArea(e: Effector, position: Vec): (r: Effector)
    ensures Valid(r) && |r.boxes| == 1 && Origin(r.arena, r.boxes[0]) == position
    ensures TotalArea(r.arena, r.boxes) == 4.0
  {
    var r := GenerateDefaultBox(e, position);
    var d := Default([], position, 2.0);
    assert r.arena == d.arena && r.boxes == [d.box];
    DefaultArea([], position, 2.0);
    assert PolygonArea(Points(r.arena, r.boxes[0])).area == 4.0;
    TotalAreaSingle(r.arena, r.boxes);
    r
  }

  /** The first two lines of AddBox: each component rounded half to even. */
  function RoundDirection(d: Vec): (r: Vec)
    ensures -0.5 <= r.x - d.x <= 0.5 && -0.5 <= r.y - d.y <= 0.5
    ensures r.x == (r.x.Floor as real) && r.y == (r.y.Floor as real)
  {
    Vec(RoundToInt(d.x) as real, RoundToInt(d.y) as real)
  }

  /** Rounding an already rounded direction changes nothing. */
  lemma RoundDirectionIdempotent(d: Vec)
    ensures RoundDirection(RoundDirection(d)) == RoundDirection(d)
  {
    RoundToIntOfInteger(RoundToInt(d.x));
    RoundToIntOfInteger(RoundToInt(d.y));
  }

  /** A noisy direction rounds to the cardinal it is close to. */
  lemma RoundNoisyRight()
    ensures RoundDirection(Vec(0.9, 0.1)) == Right
  {
  }

  /** The four corner slots of the new box for a cardinal direction d, given
      the father's nodes fn and the two fresh node indices in the order the
      source creates them. */
  function NewSlots(d: Vec, fn: seq<nat>, first: nat, second: nat): (s: seq<nat>)
    requires IsCardinal(d) && |fn| == 4
    ensures |s| == 4
    ensures var exit, entry := ExitOf(d), EntryOf(d);
      && (s[entry.a] == fn[exit.a] || s[entry.a] == fn[exit.b])
      && (s[entry.b] == fn[exit.a] || s[entry.b] == fn[exit.b])
      && (s[exit.a] == first || s[exit.a] == second)
      && (s[exit.b] == first || s[exit.b] == second)
  {
    if d == Right then [fn[1], first, second, fn[2]]
    else if d == Left then [second, fn[0], fn[3], first]
    else if d == Up then [second, first, fn[1], fn[0]]
    else [fn[3], fn[2], first, second]
  }

  /** The shared slot each fresh node is placed next to, in creation order:
      right 0 then 3, left 2 then 1, up 2 then 3, down 1 then 0. */
  function AnchorSlots(d: Vec): (r: (nat, nat))
    ensures r.0 < 4 && r.1 < 4
  {
    if d == Right then (0, 3)
    else if d == Left then (2, 1)
    else if d == Up then (2, 3)
    else (1, 0)
  }

  /** The slot of the first fresh node, then of the second. */
  function FreshSlots(d: Vec): (r: (nat, nat))
    ensures r.0 < 4 && r.1 < 4
  {
    if d == Right then (1, 2)
    else if d == Left then (3, 0)
    else if d == Up then (1, 0)
    else (2, 3)
  }

  /** The layout of the new box: the two anchor slots hold father nodes from
      its exit edge, the two fresh nodes sit in the other slots, and each
      fresh node is a quad neighbour of its anchor, so the new box's side
      edges run from the shared edge to the fresh nodes. */
  lemma NewSlotsLayout(d: Vec, fn: seq<nat>, first: nat, second: nat)
    requires IsCardinal(d) && |fn| == 4
    ensures var s, an, fr := NewSlots(d, fn, first, second), AnchorSlots(d), FreshSlots(d);
      && s[fr.0] == first && s[fr.1] == second
      && {fr.0, fr.1, an.0, an.1} == {0, 1, 2, 3}
      && IsSide(Edge(an.0, fr.0)) && IsSide(Edge(an.1, fr.1))
      && s[an.0] in fn && s[an.1] in fn
  {
  }

  /** The father's nodes on the edge it leaves by are the new box's nodes on the
      edge it is entered by. */
  lemma NewSlotsJoin(d: Vec, fn: seq<nat>, first: nat, second: nat)
    requires IsCardinal(d) && |fn| == 4
    ensures var s, exit, entry := NewSlots(d, fn, first, second), ExitOf(d), EntryOf(d);
      {s[entry.a], s[entry.b]} == {fn[exit.a], fn[exit.b]}
  {
  }

  /** The father as AddBox leaves it before aiming: direction d, connection
      direction -d. */
  function Redirected(b: Box, d: Vec): Box {
    b.(connectionDirection := d.Negated(), direction := d)
  }

  /** AddBox(father, direction). The rounded direction must be a cardinal: only
      then does the source fill the new box's node slots. The father takes the
      direction and its opposite as connection direction, then aims from its
      own origin (RelativeDirection, which may fill its snapshot); `unit`
      stands for Vector2.normalized. The new box shares two of the father's
      nodes, gets two fresh nodes each twice the aim vector away from its
      anchor, and is appended to the list with the father as parent. */
  function AddBox(e: Effector, f: nat, direction: Vec, unit: Vec -> Vec): (r: Effector)
    requires Valid(e) && f < |e.boxes|
    requires IsCardinal(RoundDirection(direction))
    requires SnapshotIndexable(e.boxes[f])
    ensures Valid(r)
    ensures |r.boxes| == |e.boxes| + 1 && |r.arena| == |e.arena| + 2
    ensures r.arena[..|e.arena|] == e.arena
    ensures forall j :: 0 <= j < |e.boxes| && j != f ==> r.boxes[j] == e.boxes[j]
    ensures var d := RoundDirection(direction);
      var aimed := RelativeDirection(e.arena, Redirected(e.boxes[f], d), Origin(e.arena, e.boxes[f]), unit);
      && r.boxes[f] == aimed.box
      && r.boxes[f] == e.boxes[f].(direction := d, connectionDirection := d.Negated(), nodePoints := r.boxes[f].nodePoints)
    ensures var d, nb := RoundDirection(direction), r.boxes[|e.boxes|];
      && nb == Box(nb.nodes, d, d, Some(f), [], None, Zero)
      && nb.nodes == NewSlots(d, e.boxes[f].nodes, |e.arena|, |e.arena| + 1)
    ensures r == e.(arena := r.arena, boxes := r.boxes)
  {
    var d := RoundDirection(direction);
    var father := Redirected(e.boxes[f], d);
    Attach(e, f, d, RelativeDirection(e.arena, father, Origin(e.arena, father), unit))
  }

  /** The part of AddBox after aiming: the father is replaced by the aimed box,
      and the new box with its two fresh nodes is appended. */
  function Attach(e: Effector, f: nat, d: Vec, aimed: Aimed): (r: Effector)
    requires Valid(e) && f < |e.boxes| && IsCardinal(d)
    requires aimed.box.nodes == e.boxes[f].nodes && aimed.box.parent == e.boxes[f].parent
    ensures Valid(r)
    ensures |r.boxes| == |e.boxes| + 1 && |r.arena| == |e.arena| + 2
    ensures r.arena[..|e.arena|] == e.arena
    ensures forall j :: 0 <= j < |e.boxes| && j != f ==> r.boxes[j] == e.boxes[j]
    ensures r.boxes[f] == aimed.box
    ensures var nb := r.boxes[|e.boxes|];
      && nb == Box(nb.nodes, d, d, Some(f), [], None, Zero)
      && nb.nodes == NewSlots(d, e.boxes[f].nodes, |e.arena|, |e.arena| + 1)
    ensures var an := AnchorSlots(d);
      var nb := r.boxes[|e.boxes|];
      && r.arena[|e.arena|] == e.arena[nb.nodes[an.0]].Plus(aimed.dir.Times(2.0))
      && r.arena[|e.arena| + 1] == e.arena[nb.nodes[an.1]].Plus(aimed.dir.Times(2.0))
    ensures r == e.(arena := r.arena, boxes := r.boxes)
  {
    var n := |e.arena|;
    var anchors := AnchorSlots(d);
    var slots := NewSlots(d, e.boxes[f].nodes, n, n + 1);
    NewSlotsLayout(d, e.boxes[f].nodes, n, n + 1);
    var p1 := e.arena[slots[anchors.0]].Plus(aimed.dir.Times(2.0));
    var p2 := e.arena[slots[anchors.1]].Plus(aimed.dir.Times(2.0));
    var arena' := e.arena + [p1, p2];
    var nb := Box(slots, d, d, Some(f), [], None, Zero);
    var boxes' := e.boxes[f := aimed.box] + [nb];
    ExtendedChainWellFormed(e.arena, arena', e.boxes[f := aimed.box], nb);
    e.(arena := arena', boxes := boxes')
  }

  /** Where AddBox puts the two fresh nodes: each is its anchor (a node of the
      father) moved by twice the direction the father aims in. */
  lemma AddBoxPlacesFreshNodes(e: Effector, f: nat, direction: Vec, unit: Vec -> Vec)
    requires Valid(e) && f < |e.boxes|
    requires IsCardinal(RoundDirection(direction))
    requires SnapshotIndexable(e.boxes[f])
    ensures var r, d := AddBox(e, f, direction, unit), RoundDirection(direction);
      var nb := r.boxes[|e.boxes|];
      var rd := RelativeDirection(e.arena, Redirected(e.boxes[f], d), Origin(e.arena, e.boxes[f]), unit).dir;
      && nb.nodes[AnchorSlots(d).0] in e.boxes[f].nodes && nb.nodes[AnchorSlots(d).1] in e.boxes[f].nodes
      && nb.nodes[FreshSlots(d).0] == |e.arena| && nb.nodes[FreshSlots(d).1] == |e.arena| + 1
      && r.arena[|e.arena|] == e.arena[nb.nodes[AnchorSlots(d).0]].Plus(rd.Times(2.0))
      && r.arena[|e.arena| + 1] == e.arena[nb.nodes[AnchorSlots(d).1]].Plus(rd.Times(2.0))
  {
    NewSlotsLayout(RoundDirection(direction), e.boxes[f].nodes, |e.arena|, |e.arena| + 1);
  }

  /** A chain stays well formed in a longer arena, and so does a box appended to it. */
  lemma ExtendedChainWellFormed(arena: Arena, arena': Arena, boxes: seq<Box>, nb: Box)
    requires ChainWellFormed(arena, boxes) && |arena| <= |arena'|
    requires WellFormed(arena', nb) && (nb.parent.Some? ==> nb.parent.value < |boxes|)
    ensures ChainWellFormed(arena', boxes + [nb])
  {
    var bs := boxes + [nb];
    forall j | 0 <= j < |bs|
      ensures WellFormed(arena', bs[j]) && (bs[j].parent.Some? ==> bs[j].parent.value < |bs|)
    {
      if j < |boxes| {
        assert bs[j] == boxes[j];
      }
    }
  }

  /** The slots AddBox shares form the father's exit edge (selected by sign -1,
      see ExitOfSelected) and the new box's entry edge (sign +1): the two boxes
      are joined along one edge made of the same nodes. */
  lemma AddBoxJoinsExitToEntry(e: Effector, f: nat, direction: Vec, unit: Vec -> Vec)
    requires Valid(e) && f < |e.boxes|
    requires IsCardinal(RoundDirection(direction))
    requires SnapshotIndexable(e.boxes[f])
    ensures var r := AddBox(e, f, direction, unit);
      var fb, nb := r.boxes[f], r.boxes[|e.boxes|];
      var exit, entry := ExitOf(fb.direction), EntryOf(nb.direction);
      && IsCardinal(fb.direction) && nb.direction == fb.direction
      && {nb.nodes[entry.a], nb.nodes[entry.b]} == {fb.nodes[exit.a], fb.nodes[exit.b]}
  {
    NewSlotsJoin(RoundDirection(direction), e.boxes[f].nodes, |e.arena|, |e.arena| + 1);
  }

  /** AddBox rounds first, so a direction already rounded gives the same result. */
  lemma AddBoxRoundsDirection(e: Effector, f: nat, direction: Vec, unit: Vec -> Vec)
    requires Valid(e) && f < |e.boxes|
    requires IsCardinal(RoundDirection(direction))
    requires SnapshotIndexable(e.boxes[f])
    ensures IsCardinal(RoundDirection(RoundDirection(direction)))
    ensures AddBox(e, f, RoundDirection(direction), unit) == AddBox(e, f, direction, unit)
  {
    RoundDirectionIdempotent(direction);
  }

  /** InvertBox(box): the box's direction is negated; nothing else changes. */
  function InvertBox(e: Effector, i: nat): (r: Effector)
    requires i < |e.boxes|
    ensures |r.boxes| == |e.boxes| && r.arena == e.arena
    ensures r.boxes[i].direction == e.boxes[i].direction.Negated()
    ensures r.boxes[i].(direction := e.boxes[i].direction) == e.boxes[i]
    ensures forall j :: 0 <= j < |e.boxes| && j != i ==> r.boxes[j] == e.boxes[j]
    ensures Valid(e) ==> Valid(r)
  {
    e.(boxes := e.boxes[i := e.boxes[i].(direction := e.boxes[i].direction.Negated())])
  }

  /** InvertDirection: every box's direction is negated; nothing else changes. */
  function InvertDirection(e: Effector): (r: Effector)
    ensures |r.boxes| == |e.boxes| && r.arena == e.arena
    ensures forall j :: 0 <= j < |e.boxes| ==> r.boxes[j].direction == e.boxes[j].direction.Negated()
    ensures forall j :: 0 <= j < |e.boxes| ==> r.boxes[j].(direction := e.boxes[j].direction) == e.boxes[j]
    ensures Valid(e) ==> Valid(r)
  {
    e.(boxes := seq(|e.boxes|, j requires 0 <= j < |e.boxes| =>
      e.boxes[j].(direction := e.boxes[j].direction.Negated())))
  }

  /** Inverting the whole chain twice gives it back. */
  lemma InvertDirectionTwice(e: Effector)
    ensures InvertDirection(InvertDirection(e)) == e
  {
    var r := InvertDirection(InvertDirection(e));
    forall j | 0 <= j < |e.boxes|
      ensures r.boxes[j] == e.boxes[j]
    {
      assert r.boxes[j].direction == e.boxes[j].direction.Negated().Negated();
    }
  }

  /** Inverting the same box twice gives the chain back. */
  lemma InvertBoxTwice(e: Effector, i: nat)
    requires i < |e.boxes|
    ensures InvertBox(InvertBox(e, i), i) == e
  {
    assert InvertBox(InvertBox(e, i), i).boxes[i].direction == e.boxes[i].direction.Negated().Negated();
  }

  /** Inverting one box of an inverted chain gives that box back. */
  lemma InvertBoxUndoesInvert(e: Effector, i: nat)
    requires i < |e.boxes|
    ensures InvertBox(InvertDirection(e), i).boxes[i] == e.boxes[i]
  {
  }

  /** After inversion each box's entry mid-edge point is its old exit mid-edge
      point and the other way round: the flow runs the opposite way. */
  lemma InvertSwapsMidEdges(e: Effector, sign: int)
    ensures forall j :: 0 <= j < |e.boxes| && |e.boxes[j].nodePoints| >= 4 ==>
      GetMidEdgePoint(InvertDirection(e).boxes[j], -sign) == GetMidEdgePoint(e.boxes[j], sign)
  {
    var r := InvertDirection(e);
    forall j | 0 <= j < |e.boxes| && |e.boxes[j].nodePoints| >= 4
      ensures GetMidEdgePoint(r.boxes[j], -sign) == GetMidEdgePoint(e.boxes[j], sign)
    {
      assert r.boxes[j] == e.boxes[j].(direction := e.boxes[j].direction.Negated());
      MidEdgePointFlip(e.boxes[j], sign);
    }
  }

  // ---------------------------------------------------------------------------
  // Aggregate queries
  // ---------------------------------------------------------------------------

  /** Every box has a cached bounding box. */
  predicate AllBounded(boxes: seq<Box>) {
    forall j :: 0 <= j < |boxes| ==> boxes[j].boundingBox.Some?
  }

  /** The list the BoundingBox getter builds: each box's [max, min] corners in
      list order. */
  function BoundCorners(boxes: seq<Box>): (c: seq<Vec>)
    requires AllBounded(boxes)
    ensures |c| == 2 * |boxes|
    ensures forall j :: 0 <= j < |boxes| ==>
      c[2 * j] == boxes[j].boundingBox.value.hi && c[2 * j + 1] == boxes[j].boundingBox.value.lo
  {
    if |boxes| == 0 then []
    else [boxes[0].boundingBox.value.hi, boxes[0].boundingBox.value.lo] + BoundCorners(boxes[1..])
  }

  /** v is the x of one of the two corners of b. */
  predicate XSideOf(b: Bounds, v: real) {
    v == b.hi.x || v == b.lo.x
  }

  /** v is the y of one of the two corners of b. */
  predicate YSideOf(b: Bounds, v: real) {
    v == b.hi.y || v == b.lo.y
  }

  /** v is the max or the min corner of some box's cached box. */
  predicate OwnedCorner(boxes: seq<Box>, v: Vec)
    requires AllBounded(boxes)
  {
    exists j :: 0 <= j < |boxes| && (v == boxes[j].boundingBox.value.hi || v == boxes[j].boundingBox.value.lo)
  }

  /** The aggregate BoundingBox: it encloses every box's cached box
      (ChainBoundingBoxAttained adds that each side is some box's side). */
  function ChainBoundingBox(boxes: seq<Box>): (r: Bounds)
    requires |boxes| > 0 && AllBounded(boxes)
    ensures forall j :: 0 <= j < |boxes| ==>
      Within(r, boxes[j].boundingBox.value.hi) && Within(r, boxes[j].boundingBox.value.lo)
  {
    var c := BoundCorners(boxes);
    var r := BoundingBox(c);
    forall j | 0 <= j < |boxes|
      ensures Within(r, boxes[j].boundingBox.value.hi) && Within(r, boxes[j].boundingBox.value.lo)
    {
      assert c[2 * j] == boxes[j].boundingBox.value.hi;
      assert c[2 * j + 1] == boxes[j].boundingBox.value.lo;
    }
    r
  }

  /** Each of the four sides of the aggregate is a side of some box's cached box. */
  lemma ChainBoundingBoxAttained(boxes: seq<Box>)
    requires |boxes| > 0 && AllBounded(boxes)
    ensures var r := ChainBoundingBox(boxes);
      && (exists j :: 0 <= j < |boxes| && XSideOf(boxes[j].boundingBox.value, r.hi.x))
      && (exists j :: 0 <= j < |boxes| && XSideOf(boxes[j].boundingBox.value, r.lo.x))
      && (exists j :: 0 <= j < |boxes| && YSideOf(boxes[j].boundingBox.value, r.hi.y))
      && (exists j :: 0 <= j < |boxes| && YSideOf(boxes[j].boundingBox.value, r.lo.y))
  {
    var c := BoundCorners(boxes);
    var r := BoundingBox(c);
    assert r == ChainBoundingBox(boxes);
    CornerOwner(boxes);
    var i0 :| 0 <= i0 < |c| && c[i0].x == r.hi.x;
    var i1 :| 0 <= i1 < |c| && c[i1].x == r.lo.x;
    var i2 :| 0 <= i2 < |c| && c[i2].y == r.hi.y;
    var i3 :| 0 <= i3 < |c| && c[i3].y == r.lo.y;
    assert OwnedCorner(boxes, c[i0]) && OwnedCorner(boxes, c[i1]);
    assert OwnedCorner(boxes, c[i2]) && OwnedCorner(boxes, c[i3]);
  }

  /** Every entry of the corner list is the max or min corner of some box. */
  lemma CornerOwner(boxes: seq<Box>)
    requires AllBounded(boxes)
    ensures forall i :: 0 <= i < |BoundCorners(boxes)| ==> OwnedCorner(boxes, BoundCorners(boxes)[i])
  {
    var c := BoundCorners(boxes);
    forall i | 0 <= i < |c| ensures OwnedCorner(boxes, c[i]) {
      var j := i / 2;
      assert 0 <= j < |boxes|;
      if i % 2 == 0 {
        assert c[i] == c[2 * j] == boxes[j].boundingBox.value.hi;
      } else {
        assert c[i] == c[2 * j + 1] == boxes[j].boundingBox.value.lo;
      }
    }
  }

  /** Center: the midpoint of the aggregate bounding box, so it lies in it. */
  function Center(boxes: seq<Box>): (c: Vec)
    requires |boxes| > 0 && AllBounded(boxes)
    ensures var bb := ChainBoundingBox(boxes);
      c == MiddlePoint(bb.hi, bb.lo) && Within(bb, c)
  {
    var bb := ChainBoundingBox(boxes);
    assert Within(bb, boxes[0].boundingBox.value.hi);
    Vec(bb.lo.x + bb.hi.x, bb.lo.y + bb.hi.y).Times(0.5)
  }

  /** InsideBB (and the identical BBVisible): the exclusive test against the
      aggregate bounding box cached by Awake. */
  predicate InsideBB(e: Effector, p: Vec)
    requires e.boundingBox.Some?
    ensures var bb := e.boundingBox.value;
      InsideBB(e, p) <==> bb.lo.x < p.x < bb.hi.x && bb.lo.y < p.y < bb.hi.y
    ensures var bb := e.boundingBox.value;
      p.x == bb.lo.x || p.x == bb.hi.x || p.y == bb.lo.y || p.y == bb.hi.y ==> !InsideBB(e, p)
  {
    StrictlyInside(e.boundingBox.value, p)
  }

  /** The per-box areas from index i on. */
  function AreaFrom(arena: Arena, boxes: seq<Box>, i: nat): (a: real)
    requires AllWellFormed(arena, boxes) && i <= |boxes|
    ensures a >= 0.0
    decreases |boxes| - i
  {
    if i == |boxes| then 0.0
    else PolygonArea(Points(arena, boxes[i])).area + AreaFrom(arena, boxes, i + 1)
  }

  /** TotalArea (SignedPolygonArea): the sum of the boxes' shoelace areas,
      overlaps counted twice; never negative. */
  function TotalArea(arena: Arena, boxes: seq<Box>): (a: real)
    requires AllWellFormed(arena, boxes)
    ensures a >= 0.0
  {
    AreaFrom(arena, boxes, 0)
  }

  lemma TotalAreaSingle(arena: Arena, boxes: seq<Box>)
    requires AllWellFormed(arena, boxes) && |boxes| == 1
    ensures TotalArea(arena, boxes) == PolygonArea(Points(arena, boxes[0])).area
  {
    assert AreaFrom(arena, boxes, 1) == 0.0;
  }

  /** Two chains whose boxes have the same corners have the same total area. */
  lemma {:induction false} TotalAreaSameCorners(arena: Arena, boxes: seq<Box>, boxes': seq<Box>, i: nat)
    requires AllWellFormed(arena, boxes) && AllWellFormed(arena, boxes')
    requires |boxes| == |boxes'| && i <= |boxes|
    requires forall j :: 0 <= j < |boxes| ==> boxes'[j].nodes == boxes[j].nodes
    ensures AreaFrom(arena, boxes', i) == AreaFrom(arena, boxes, i)
    decreases |boxes| - i
  {
    if i < |boxes| {
      TotalAreaSameCorners(arena, boxes, boxes', i + 1);
      assert Points(arena, boxes'[i]) == Points(arena, boxes[i]);
    }
  }

  /** Growing the arena at its end moves no existing node. */
  lemma {:induction false} AreaFromExtendedArena(arena: Arena, arena': Arena, boxes: seq<Box>, i: nat)
    requires AllWellFormed(arena, boxes) && |arena| <= |arena'| && arena'[..|arena|] == arena
    requires i <= |boxes|
    ensures AllWellFormed(arena', boxes)
    ensures AreaFrom(arena', boxes, i) == AreaFrom(arena, boxes, i)
    decreases |boxes| - i
  {
    assert forall n :: 0 <= n < |arena| ==> arena'[n] == arena[n];
    if i < |boxes| {
      AreaFromExtendedArena(arena, arena', boxes, i + 1);
      assert Points(arena', boxes[i]) == Points(arena, boxes[i]);
    }
  }

  lemma {:induction false} AreaFromAppend(arena: Arena, boxes: seq<Box>, b: Box, i: nat)
    requires AllWellFormed(arena, boxes) && WellFormed(arena, b) && AllWellFormed(arena, boxes + [b])
    requires i <= |boxes|
    ensures AreaFrom(arena, boxes + [b], i) == AreaFrom(arena, boxes, i) + PolygonArea(Points(arena, b)).area
    decreases |boxes| - i
  {
    var bs := boxes + [b];
    assert forall j :: 0 <= j < |boxes| ==> bs[j] == boxes[j];
    if i == |boxes| {
      assert bs[i] == b;
    } else {
      AreaFromAppend(arena, boxes, b, i + 1);
    }
  }

  /** A chain grown by one box in a grown arena, with the old boxes keeping
      their corner nodes: the total area grows by the new box's area. */
  lemma AreaOfGrownChain(arena: Arena, boxes: seq<Box>, arena': Arena, boxes': seq<Box>)
    requires AllWellFormed(arena, boxes) && AllWellFormed(arena', boxes')
    requires |arena| <= |arena'| && arena'[..|arena|] == arena
    requires |boxes'| == |boxes| + 1
    requires forall j :: 0 <= j < |boxes| ==> boxes'[j].nodes == boxes[j].nodes
    ensures TotalArea(arena', boxes') == TotalArea(arena, boxes) + PolygonArea(Points(arena', boxes'[|boxes|])).area
  {
    var prefix := boxes'[..|boxes|];
    var nb := boxes'[|boxes|];
    assert boxes' == prefix + [nb];
    assert AllWellFormed(arena', prefix) by {
      forall j | 0 <= j < |prefix| ensures WellFormed(arena', prefix[j]) {
        assert prefix[j] == boxes'[j];
      }
    }
    AreaFromExtendedArena(arena, arena', boxes, 0);
    AreaFromAppend(arena', prefix, nb, 0);
    TotalAreaSameCorners(arena', boxes, prefix, 0);
  }

  /** AddBox moves no existing corner, so the total area grows by exactly the new box's area. */
  lemma AddBoxAddsArea(e: Effector, f: nat, direction: Vec, unit: Vec -> Vec)
    requires Valid(e) && f < |e.boxes|
    requires IsCardinal(RoundDirection(direction))
    requires SnapshotIndexable(e.boxes[f])
    ensures var r := AddBox(e, f, direction, unit);
      TotalArea(r.arena, r.boxes)
        == TotalArea(e.arena, e.boxes) + PolygonArea(Points(r.arena, r.boxes[|e.boxes|])).area
  {
    var r := AddBox(e, f, direction, unit);
    AreaOfGrownChain(e.arena, e.boxes, r.arena, r.boxes);
  }

  // ---------------------------------------------------------------------------
  // Awake and the per-body tick
  // ---------------------------------------------------------------------------

  /** Every box has a cached bounding box and a snapshot of its four corners,
      and the aggregate cache is the aggregate of the boxes' cached boxes: what
      Process relies on. */
  predicate Ready(e: Effector) {
    && Processable(e) && |e.boxes| > 0
    && e.boundingBox == Some(ChainBoundingBox(e.boxes))
  }

  /** What the per-box part of Process needs: a well-formed chain in which every
      box has a cached bounding box and a four-corner snapshot. */
  predicate Processable(e: Effector) {
    && Valid(e)
    && AllBounded(e.boxes)
    && (forall j :: 0 <= j < |e.boxes| ==> |e.boxes[j].nodePoints| == 4)
  }

  /** Every box is baked against the current arena. */
  predicate AllBaked(e: Effector)
    requires Valid(e)
  {
    forall j :: 0 <= j < |e.boxes| ==> BakedAgainst(e.arena, e.boxes[j])
  }

  /** Bake every box of a well-formed chain, in list order. */
  function BakeAll(arena: Arena, boxes: seq<Box>): (r: seq<Box>)
    requires AllWellFormed(arena, boxes)
    ensures |r| == |boxes|
    ensures forall j :: 0 <= j < |boxes| ==> r[j] == BakeBox(arena, boxes[j])
  {
    seq(|boxes|, j requires 0 <= j < |boxes| => BakeBox(arena, boxes[j]))
  }

  /** Baking keeps the chain well formed and leaves every box baked, bounded and
      with a four-corner snapshot. */
  lemma BakeAllReady(arena: Arena, boxes: seq<Box>)
    requires ChainWellFormed(arena, boxes)
    ensures var r := BakeAll(arena, boxes);
      && ChainWellFormed(arena, r) && AllBounded(r)
      && (forall j :: 0 <= j < |r| ==> |r[j].nodePoints| == 4 && BakedAgainst(arena, r[j]))
  {
    var r := BakeAll(arena, boxes);
    forall j | 0 <= j < |r|
      ensures WellFormed(arena, r[j]) && (r[j].parent.Some? ==> r[j].parent.value < |r|)
      ensures r[j].boundingBox.Some? && |r[j].nodePoints| == 4 && BakedAgainst(arena, r[j])
    {
      assert r[j] == BakeBox(arena, boxes[j]);
      BakeIdempotent(arena, boxes[j]);
    }
  }

  /** The box-related part of Awake: bake every box, then cache the aggregate
      bounding box. The source's BoundingBox throws on an empty chain. */
  function Awake(e: Effector): (r: Effector)
    requires Valid(e) && |e.boxes| > 0
    ensures |r.boxes| == |e.boxes|
    ensures forall j :: 0 <= j < |e.boxes| ==> r.boxes[j] == BakeBox(e.arena, e.boxes[j])
    ensures r == e.(boxes := r.boxes, boundingBox := r.boundingBox)
    ensures Processable(r) && AllBaked(r) && r.boundingBox.Some?
  {
    var baked := BakeAll(e.arena, e.boxes);
    BakeAllReady(e.arena, e.boxes);
    e.(boxes := baked, boundingBox := Some(ChainBoundingBox(baked)))
  }

  /** After Awake the cached box is the aggregate of the freshly cached boxes,
      which is everything Process relies on. */
  lemma AwakeReady(e: Effector)
    requires Valid(e) && |e.boxes| > 0
    ensures Ready(Awake(e))
  {
    BakeAllReady(e.arena, e.boxes);
  }

  /** Box j matches p: the cheap box test, then the polygon test. */
  predicate Matches(b: Box, p: Vec)
    requires b.boundingBox.Some?
    ensures Matches(b, p) ==> InsidePolygon(b, p) && StrictlyInside(b.boundingBox.value, p)
  {
    Boxes.InsideBB(b, p) && InsidePolygon(b, p)
  }

  /** On a baked box the cheap test only removes the minimum sides from what
      the polygon test accepts. */
  lemma MatchesOnBakedBox(b: Box, p: Vec)
    requires |b.nodePoints| > 0 && b.boundingBox == Some(BoundingBox(b.nodePoints))
    ensures var bb := b.boundingBox.value;
      Matches(b, p) <==> InsidePolygon(b, p) && bb.lo.x < p.x && bb.lo.y < p.y
  {
    if InsidePolygon(b, p) {
      PolygonHitWithinBakedBounds(b, p);
    }
  }

  /** The box loop of Process from index i: the first matching box wins. */
  function FirstMatch(boxes: seq<Box>, p: Vec, i: nat): (r: Option<nat>)
    requires AllBounded(boxes) && i <= |boxes|
    ensures r.Some? ==> i <= r.value < |boxes| && Matches(boxes[r.value], p)
                        && forall j :: i <= j < r.value ==> !Matches(boxes[j], p)
    ensures r.None? ==> forall j :: i <= j < |boxes| ==> !Matches(boxes[j], p)
    decreases |boxes| - i
  {
    if i == |boxes| then None
    else if Matches(boxes[i], p) then Some(i)
    else FirstMatch(boxes, p, i + 1)
  }

  /** The force of line 74 under the mask of lines 75-82: the aim direction
      scaled by fixedDeltaTime and by the base force plus the time-inside term. */
  function ProcessedForce(dir: Vec, fixedDeltaTime: real, force: real, incrementer: real,
                          timeInside: real, mode: ForceType): (v: Vec)
    ensures var k := fixedDeltaTime * (force * 10.0 + timeInside * 3.0 * incrementer * 10.0);
      && v.x == (if mode == Y then 0.0 else dir.x * k)
      && v.y == (if mode == X then 0.0 else dir.y * k)
  {
    var v := dir.Times(fixedDeltaTime).Times(force * 10.0 + timeInside * 3.0 * incrementer * 10.0);
    match mode
    case X => v.(y := 0.0)
    case Y => v.(x := 0.0)
    case XY => v
  }

  /** What Process sends to one body in one tick: Enter or Stay with the
      matching box, the force and the time inside before this tick; Exit; or
      nothing. */
  datatype Event = Enter(box: nat, force: Vec, timeInside: real)
                 | Stay(box: nat, force: Vec, timeInside: real)
                 | Exit
                 | Silent

  /** One body's tick: the event and the updated time-inside dictionary. */
  datatype TickResult = TickResult(event: Event, info: map<int, real>)

  /** The tracked time, 0 for a body seen for the first time. */
  function Tracked(info: map<int, real>, id: int): real {
    if id in info then info[id] else 0.0
  }

  /** The body of Process for one body without its two bounding-box guards:
      the skip at lines 61-63 and the test at line 70, which is the same strict
      test. Leaving both out lets the Exit branch run for a body outside the
      aggregate box. The force direction is RelativeDirection(position) of the
      matching box; its snapshot is non-empty, so that call changes no box. */
  function Tick(e: Effector, info: map<int, real>, id: int, position: Vec,
                deltaTime: real, fixedDeltaTime: real, unit: Vec -> Vec): (r: TickResult)
    requires Processable(e)
    ensures r.info.Keys == info.Keys + {id}
    ensures forall other :: other in info && other != id ==> Tracked(r.info, other) == info[other]
    ensures var t, m := Tracked(info, id), FirstMatch(e.boxes, position, 0);
      && (m.Some? ==> Tracked(r.info, id) == t + deltaTime)
      && (m.None? ==> Tracked(r.info, id) == 0.0)
      && (r.event.Enter? <==> m.Some? && t == 0.0)
      && (r.event.Stay? <==> m.Some? && t != 0.0)
      && (r.event.Exit? <==> m.None? && t != 0.0)
      && (r.event.Silent? <==> m.None? && t == 0.0)
      && ((r.event.Enter? || r.event.Stay?) ==> m == Some(r.event.box) && r.event.timeInside == t)
    ensures (r.event.Enter? || r.event.Stay?) && r.event.box < |e.boxes| ==>
      r.event.force == ProcessedForce(unit(RelativeTarget(e.boxes[r.event.box]).Minus(position)), fixedDeltaTime,
                                      e.force, e.forceOverTimeIncrementer, Tracked(info, id), e.forceType)
  {
    var t := Tracked(info, id);
    match FirstMatch(e.boxes, position, 0)
    case Some(k) =>
      var aimed := RelativeDirection(e.arena, e.boxes[k], position, unit);
      var f := ProcessedForce(aimed.dir, fixedDeltaTime, e.force, e.forceOverTimeIncrementer, t, e.forceType);
      TickResult(if t == 0.0 then Enter(k, f, t) else Stay(k, f, t), info[id := t + deltaTime])
    case None =>
      TickResult(if t != 0.0 then Exit else Silent, info[id := 0.0])
  }

  /** Process for one body as written: a body not strictly inside the cached
      aggregate bounding box is skipped, with no event and no change to its
      tracked time. The guard at line 70 repeats the test of line 62, so it
      always holds for a body that was not skipped. */
  function TickAsWritten(e: Effector, info: map<int, real>, id: int, position: Vec,
                         deltaTime: real, fixedDeltaTime: real, unit: Vec -> Vec): (r: TickResult)
    requires Processable(e) && e.boundingBox.Some?
    ensures !InsideBB(e, position) ==> r == TickResult(Silent, info)
    ensures InsideBB(e, position) ==> r == Tick(e, info, id, position, deltaTime, fixedDeltaTime, unit)
  {
    if !InsideBB(e, position) then TickResult(Silent, info)
    else Tick(e, info, id, position, deltaTime, fixedDeltaTime, unit)
  }

  /** A box can only match a point strictly inside the aggregate bounding box,
      so the pre-filter never skips a body that some box holds. */
  lemma MatchIsInsideAggregate(e: Effector, p: Vec)
    requires Ready(e)
    ensures FirstMatch(e.boxes, p, 0).Some? ==> InsideBB(e, p)
  {
    var m := FirstMatch(e.boxes, p, 0);
    if m.Some? {
      var b := e.boxes[m.value];
      StrictlyInsideGrows(b.boundingBox.value, e.boundingBox.value, p);
    }
  }

  /** The two ticks agree exactly when the body is inside the aggregate box or
      has no tracked time; outside it, the written tick keeps a non-zero time
      that the intended tick resets with Exit. */
  lemma TickAsWrittenDiffers(e: Effector, info: map<int, real>, id: int, position: Vec,
                             deltaTime: real, fixedDeltaTime: real, unit: Vec -> Vec)
    requires Ready(e)
    ensures var w, c := TickAsWritten(e, info, id, position, deltaTime, fixedDeltaTime, unit),
                        Tick(e, info, id, position, deltaTime, fixedDeltaTime, unit);
      && (InsideBB(e, position) ==> w == c)
      && (!InsideBB(e, position) ==>
            c.event == (if Tracked(info, id) != 0.0 then Exit else Silent) && c.info == info[id := 0.0]
            && w.event == Silent && w.info == info)
  {
    MatchIsInsideAggregate(e, position);
  }

  /** The effector of a single default square at the origin, after Awake. */
  function DefaultField(e: Effector): (r: Effector)
    ensures Ready(r)
  {
    var g := GenerateDefaultBox(e, Zero);
    AwakeReady(g);
    Awake(g)
  }

  /** The only box that holds the four corners of the square of side 2 around
      the origin and is reached on every side. */
  lemma SquareBounds(ps: seq<Vec>, a: Bounds)
    requires ps == [Vec(-1.0, 1.0), Vec(1.0, 1.0), Vec(1.0, -1.0), Vec(-1.0, -1.0)]
    requires forall k :: 0 <= k < 4 ==> Within(a, ps[k])
    requires exists k :: 0 <= k < 4 && ps[k].x == a.hi.x
    requires exists k :: 0 <= k < 4 && ps[k].y == a.hi.y
    requires exists k :: 0 <= k < 4 && ps[k].x == a.lo.x
    requires exists k :: 0 <= k < 4 && ps[k].y == a.lo.y
    ensures a == Bounds(Vec(1.0, 1.0), Vec(-1.0, -1.0))
  {
    assert Within(a, ps[1]) && Within(a, ps[3]);
  }

  /** The default square of side 2 at the origin. */
  lemma DefaultSquarePoints(e: Effector)
    ensures var g := GenerateDefaultBox(e, Zero);
      Points(g.arena, g.boxes[0]) == [Vec(-1.0, 1.0), Vec(1.0, 1.0), Vec(1.0, -1.0), Vec(-1.0, -1.0)]
  {
  }

  /** The bounding box of the default square's corners. */
  lemma SquareBoundingBox(pts: seq<Vec>)
    requires pts == [Vec(-1.0, 1.0), Vec(1.0, 1.0), Vec(1.0, -1.0), Vec(-1.0, -1.0)]
    ensures BoundingBox(pts) == Bounds(Vec(1.0, 1.0), Vec(-1.0, -1.0))
  {
    SquareBounds(pts, BoundingBox(pts));
  }

  /** Baking a box with those corners caches the box from (1,1) to (-1,-1). */
  lemma BakedSquare(arena: Arena, b: Box)
    requires WellFormed(arena, b)
    requires Points(arena, b) == [Vec(-1.0, 1.0), Vec(1.0, 1.0), Vec(1.0, -1.0), Vec(-1.0, -1.0)]
    ensures BakeBox(arena, b).nodePoints == Points(arena, b)
    ensures BakeBox(arena, b).boundingBox == Some(Bounds(Vec(1.0, 1.0), Vec(-1.0, -1.0)))
  {
    var pts := Points(arena, b);
    SquareBoundingBox(pts);
    assert BakeBox(arena, b).boundingBox == Some(BakedBounds(pts));
  }

  /** The aggregate of a one-box chain is that box's cached box, when that box
      is not inside out. */
  lemma SingleAggregate(boxes: seq<Box>)
    requires |boxes| == 1 && AllBounded(boxes)
    requires var bb := boxes[0].boundingBox.value; bb.lo.x <= bb.hi.x && bb.lo.y <= bb.hi.y
    ensures ChainBoundingBox(boxes) == boxes[0].boundingBox.value
  {
    var bb := boxes[0].boundingBox.value;
    var agg := ChainBoundingBox(boxes);
    ChainBoundingBoxAttained(boxes);
    assert Within(agg, bb.hi) && Within(agg, bb.lo);
    assert XSideOf(bb, agg.hi.x) && XSideOf(bb, agg.lo.x);
    assert YSideOf(bb, agg.hi.y) && YSideOf(bb, agg.lo.y);
  }

  /** Awake on a chain holding only a box with the default square's corners. */
  lemma AwakeSquare(g: Effector)
    requires Valid(g) && |g.boxes| == 1
    requires Points(g.arena, g.boxes[0]) == [Vec(-1.0, 1.0), Vec(1.0, 1.0), Vec(1.0, -1.0), Vec(-1.0, -1.0)]
    ensures var r := Awake(g);
      && |r.boxes| == 1
      && r.boxes[0].nodePoints == [Vec(-1.0, 1.0), Vec(1.0, 1.0), Vec(1.0, -1.0), Vec(-1.0, -1.0)]
      && r.boxes[0].boundingBox == Some(Bounds(Vec(1.0, 1.0), Vec(-1.0, -1.0)))
      && r.boundingBox == Some(Bounds(Vec(1.0, 1.0), Vec(-1.0, -1.0)))
  {
    BakedSquare(g.arena, g.boxes[0]);
    var r := Awake(g);
    assert r.boxes[0] == BakeBox(g.arena, g.boxes[0]);
    SingleAggregate(r.boxes);
  }

  /** The baked default square: corners (-1,1), (1,1), (1,-1), (-1,-1), cached
      box from (1,1) down to (-1,-1), and the aggregate is that same box. */
  lemma DefaultFieldShape(e: Effector)
    ensures var r := DefaultField(e);
      && |r.boxes| == 1
      && r.boxes[0].nodePoints == [Vec(-1.0, 1.0), Vec(1.0, 1.0), Vec(1.0, -1.0), Vec(-1.0, -1.0)]
      && r.boxes[0].boundingBox == Some(Bounds(Vec(1.0, 1.0), Vec(-1.0, -1.0)))
      && r.boundingBox == Some(Bounds(Vec(1.0, 1.0), Vec(-1.0, -1.0)))
  {
    DefaultSquarePoints(e);
    AwakeSquare(GenerateDefaultBox(e, Zero));
  }

  /** A baked box with the default square's corners around the origin and the
      zero direction aims through edge 1-2: its aim target is the centre (the
      origin) reflected through (1,0), the midpoint of that edge. */
  lemma BakedSquareAim(arena: Arena, b: Box)
    requires WellFormed(arena, b) && b.direction == Zero
    requires Points(arena, b) == [Vec(-1.0, 1.0), Vec(1.0, 1.0), Vec(1.0, -1.0), Vec(-1.0, -1.0)]
    ensures var r := BakeBox(arena, b);
      && AimEdge(r) == Edge(1, 2) && r.center == Zero
      && MiddlePoint(RelativeTarget(r), r.center) == Vec(1.0, 0.0)
  {
    var r := BakeBox(arena, b);
    assert r.nodePoints[1] == Vec(1.0, 1.0) && r.nodePoints[2] == Vec(1.0, -1.0);
    assert r.center == Zero;
    SquareAimTarget(r);
  }

  /** The aim target of a zero-direction box whose edge 1-2 runs from (1,1)
      to (1,-1): the centre reflected through (1,0), the midpoint of that edge. */
  lemma SquareAimTarget(r: Box)
    requires |r.nodePoints| >= 4 && r.direction == Zero
    requires r.nodePoints[1] == Vec(1.0, 1.0) && r.nodePoints[2] == Vec(1.0, -1.0)
    ensures AimEdge(r) == Edge(1, 2) && MiddlePoint(RelativeTarget(r), r.center) == Vec(1.0, 0.0)
  {
    assert AimEdge(r) == Edge(1, 2);
    assert MiddlePoint(r.nodePoints[1], r.nodePoints[2]) == Vec(1.0, 0.0);
  }

  /** The default field's box has the zero direction, sits at the origin and
      aims through edge 1-2: its target is the origin reflected through (1,0). */
  lemma DefaultFieldAim(e: Effector)
    ensures var b := DefaultField(e).boxes[0];
      && b.direction == Zero && AimEdge(b) == Edge(1, 2)
      && b.center == Zero && MiddlePoint(RelativeTarget(b), b.center) == Vec(1.0, 0.0)
  {
    DefaultFieldShape(e);
    DefaultFieldCentred(e);
    SquareAimTarget(DefaultField(e).boxes[0]);
  }

  /** The default field's box keeps the zero direction and is centred on the
      origin once baked. */
  lemma DefaultFieldCentred(e: Effector)
    ensures |DefaultField(e).boxes| == 1
    ensures DefaultField(e).boxes[0].direction == Zero && DefaultField(e).boxes[0].center == Zero
  {
    var g := GenerateDefaultBox(e, Zero);
    assert DefaultField(e) == Awake(g);
    assert DefaultField(e).boxes[0] == BakeBox(g.arena, g.boxes[0]);
  }

  /** The centre of the default square is inside it: one of its four edges
      (the right one) is crossed by the ray. */
  lemma OriginInSquare(sq: seq<Vec>)
    requires sq == [Vec(-1.0, 1.0), Vec(1.0, 1.0), Vec(1.0, -1.0), Vec(-1.0, -1.0)]
    ensures IsPointInPolygon(Zero, sq)
  {
    var p := Zero;
    assert CrossingCount(p, sq, 4) == 0;
    assert CrossingCount(p, sq, 3) == 0 by { assert !Crosses(p, sq[3], sq[2]); }
    assert CrossingCount(p, sq, 2) == 1 by { assert Crosses(p, sq[2], sq[1]); }
    assert CrossingCount(p, sq, 1) == 1 by { assert !Crosses(p, sq[1], sq[0]); }
    assert CrossingCount(p, sq, 0) == 1 by { assert !Crosses(p, sq[0], sq[3]); }
  }

  /** In the default field the origin is held by box 0, and (5,0) lies outside
      the aggregate bounding box, so no box holds it. */
  lemma DefaultFieldMatches(e: Effector)
    ensures FirstMatch(DefaultField(e).boxes, Zero, 0) == Some(0)
    ensures !InsideBB(DefaultField(e), Vec(5.0, 0.0))
    ensures FirstMatch(DefaultField(e).boxes, Vec(5.0, 0.0), 0).None?
  {
    var f := DefaultField(e);
    DefaultFieldShape(e);
    OriginInSquare(f.boxes[0].nodePoints);
    assert Matches(f.boxes[0], Zero);
    MatchIsInsideAggregate(f, Vec(5.0, 0.0));
  }

  /** The lifecycle of one body under the corrected tick: the first tick in a
      box is Enter with no time inside, the next two are Stay with the time
      accumulated so far, the first tick outside every box is Exit with the
      time reset, and ticks outside after that are silent. */
  lemma EnterStayExit(e: Effector, info: map<int, real>, id: int, p: Vec, q: Vec,
                      dt: real, fdt: real, unit: Vec -> Vec)
    requires Processable(e) && dt > 0.0 && Tracked(info, id) == 0.0
    requires FirstMatch(e.boxes, p, 0).Some? && FirstMatch(e.boxes, q, 0).None?
    ensures var t1 := Tick(e, info, id, p, dt, fdt, unit);
      var t2 := Tick(e, t1.info, id, p, dt, fdt, unit);
      var t3 := Tick(e, t2.info, id, p, dt, fdt, unit);
      var t4 := Tick(e, t3.info, id, q, dt, fdt, unit);
      var t5 := Tick(e, t4.info, id, q, dt, fdt, unit);
      && t1.event.Enter? && t1.event.timeInside == 0.0
      && t2.event.Stay? && t2.event.timeInside == dt
      && t3.event.Stay? && t3.event.timeInside == dt + dt
      && t4.event == Exit && Tracked(t4.info, id) == 0.0
      && t5.event == Silent && t5.info == t4.info
  {
    var t1 := Tick(e, info, id, p, dt, fdt, unit);
    var t2 := Tick(e, t1.info, id, p, dt, fdt, unit);
    var t3 := Tick(e, t2.info, id, p, dt, fdt, unit);
    var t4 := Tick(e, t3.info, id, q, dt, fdt, unit);
    assert Tracked(t1.info, id) == dt;
    assert Tracked(t2.info, id) == dt + dt;
    assert Tracked(t3.info, id) == dt + dt + dt;
    assert t4.info[id] == 0.0;
  }

  /** As written, on any field: a body that enters at p and then moves to q
      outside the aggregate bounding box gets no Exit and keeps its time, so
      its next tick at p is a Stay with that stale time. */
  lemma ReentryAsWritten(f: Effector, id: int, p: Vec, q: Vec, dt: real, fdt: real, unit: Vec -> Vec)
    requires Processable(f) && f.boundingBox.Some? && dt > 0.0
    requires FirstMatch(f.boxes, p, 0).Some? && InsideBB(f, p) && !InsideBB(f, q)
    ensures var w1 := TickAsWritten(f, map[], id, p, dt, fdt, unit);
      var w2 := TickAsWritten(f, w1.info, id, q, dt, fdt, unit);
      var w3 := TickAsWritten(f, w2.info, id, p, dt, fdt, unit);
      && w1.event.Enter? && w2.event == Silent && w2.info[id] == dt
      && w3.event.Stay? && w3.event.timeInside == dt
  {
    var w1 := TickAsWritten(f, map[], id, p, dt, fdt, unit);
    assert w1.info[id] == dt;
  }

  /** The corrected tick on the same moves: Enter, Exit with the time reset,
      then Enter again. */
  lemma ReentryCorrected(f: Effector, id: int, p: Vec, q: Vec, dt: real, fdt: real, unit: Vec -> Vec)
    requires Processable(f) && dt > 0.0
    requires FirstMatch(f.boxes, p, 0).Some? && FirstMatch(f.boxes, q, 0).None?
    ensures var c1 := Tick(f, map[], id, p, dt, fdt, unit);
      var c2 := Tick(f, c1.info, id, q, dt, fdt, unit);
      var c3 := Tick(f, c2.info, id, p, dt, fdt, unit);
      && c1.event.Enter? && c2.event == Exit && c2.info[id] == 0.0
      && c3.event.Enter? && c3.event.timeInside == 0.0
  {
    var c1 := Tick(f, map[], id, p, dt, fdt, unit);
    assert c1.info[id] == dt;
    var c2 := Tick(f, c1.info, id, q, dt, fdt, unit);
    assert Tracked(c2.info, id) == 0.0;
  }

  /** The finding on the default field: enter at the origin, jump to (5,0),
      come back. As written the return is a Stay with the stale time; the
      corrected tick reports Enter, Exit, Enter. */
  lemma StaleTimeAsWritten(e: Effector, id: int, dt: real, fdt: real, unit: Vec -> Vec)
    requires dt > 0.0
    ensures var f, far := DefaultField(e), Vec(5.0, 0.0);
      var w1 := TickAsWritten(f, map[], id, Zero, dt, fdt, unit);
      var w2 := TickAsWritten(f, w1.info, id, far, dt, fdt, unit);
      var w3 := TickAsWritten(f, w2.info, id, Zero, dt, fdt, unit);
      && w1.event.Enter? && w2.event == Silent && w2.info[id] == dt
      && w3.event.Stay? && w3.event.timeInside == dt
    ensures var f, far := DefaultField(e), Vec(5.0, 0.0);
      var c1 := Tick(f, map[], id, Zero, dt, fdt, unit);
      var c2 := Tick(f, c1.info, id, far, dt, fdt, unit);
      var c3 := Tick(f, c2.info, id, Zero, dt, fdt, unit);
      && c1.event.Enter? && c2.event == Exit && c2.info[id] == 0.0
      && c3.event.Enter? && c3.event.timeInside == 0.0
  {
    DefaultFieldMatches(e);
    MatchIsInsideAggregate(DefaultField(e), Zero);
    ReentryAsWritten(DefaultField(e), id, Zero, Vec(5.0, 0.0), dt, fdt, unit);
    ReentryCorrected(DefaultField(e), id, Zero, Vec(5.0, 0.0), dt, fdt, unit);
  }

  // ---------------------------------------------------------------------------
  // Process over a list of bodies
  // ---------------------------------------------------------------------------

  /** A rigid body as Process sees it: its instance id and position. */
  datatype Body = Body(id: int, position: Vec)

  /** What one call of Process produces: one event per body, in list order,
      and the final dictionary. */
  datatype Round = Round(events: seq<Event>, info: map<int, real>)

  function Ids(bodies: seq<Body>): set<int> {
    set i | 0 <= i < |bodies| :: bodies[i].id
  }

  /** Process with the corrected tick: each body in turn, each tick seeing the
      dictionary the previous ones left. */
  function Process(e: Effector, info: map<int, real>, bodies: seq<Body>,
                   dt: real, fdt: real, unit: Vec -> Vec): (r: Round)
    requires Processable(e)
    ensures |r.events| == |bodies|
    ensures r.info.Keys == info.Keys + Ids(bodies)
    ensures forall x :: x in info && x !in Ids(bodies) ==> r.info[x] == info[x]
    decreases |bodies|
  {
    if |bodies| == 0 then Round([], info)
    else
      var t := Tick(e, info, bodies[0].id, bodies[0].position, dt, fdt, unit);
      var rest := Process(e, t.info, bodies[1..], dt, fdt, unit);
      assert Ids(bodies) == {bodies[0].id} + Ids(bodies[1..]) by {
        forall x | x in Ids(bodies) ensures x in {bodies[0].id} + Ids(bodies[1..]) {
          var i :| 0 <= i < |bodies| && bodies[i].id == x;
          if i > 0 { assert bodies[1..][i - 1] == bodies[i]; }
        }
        forall x | x in Ids(bodies[1..]) ensures x in Ids(bodies) {
          var i :| 0 <= i < |bodies[1..]| && bodies[1..][i].id == x;
          assert bodies[i + 1] == bodies[1..][i];
        }
      }
      Round([t.event] + rest.events, rest.info)
  }

  /** A tick's outcome depends on the dictionary only through the body's own
      entry. */
  lemma TickDependsOnOwnEntry(e: Effector, info: map<int, real>, info': map<int, real>, id: int,
                              position: Vec, dt: real, fdt: real, unit: Vec -> Vec)
    requires Processable(e) && Tracked(info, id) == Tracked(info', id)
    ensures Tick(e, info, id, position, dt, fdt, unit).event == Tick(e, info', id, position, dt, fdt, unit).event
    ensures Tracked(Tick(e, info, id, position, dt, fdt, unit).info, id)
         == Tracked(Tick(e, info', id, position, dt, fdt, unit).info, id)
  {
  }

  /** Ticking one body does not change what a tick of another body yields. */
  lemma TickOfOtherBody(e: Effector, info: map<int, real>, first: Body, other: Body,
                        dt: real, fdt: real, unit: Vec -> Vec)
    requires Processable(e) && first.id != other.id
    ensures var t := Tick(e, info, first.id, first.position, dt, fdt, unit);
      Tick(e, t.info, other.id, other.position, dt, fdt, unit).event
        == Tick(e, info, other.id, other.position, dt, fdt, unit).event
  {
    var t := Tick(e, info, first.id, first.position, dt, fdt, unit);
    assert Tracked(t.info, other.id) == Tracked(info, other.id);
    TickDependsOnOwnEntry(e, t.info, info, other.id, other.position, dt, fdt, unit);
  }

  predicate DistinctIds(bodies: seq<Body>) {
    forall i, j :: 0 <= i < j < |bodies| ==> bodies[i].id != bodies[j].id
  }

  lemma DistinctTail(bodies: seq<Body>)
    requires |bodies| > 0 && DistinctIds(bodies)
    ensures DistinctIds(bodies[1..])
    ensures forall k :: 0 <= k < |bodies| - 1 ==> bodies[1..][k].id != bodies[0].id
  {
    var rest := bodies[1..];
    forall i, j | 0 <= i < j < |rest| ensures rest[i].id != rest[j].id {
      assert rest[i] == bodies[i + 1] && rest[j] == bodies[j + 1];
    }
  }

  /** One step of Process: the first body's event, then the rest processed
      from the dictionary its tick left. */
  lemma ProcessCons(e: Effector, info: map<int, real>, bodies: seq<Body>, dt: real, fdt: real, unit: Vec -> Vec)
    requires Processable(e) && |bodies| > 0
    ensures var t := Tick(e, info, bodies[0].id, bodies[0].position, dt, fdt, unit);
      Process(e, info, bodies, dt, fdt, unit).events == [t.event] + Process(e, t.info, bodies[1..], dt, fdt, unit).events
  {
  }

  /** With distinct ids, the bodies do not interfere: each event is the one a
      tick of that body alone would produce from the initial dictionary. */
  lemma {:induction false} ProcessIndependent(e: Effector, info: map<int, real>, bodies: seq<Body>,
                                              dt: real, fdt: real, unit: Vec -> Vec)
    requires Processable(e) && DistinctIds(bodies)
    ensures var r := Process(e, info, bodies, dt, fdt, unit);
      forall k :: 0 <= k < |bodies| ==>
        r.events[k] == Tick(e, info, bodies[k].id, bodies[k].position, dt, fdt, unit).event
    decreases |bodies|
  {
    if |bodies| > 0 {
      var t := Tick(e, info, bodies[0].id, bodies[0].position, dt, fdt, unit);
      DistinctTail(bodies);
      ProcessIndependent(e, t.info, bodies[1..], dt, fdt, unit);
      ProcessCons(e, info, bodies, dt, fdt, unit);
      LaterBodiesUnaffected(e, info, bodies, dt, fdt, unit);
    }
  }

  /** With distinct ids, each body ends the round with the time a tick of that
      body alone would leave it, starting from the initial dictionary. */
  lemma {:induction false} ProcessTimes(e: Effector, info: map<int, real>, bodies: seq<Body>,
                                        dt: real, fdt: real, unit: Vec -> Vec)
    requires Processable(e) && DistinctIds(bodies)
    ensures var r := Process(e, info, bodies, dt, fdt, unit);
      forall k :: 0 <= k < |bodies| ==>
        Tracked(r.info, bodies[k].id)
          == Tracked(Tick(e, info, bodies[k].id, bodies[k].position, dt, fdt, unit).info, bodies[k].id)
    decreases |bodies|
  {
    if |bodies| > 0 {
      var t := Tick(e, info, bodies[0].id, bodies[0].position, dt, fdt, unit);
      var rest := bodies[1..];
      DistinctTail(bodies);
      ProcessTimes(e, t.info, rest, dt, fdt, unit);
      var r := Process(e, info, bodies, dt, fdt, unit);
      assert r.info == Process(e, t.info, rest, dt, fdt, unit).info;
      assert bodies[0].id !in Ids(rest);
      forall k | 0 <= k < |bodies|
        ensures Tracked(r.info, bodies[k].id)
             == Tracked(Tick(e, info, bodies[k].id, bodies[k].position, dt, fdt, unit).info, bodies[k].id)
      {
        if k > 0 {
          assert bodies[k] == rest[k - 1];
          assert Tracked(t.info, bodies[k].id) == Tracked(info, bodies[k].id);
          TickDependsOnOwnEntry(e, t.info, info, bodies[k].id, bodies[k].position, dt, fdt, unit);
        }
      }
    }
  }

  /** The inductive step of ProcessIndependent for the bodies after the first. */
  lemma LaterBodiesUnaffected(e: Effector, info: map<int, real>, bodies: seq<Body>,
                              dt: real, fdt: real, unit: Vec -> Vec)
    requires Processable(e) && |bodies| > 0
    requires forall k :: 0 <= k < |bodies| - 1 ==> bodies[1..][k].id != bodies[0].id
    requires var t := Tick(e, info, bodies[0].id, bodies[0].position, dt, fdt, unit);
      var tail := Process(e, t.info, bodies[1..], dt, fdt, unit).events;
      forall k :: 0 <= k < |bodies| - 1 ==>
        tail[k] == Tick(e, t.info, bodies[1..][k].id, bodies[1..][k].position, dt, fdt, unit).event
    ensures var t := Tick(e, info, bodies[0].id, bodies[0].position, dt, fdt, unit);
      var tail := Process(e, t.info, bodies[1..], dt, fdt, unit).events;
      forall k :: 0 <= k < |bodies| - 1 ==>
        tail[k] == Tick(e, info, bodies[1..][k].id, bodies[1..][k].position, dt, fdt, unit).event
  {
    var rest := bodies[1..];
    forall k | 0 <= k < |rest|
      ensures Tick(e, Tick(e, info, bodies[0].id, bodies[0].position, dt, fdt, unit).info,
                   rest[k].id, rest[k].position, dt, fdt, unit).event
           == Tick(e, info, rest[k].id, rest[k].position, dt, fdt, unit).event
    {
      TickOfOtherBody(e, info, bodies[0], rest[k], dt, fdt, unit);
    }
  }
}

=== FILE: geometry.dfy ===
/** Plane geometry over exact reals: the static helpers of MathUtility
    (ray-casting point-in-polygon, midpoint, bounding box, shoelace area)
    together with the pieces of Unity's Vector2 and Mathf the core uses. */
module Geometry {

  /** A Vector2, used both as a point and as a displacement. */
  datatype Vec = Vec(x: real, y: real) {
    function Plus(o: Vec): Vec { Vec(x + o.x, y + o.y) }
    function Minus(o: Vec): Vec { Vec(x - o.x, y - o.y) }
    function Times(k: real): Vec { Vec(k * x, k * y) }
    function Negated(): Vec { Vec(-x, -y) }
  }

  const Zero: Vec := Vec(0.0, 0.0)
  const Left: Vec := Vec(-1.0, 0.0)
  const Right: Vec := Vec(1.0, 0.0)
  const Up: Vec := Vec(0.0, 1.0)
  const Down: Vec := Vec(0.0, -1.0)

  /** An axis-aligned box stored as the source stores it: max corner first, min corner second. */
  datatype Bounds = Bounds(hi: Vec, lo: Vec)

  /** p lies in the closed box. */
  predicate Within(b: Bounds, p: Vec) {
    b.lo.x <= p.x <= b.hi.x && b.lo.y <= p.y <= b.hi.y
  }

  /** The exclusive inside test used by every bounding-box pre-filter. */
  predicate StrictlyInside(b: Bounds, p: Vec) {
    p.x < b.hi.x && p.x > b.lo.x && p.y < b.hi.y && p.y > b.lo.y
  }

  /** A point on any side of the box is rejected by the exclusive test. */
  lemma BoundaryIsRejected(b: Bounds, p: Vec)
    requires Within(b, p)
    requires p.x == b.hi.x || p.x == b.lo.x || p.y == b.hi.y || p.y == b.lo.y
    ensures !StrictlyInside(b, p)
  {
  }

  /** A strictly inside point of an inner box is strictly inside any box enclosing it. */
  lemma StrictlyInsideGrows(inner: Bounds, outer: Bounds, p: Vec)
    requires Within(outer, inner.hi) && Within(outer, inner.lo)
    requires StrictlyInside(inner, p)
    ensures StrictlyInside(outer, p)
  {
  }

  function Abs(r: real): real { if r < 0.0 then -r else r }

  function Max(a: real, b: real): real { if a >= b then a else b }

  function Min(a: real, b: real): real { if a <= b then a else b }

  /** Mathf.RoundToInt: the nearest integer, a tie going to the even one. */
  function RoundToInt(x: real): (n: int)
    ensures -0.5 <= n as real - x <= 0.5
    ensures (n as real - x == 0.5 || x - n as real == 0.5) ==> n % 2 == 0
  {
    var f := x.Floor;
    var frac := x - f as real;
    if frac < 0.5 then f
    else if frac > 0.5 then f + 1
    else if f % 2 == 0 then f
    else f + 1
  }

  /** Rounding an integral value gives that value back. */
  lemma RoundToIntOfInteger(k: int)
    ensures RoundToInt(k as real) == k
  {
  }

  /** The C# (int) cast of a float: truncation toward zero. */
  function Truncate(x: real): (n: int)
    ensures x >= 0.0 ==> 0 <= n && n as real <= x < n as real + 1.0
    ensures x < 0.0 ==> n <= 0 && n as real - 1.0 < x <= n as real
  {
    if x >= 0.0 then x.Floor else -((-x).Floor)
  }

  /** The cast is non-zero exactly for values at least one away from zero. */
  lemma TruncateNonZero(x: real)
    ensures Truncate(x) != 0 <==> (x >= 1.0 || x <= -1.0)
  {
  }

  // ---------------------------------------------------------------------------
  // Point in polygon
  // ---------------------------------------------------------------------------

  /** The toggle condition of the ray-casting loop for the edge from a = collection[i]
      to b = collection[j]. The left conjunct guards the division: it only holds
      when a.y and b.y differ. */
  predicate Crosses(p: Vec, a: Vec, b: Vec) {
    && ((a.y > p.y) != (b.y > p.y))
    && p.x < (b.x - a.x) * (p.y - a.y) / (b.y - a.y) + a.x
  }

  /** The index j that accompanies i in the loop: n - 1 first, then i - 1. */
  function Prev(n: nat, i: nat): (j: nat)
    requires i < n
    ensures j < n
  {
    if i == 0 then n - 1 else i - 1
  }

  /** The vertex after i in the loop: i + 1, and 0 after the last. */
  function Next(n: nat, i: nat): (j: nat)
    requires i < n
    ensures j < n
  {
    if i + 1 == n then 0 else i + 1
  }

  predicate Odd(n: nat) { n % 2 == 1 }

  /** Number of edges i..|poly|-1 that toggle the flag. */
  function CrossingCount(p: Vec, poly: seq<Vec>, i: nat): nat
    requires i <= |poly|
    decreases |poly| - i
  {
    if i == |poly| then 0
    else (if Crosses(p, poly[i], poly[Prev(|poly|, i)]) then 1 else 0) + CrossingCount(p, poly, i + 1)
  }

  /** The loop of IsPointInPolygon from iteration i on, with the flag so far. */
  function ScanEdges(p: Vec, poly: seq<Vec>, i: nat, inside: bool): bool
    requires i <= |poly|
    decreases |poly| - i
  {
    if i == |poly| then inside
    else ScanEdges(p, poly, i + 1, inside != Crosses(p, poly[i], poly[Prev(|poly|, i)]))
  }

  lemma {:induction false} ScanParity(p: Vec, poly: seq<Vec>, i: nat, inside: bool)
    requires i <= |poly|
    ensures ScanEdges(p, poly, i, inside) == (inside != Odd(CrossingCount(p, poly, i)))
    decreases |poly| - i
  {
    if i < |poly| {
      ScanParity(p, poly, i + 1, inside != Crosses(p, poly[i], poly[Prev(|poly|, i)]));
    }
  }

  /** Ray-casting test: inside exactly when an odd number of edges cross the
      horizontal ray from p towards +x; an empty vertex list is never entered. */
  function IsPointInPolygon(p: Vec, poly: seq<Vec>): (r: bool)
    ensures r <==> Odd(CrossingCount(p, poly, 0))
    ensures |poly| == 0 ==> !r
  {
    ScanParity(p, poly, 0, false);
    ScanEdges(p, poly, 0, false)
  }

  lemma {:induction false} NoCrossingMeansZero(p: Vec, poly: seq<Vec>, i: nat)
    requires i <= |poly|
    requires forall k :: i <= k < |poly| ==> !Crosses(p, poly[k], poly[Prev(|poly|, k)])
    ensures CrossingCount(p, poly, i) == 0
    decreases |poly| - i
  {
    if i < |poly| {
      NoCrossingMeansZero(p, poly, i + 1);
    }
  }

  /** If all vertices are strictly above p, or none is, no edge straddles the ray. */
  lemma NoStraddleIsOutside(p: Vec, poly: seq<Vec>)
    requires (forall k :: 0 <= k < |poly| ==> poly[k].y > p.y)
          || (forall k :: 0 <= k < |poly| ==> !(poly[k].y > p.y))
    ensures !IsPointInPolygon(p, poly)
  {
    NoCrossingMeansZero(p, poly, 0);
  }

  /** A quotient of two reals of the same sign, the numerator no larger in size, lies in [0, 1]. */
  lemma QuotientInUnit(n: real, den: real)
    requires (0.0 <= n < den) || (den <= n < 0.0)
    ensures 0.0 <= n / den <= 1.0
  {
    if den < 0.0 {
      var q := n / den;
      assert q * (-den) == -n;
      PositiveQuotientInUnit(-n, -den);
      assert (-n) / (-den) * (-den) == -n;
    } else {
      PositiveQuotientInUnit(n, den);
    }
  }

  lemma PositiveQuotientInUnit(n: real, den: real)
    requires 0.0 <= n <= den && den > 0.0
    ensures 0.0 <= n / den <= 1.0
  {
  }

  /** Where a straddling edge meets the horizontal line through p, it is no
      further right than the rightmost endpoint. */
  lemma CrossingPointBounded(p: Vec, a: Vec, b: Vec)
    requires (a.y > p.y) != (b.y > p.y)
    ensures (b.x - a.x) * (p.y - a.y) / (b.y - a.y) + a.x <= Max(a.x, b.x)
  {
    var n, den := p.y - a.y, b.y - a.y;
    QuotientInUnit(n, den);
    var t := n / den;
    assert (b.x - a.x) * n / den == t * (b.x - a.x);
    var m := Max(a.x, b.x);
    assert (1.0 - t) * a.x <= (1.0 - t) * m;
    assert t * b.x <= t * m;
    assert t * (b.x - a.x) + a.x == (1.0 - t) * a.x + t * b.x;
  }

  /** A point at or right of every vertex is outside: no crossing lies right of it. */
  lemma RightOfAllIsOutside(p: Vec, poly: seq<Vec>)
    requires forall k :: 0 <= k < |poly| ==> poly[k].x <= p.x
    ensures !IsPointInPolygon(p, poly)
  {
    forall k | 0 <= k < |poly|
      ensures !Crosses(p, poly[k], poly[Prev(|poly|, k)])
    {
      var a, b := poly[k], poly[Prev(|poly|, k)];
      if (a.y > p.y) != (b.y > p.y) {
        CrossingPointBounded(p, a, b);
        assert a.x <= p.x && b.x <= p.x;
        assert Max(a.x, b.x) <= p.x;
        assert !(p.x < (b.x - a.x) * (p.y - a.y) / (b.y - a.y) + a.x);
      }
    }
    NoCrossingMeansZero(p, poly, 0);
  }

  /** ... and no further left than the leftmost endpoint. */
  lemma CrossingPointBoundedBelow(p: Vec, a: Vec, b: Vec)
    requires (a.y > p.y) != (b.y > p.y)
    ensures Min(a.x, b.x) <= (b.x - a.x) * (p.y - a.y) / (b.y - a.y) + a.x
  {
    var n, den := p.y - a.y, b.y - a.y;
    QuotientInUnit(n, den);
    var t := n / den;
    assert (b.x - a.x) * n / den == t * (b.x - a.x);
    var m := Min(a.x, b.x);
    assert (1.0 - t) * m <= (1.0 - t) * a.x;
    assert t * m <= t * b.x;
    assert t * (b.x - a.x) + a.x == (1.0 - t) * a.x + t * b.x;
  }

  /** The edge from a to b has one end strictly above p and the other not. */
  predicate Straddles(p: Vec, a: Vec, b: Vec) {
    (a.y > p.y) != (b.y > p.y)
  }

  /** Number of straddling edges among i..|poly|-1. */
  function StraddleCount(p: Vec, poly: seq<Vec>, i: nat): nat
    requires i <= |poly|
    decreases |poly| - i
  {
    if i == |poly| then 0
    else (if Straddles(p, poly[i], poly[Prev(|poly|, i)]) then 1 else 0) + StraddleCount(p, poly, i + 1)
  }

  /** Along the open chain from vertex i-1 to the last vertex, the number of
      straddles has the parity of "the ends are on different sides". */
  lemma {:induction false} StraddleParity(p: Vec, poly: seq<Vec>, i: nat)
    requires 1 <= i <= |poly|
    ensures Odd(StraddleCount(p, poly, i)) == Straddles(p, poly[|poly| - 1], poly[i - 1])
    decreases |poly| - i
  {
    if i < |poly| {
      StraddleParity(p, poly, i + 1);
    }
  }

  /** Round the whole loop the side changes cancel out. */
  lemma LoopStraddlesEven(p: Vec, poly: seq<Vec>)
    ensures !Odd(StraddleCount(p, poly, 0))
  {
    if |poly| > 0 {
      StraddleParity(p, poly, 1);
    }
  }

  /** Left of every vertex, every straddling edge toggles. */
  lemma {:induction false} LeftOfAllCountsStraddles(p: Vec, poly: seq<Vec>, i: nat)
    requires i <= |poly|
    requires forall k :: 0 <= k < |poly| ==> p.x < poly[k].x
    ensures CrossingCount(p, poly, i) == StraddleCount(p, poly, i)
    decreases |poly| - i
  {
    if i < |poly| {
      var a, b := poly[i], poly[Prev(|poly|, i)];
      if Straddles(p, a, b) {
        CrossingPointBoundedBelow(p, a, b);
        assert p.x < a.x && p.x < b.x;
        assert p.x < Min(a.x, b.x);
        assert Crosses(p, a, b);
      } else {
        assert !Crosses(p, a, b);
      }
      LeftOfAllCountsStraddles(p, poly, i + 1);
    }
  }

  /** A point strictly left of every vertex is outside. */
  lemma LeftOfAllIsOutside(p: Vec, poly: seq<Vec>)
    requires forall k :: 0 <= k < |poly| ==> p.x < poly[k].x
    ensures !IsPointInPolygon(p, poly)
  {
    LeftOfAllCountsStraddles(p, poly, 0);
    LoopStraddlesEven(p, poly);
  }

  /** A point the ray-casting test accepts lies in the half-open bounding box of
      the vertices: the minimum sides are included, the maximum sides are not. */
  lemma InsideIsWithinHalfOpenBounds(p: Vec, poly: seq<Vec>)
    requires IsPointInPolygon(p, poly)
    ensures |poly| > 0
    ensures var bb := BoundingBox(poly);
      bb.lo.x <= p.x < bb.hi.x && bb.lo.y <= p.y < bb.hi.y
  {
    var bb := BoundingBox(poly);
    if p.x >= bb.hi.x {
      RightOfAllIsOutside(p, poly);
    }
    if p.x < bb.lo.x {
      LeftOfAllIsOutside(p, poly);
    }
    if p.y >= bb.hi.y {
      NoStraddleIsOutside(p, poly);
    }
    if p.y < bb.lo.y {
      NoStraddleIsOutside(p, poly);
    }
  }

  // ---------------------------------------------------------------------------
  // Midpoint
  // ---------------------------------------------------------------------------

  /** The point halfway from a to b (also what Vector2.Lerp(a, b, 0.5) computes). */
  function MiddlePoint(a: Vec, b: Vec): (m: Vec)
    ensures m == Vec((a.x + b.x) / 2.0, (a.y + b.y) / 2.0)
    ensures m.Minus(a) == b.Minus(m)
  {
    Vec(a.x + 0.5 * (b.x - a.x), a.y + 0.5 * (b.y - a.y))
  }

  lemma MiddlePointSymmetric(a: Vec, b: Vec)
    ensures MiddlePoint(a, b) == MiddlePoint(b, a)
  {
  }

  lemma MiddlePointOfItself(a: Vec)
    ensures MiddlePoint(a, a) == a
  {
  }

  // ---------------------------------------------------------------------------
  // Bounding box
  // ---------------------------------------------------------------------------

  /** Enumerable.Max over a non-empty sequence. */
  function MaxOf(xs: seq<real>): (m: real)
    requires |xs| > 0
    ensures forall i :: 0 <= i < |xs| ==> xs[i] <= m
    ensures exists i :: 0 <= i < |xs| && xs[i] == m
  {
    if |xs| == 1 then xs[0]
    else
      var rest := MaxOf(xs[1..]);
      assert forall i :: 1 <= i < |xs| ==> xs[i] == xs[1..][i - 1];
      if xs[0] >= rest then xs[0] else rest
  }

  /** Enumerable.Min over a non-empty sequence. */
  function MinOf(xs: seq<real>): (m: real)
    requires |xs| > 0
    ensures forall i :: 0 <= i < |xs| ==> m <= xs[i]
    ensures exists i :: 0 <= i < |xs| && xs[i] == m
  {
    if |xs| == 1 then xs[0]
    else
      var rest := MinOf(xs[1..]);
      assert forall i :: 1 <= i < |xs| ==> xs[i] == xs[1..][i - 1];
      if xs[0] <= rest then xs[0] else rest
  }

  function Xs(ps: seq<Vec>): (r: seq<real>)
    ensures |r| == |ps| && forall i :: 0 <= i < |ps| ==> r[i] == ps[i].x
  {
    seq(|ps|, i requires 0 <= i < |ps| => ps[i].x)
  }

  function Ys(ps: seq<Vec>): (r: seq<real>)
    ensures |r| == |ps| && forall i :: 0 <= i < |ps| ==> r[i] == ps[i].y
  {
    seq(|ps|, i requires 0 <= i < |ps| => ps[i].y)
  }

  /** The [max corner, min corner] pair of a non-empty point set: it contains
      every point, and each of its four bounds is reached by some point. Both
      overloads of the source (list and array) are this one function. */
  function BoundingBox(ps: seq<Vec>): (r: Bounds)
    requires |ps| > 0
    ensures forall i :: 0 <= i < |ps| ==> Within(r, ps[i])
    ensures exists i :: 0 <= i < |ps| && ps[i].x == r.hi.x
    ensures exists i :: 0 <= i < |ps| && ps[i].y == r.hi.y
    ensures exists i :: 0 <= i < |ps| && ps[i].x == r.lo.x
    ensures exists i :: 0 <= i < |ps| && ps[i].y == r.lo.y
  {
    var xs, ys := Xs(ps), Ys(ps);
    Bounds(Vec(MaxOf(xs), MaxOf(ys)), Vec(MinOf(xs), MinOf(ys)))
  }

  // ---------------------------------------------------------------------------
  // Shoelace area
  // ---------------------------------------------------------------------------

  /** The shoelace term of the edge from a to b. */
  function EdgeTerm(a: Vec, b: Vec): real {
    (b.x - a.x) * (b.y + a.y)
  }

  /** Sum of the terms of consecutive pairs (closed[k], closed[k+1]) for k >= i:
      the Select/Sum of the source over the list with the closing vertex appended. */
  function PairSum(closed: seq<Vec>, i: nat): real
    requires i <= |closed|
    decreases |closed| - i
  {
    if i + 1 >= |closed| then 0.0
    else EdgeTerm(closed[i], closed[i + 1]) + PairSum(closed, i + 1)
  }

  /** The shoelace sum over the vertex loop, from vertex i on, the edge out of
      the last vertex going back to the first. */
  function LoopSum(ps: seq<Vec>, i: nat): real
    requires i <= |ps|
    decreases |ps| - i
  {
    if i == |ps| then 0.0
    else EdgeTerm(ps[i], ps[Next(|ps|, i)]) + LoopSum(ps, i + 1)
  }

  lemma {:induction false} ClosedLoopSum(ps: seq<Vec>, i: nat)
    requires 0 < |ps| && i <= |ps|
    ensures PairSum(ps + [ps[0]], i) == LoopSum(ps, i)
    decreases |ps| - i
  {
    var closed := ps + [ps[0]];
    if i < |ps| {
      ClosedLoopSum(ps, i + 1);
      var j := Next(|ps|, i);
      assert closed[i] == ps[i] && closed[i + 1] == ps[j];
      assert PairSum(closed, i) == EdgeTerm(closed[i], closed[i + 1]) + PairSum(closed, i + 1);
      assert LoopSum(ps, i) == EdgeTerm(ps[i], ps[j]) + LoopSum(ps, i + 1);
    }
  }

  /** What PolygonArea returns, and what the caller's list becomes: the source
      appends the first vertex to the list it is given. */
  datatype AreaResult = AreaResult(area: real, closed: seq<Vec>)

  /** Half the absolute shoelace sum over the closed vertex loop. */
  function PolygonArea(ps: seq<Vec>): (r: AreaResult)
    requires |ps| > 0
    ensures r.area == Abs(LoopSum(ps, 0)) / 2.0
    ensures r.area >= 0.0
    ensures |r.closed| == |ps| + 1 && r.closed[..|ps|] == ps && r.closed[|ps|] == ps[0]
  {
    var closed := ps + [ps[0]];
    ClosedLoopSum(ps, 0);
    AreaResult(Abs(PairSum(closed, 0)) / 2.0, closed)
  }

  function Translated(ps: seq<Vec>, d: Vec): (r: seq<Vec>)
    ensures |r| == |ps| && forall i :: 0 <= i < |ps| ==> r[i] == ps[i].Plus(d)
  {
    seq(|ps|, i requires 0 <= i < |ps| => ps[i].Plus(d))
  }

  lemma EdgeTermShift(a: Vec, b: Vec, d: Vec)
    ensures EdgeTerm(a.Plus(d), b.Plus(d)) == EdgeTerm(a, b) + 2.0 * d.y * (b.x - a.x)
  {
    assert b.Plus(d).y + a.Plus(d).y == (b.y + a.y) + 2.0 * d.y;
  }

  lemma Distribute(c: real, u: real, v: real)
    ensures c * u + c * v == c * (u + v)
  {
  }

  /** Shifting every vertex adds 2*d.y times the telescoped x-advance from vertex i
      round to vertex 0. */
  lemma {:induction false} LoopSumShift(ps: seq<Vec>, d: Vec, i: nat)
    requires 0 < |ps| && i <= |ps|
    ensures LoopSum(Translated(ps, d), i)
         == LoopSum(ps, i) + 2.0 * d.y * (if i == |ps| then 0.0 else ps[0].x - ps[i].x)
    decreases |ps| - i
  {
    if i < |ps| {
      var ts := Translated(ps, d);
      var j := Next(|ps|, i);
      LoopSumShift(ps, d, i + 1);
      EdgeTermShift(ps[i], ps[j], d);
      var c := 2.0 * d.y;
      var u := ps[j].x - ps[i].x;
      var rest := if i + 1 == |ps| then 0.0 else ps[0].x - ps[i + 1].x;
      assert ts[i] == ps[i].Plus(d) && ts[j] == ps[j].Plus(d);
      assert LoopSum(ts, i) == EdgeTerm(ps[i], ps[j]) + c * u + LoopSum(ts, i + 1);
      assert LoopSum(ts, i + 1) == LoopSum(ps, i + 1) + c * rest;
      assert LoopSum(ps, i) == EdgeTerm(ps[i], ps[j]) + LoopSum(ps, i + 1);
      Distribute(c, u, rest);
      assert u + rest == ps[0].x - ps[i].x;
    }
  }

  /** Moving a polygon does not change its area. */
  lemma PolygonAreaTranslationInvariant(ps: seq<Vec>, d: Vec)
    requires |ps| > 0
    ensures PolygonArea(Translated(ps, d)).area == PolygonArea(ps).area
  {
    LoopSumShift(ps, d, 0);
  }

  /** The shoelace sum of a quadrilateral, written out edge by edge. */
  lemma QuadLoopSum(ps: seq<Vec>)
    requires |ps| == 4
    ensures LoopSum(ps, 0)
         == EdgeTerm(ps[0], ps[1]) + EdgeTerm(ps[1], ps[2]) + EdgeTerm(ps[2], ps[3]) + EdgeTerm(ps[3], ps[0])
  {
    assert LoopSum(ps, 3) == EdgeTerm(ps[3], ps[0]) by { assert Next(4, 3) == 0; }
    assert LoopSum(ps, 2) == EdgeTerm(ps[2], ps[3]) + LoopSum(ps, 3) by { assert Next(4, 2) == 3; }
    assert LoopSum(ps, 1) == EdgeTerm(ps[1], ps[2]) + LoopSum(ps, 2) by { assert Next(4, 1) == 2; }
    assert LoopSum(ps, 0) == EdgeTerm(ps[0], ps[1]) + LoopSum(ps, 1) by { assert Next(4, 0) == 1; }
  }

  /** The unit square has area 1. */
  lemma UnitSquareArea(sq: seq<Vec>)
    requires sq == [Vec(0.0, 0.0), Vec(1.0, 0.0), Vec(1.0, 1.0), Vec(0.0, 1.0)]
    ensures PolygonArea(sq).area == 1.0
  {
    QuadLoopSum(sq);
    assert LoopSum(sq, 0) == -2.0 by {
      assert EdgeTerm(sq[0], sq[1]) == 0.0 && EdgeTerm(sq[1], sq[2]) == 0.0;
      assert EdgeTerm(sq[2], sq[3]) == -2.0 && EdgeTerm(sq[3], sq[0]) == 0.0;
    }
  }

  /** A 2 by 3 rectangle has area 6. */
  lemma RectangleArea(rect: seq<Vec>)
    requires rect == [Vec(0.0, 0.0), Vec(2.0, 0.0), Vec(2.0, 3.0), Vec(0.0, 3.0)]
    ensures PolygonArea(rect).area == 6.0
  {
    QuadLoopSum(rect);
    assert LoopSum(rect, 0) == -12.0 by {
      assert EdgeTerm(rect[0], rect[1]) == 0.0 && EdgeTerm(rect[1], rect[2]) == 0.0;
      assert EdgeTerm(rect[2], rect[3]) == -12.0 && EdgeTerm(rect[3], rect[0]) == 0.0;
    }
  }

  /** The centre of the unit square is inside it; a point right of it is not. */
  lemma UnitSquareContainment(sq: seq<Vec>)
    requires sq == [Vec(0.0, 0.0), Vec(1.0, 0.0), Vec(1.0, 1.0), Vec(0.0, 1.0)]
    ensures IsPointInPolygon(Vec(0.5, 0.5), sq)
    ensures !IsPointInPolygon(Vec(1.5, 0.5), sq)
  {
    var p := Vec(0.5, 0.5);
    assert CrossingCount(p, sq, 4) == 0;
    assert CrossingCount(p, sq, 3) == 0 by { assert !Crosses(p, sq[3], sq[2]); }
    assert CrossingCount(p, sq, 2) == 1 by { assert Crosses(p, sq[2], sq[1]); }
    assert CrossingCount(p, sq, 1) == 1 by { assert !Crosses(p, sq[1], sq[0]); }
    assert CrossingCount(p, sq, 0) == 1 by { assert !Crosses(p, sq[0], sq[3]); }
    RightOfAllIsOutside(Vec(1.5, 0.5), sq);
  }

  lemma MiddlePointExample()
    ensures MiddlePoint(Vec(0.0, 0.0), Vec(2.0, 4.0)) == Vec(1.0, 2.0)
  {
  }
}

=== FILE: wrappers.dfy ===
/** The optional value used for nullable references (a box's parent, the
    child found by a search, an operation that can throw). */
module Wrappers {

  datatype Option<+T> = None | Some(value: T)

}
